=== FILE: README.md ===
# Backtester core: sizing, parameter selection, screening and order tracking

This project models, in Dafny, the pure decision logic of a backtrader-based
equity backtester, and proves properties of that logic:

- **Position sizing and risk rules** (`portfolio/risk.py`, `portfolio/manager.py`
  and the older standalone `portfolio.py`): ATR risk-parity, equal-weight and
  fixed-fraction share counts, the 30% single-name cap, the non-negativity
  clamp, the strict trailing-stop test, the 2% cash buffer, the rebalance diff
  with its $500 minimum trade, and the leverage check.
- **Parameter-grid selection** (`engine/optimizer.py`):
  - the grid helpers: closest candidate, parameter matching, snapping, grid
    index, neighbourhood and robustness score;
  - the Cartesian expansion of a grid and the top-run selection;
  - rank assignment and the composite score;
  - `select_final_params` with the `best`, `plateau`, `plateau_freq` and
    `robust` methods;
  - the result ordering of `grid_search` and the rolling windows of
    `walk_forward_analysis` and `validate_parameter_selection`.
- **Stock screener** (`strategy/screener.py` and the older `screener.py`): the
  chain of row filters over a ticker-indexed snapshot, each appending a
  funnel-log entry. It also covers `_col`, top-N ranking and weight
  allocation.
- **Order bookkeeping** (`strategy/order_manager.py`): the per-ticker
  `{entries, exits}` map of tracked orders, updated on submit, cancel and
  terminal status.

Conventions:

- Python floats are exact `real`s.
- `None`/NaN is `Option`.
- Python `int()` on a float is `PyOps.Trunc`, which truncates toward zero.
- A square root appears only as a parameter satisfying `PyOps.IsSqrt`.
- Python dictionaries keep insertion order, and that order matters (for
  example, the last grid key varies fastest). They are therefore association
  lists `seq<(key, value)>`. A lookup returns the first entry with the key.
- A parameter value is `Params.ParamValue`, which covers int, float, bool,
  string and None. As in Python, a bool passes `isinstance(x, int)` and counts
  as the number 0 or 1, wherever the source does not exclude bools explicitly.
- The backtrader strategy, the simulator and order statuses become
  parameters:
  - an evaluator returning `Skipped | Failed | Ran(metric)`;
  - a status function on orders;
  - the current position size;
  - an id counter standing in for the order factory.
- Dates are integer day offsets.

Modules:

| module | file | contents |
|---|---|---|
| `Wrappers`, `PyOps`, `Seqs`, `Sorting` | `wrappers.dfy`, `pyops.dfy`, `seqs.dfy`, `sorting.dfy` | `Option`; Python arithmetic built-ins; filtering and subsequences; a stable sort on extended reals |
| `Params` | `params.dfy` | parameter values and sets, `_closest_in_list`, `_params_match`, `_snap_params_to_grid`, `_grid_param_index` |
| `GridSpace` | `grid.dfy` | `_expand_param_grid`, `_build_grid_candidates`, `_grid_neighbor_indices`, `compute_robustness_score` |
| `Selection` | `selection.dfy` | top runs, `_rank_values`, `select_final_params` |
| `Composite` | `composite.dfy` | `compute_composite_score` |
| `Search` | `search.dfy` | `grid_search`, `walk_forward_analysis`, `validate_parameter_selection` |
| `Risk`, `Manager`, `LegacyPortfolio` | `risk.dfy`, `manager.dfy`, `legacy_portfolio.dfy` | `portfolio/risk.py`, `portfolio/manager.py`, `portfolio.py` |
| `Screener` | `screener.dfy` | both `StockScreener` classes |
| `Orders` | `orders.dfy` | `OrderManager` |

## Model

| member | source | states |
|---|---|---|
| PyOps.Trunc | portfolio/manager.py:33 | `int(x)` truncates toward zero: for a non-negative argument it is the largest integer not above it, and for a negative argument the smallest integer not below it |
| PyOps.StdDev | engine/optimizer.py:761-764 | the population standard deviation is non-negative and its square is the population variance |
| Risk.PositionSize | portfolio/risk.py:4-32 | raises ZeroDivisionError exactly for equal weight with `max_positions` 0 at a positive price; otherwise a count of 0 or more. The count is 0 for a price <= 0, for risk parity with ATR <= 0 or with a stop distance `atr*stop_mult` <= 0, for an unknown method, and for a non-positive account. For a non-negative account the position costs at most 30% of the account |
| Risk.MethodOf | portfolio/risk.py:14-27 | `risk_parity`, `equal_weight` and `fixed_fraction` select their rules, and exactly those names do; any other name is the unknown method, which sizes no rule |
| Risk.PositionSizeIsLargestWithinBudgets | portfolio/risk.py:14-28 | for a known method and positive unit cost, the count stays within both the method's budget (risk budget over `atr*stop_mult`, equal slice of levered capital, or fixed fraction) and the 30% cap, and one more share would break one of them |
| Risk.CappedTargetIsLargest | portfolio/risk.py:29-32 | capping a truncated budget quotient at `int(0.30*account/price)` and clamping at 0 gives the largest share count within both bounds |
| Risk.CapBound | portfolio/risk.py:29-32 | after the cap and the `max(0, .)` clamp the cost is within 30% of a non-negative account, and the count is 0 for a non-positive account |
| Risk.TruncDivBounds | portfolio/risk.py:20 | `int(a/b)` shares of unit cost `b` fit in budget `a`, and one more share does not |
| Risk.RiskParityExample | tests/test_portfolio_manager.py:28-32 | account 100000, price 50, ATR 2, risk 2% and multiplier 3 give 333 shares |
| Risk.ConcentrationCapExample | tests/test_portfolio_manager.py:34-39 | a huge account with a tiny ATR is held to the 30% cap (30000 shares at price 100) |
| Risk.ShouldTriggerStopLoss | portfolio/risk.py:35-43 | never triggers without a positive ATR; otherwise triggers exactly when the close is strictly below `highest - atr*mult` |
| Risk.StopBoundaryExclusive | tests/test_risk.py:16-22 | a close exactly on the stop line does not trigger, and any close below it does |
| Risk.StopMonotoneInClose | portfolio/risk.py:43 | if a close triggers the stop, every lower close does too |
| Risk.StopLossExamples | tests/test_risk.py:9-35 | the concrete trigger and no-trigger cases, including ATR None |
| Risk.CheckLeverageLimit | portfolio/risk.py:46-48 | the leverage check accepts every input |
| Manager.ForwardedKwargs | portfolio/manager.py:17-24 | the sizing rules receive the caller's `risk_pct` and `stop_mult`, or the manager's defaults 0.02 and 3.0 when absent, and never a `fixed_pct`, so the 10% default applies |
| Manager.CalculatePositionSize | portfolio/manager.py:12-24 | 0 for a price <= 0; raises ZeroDivisionError exactly when the risk module does (equal weight with no positions); otherwise exactly the risk module's size with the manager's position count, leverage and forwarded defaults, hence within the 30% cap |
| Manager.FixedPctIsNotForwarded | portfolio/manager.py:12-24 | a caller's `fixed_pct` has no effect: fixed-fraction sizing always uses the 10% default |
| Manager.CheckCashAvailability | portfolio/manager.py:26-28 | true exactly when 98% of the cash covers the estimated cost |
| Manager.GetMaxPurchasable | portfolio/manager.py:30-33 | 0 for a price <= 0; otherwise the truncated quotient, which for non-negative cash is the largest affordable count, and for negative cash rounds toward zero, costing at least the cash but less than one share more |
| Manager.CheckLeverageLimit | portfolio/manager.py:35-36 | delegates to the risk rule and so accepts every input |
| Manager.GetRebalanceTargets | portfolio/manager.py:38-50 | at most one order per weight entry, each for a priced ticker, non-zero and worth more than $500 |
| Manager.RebalanceTargetsExact | portfolio/manager.py:41-49 | every entry with a truthy price whose diff `int(account*w/price) - held` is non-zero and worth more than $500 yields the order `(ticker, diff)`, and every order comes from such an entry |
| Manager.RebalanceTargetsInOrder | portfolio/manager.py:38-50 | the orders are, in `ideal_weights` order and one each, `(ticker, diff)` for exactly the entries with a truthy price whose diff is non-zero and worth more than $500 |
| Manager.AlignedCons | portfolio/manager.py:48-49 | appending an emitting entry's order in front keeps orders and emitting entries aligned one to one |
| Manager.RebalanceAligned | portfolio/manager.py:40-49 | the loop's orders are aligned one to one, in order, with the emitting weight entries |
| Manager.RebalanceAtTargetIsQuiet | portfolio/manager.py:44-47 | a holding already at its target share count produces no order |
| LegacyPortfolio.LegacyKwargs | portfolio.py:29-57 | the older manager reads risk percentage and stop multiplier with defaults 0.02 and 3.0 and honours a given `fixed_pct` |
| LegacyPortfolio.CalculatePositionSize | portfolio.py:21-65 | raises ZeroDivisionError exactly for equal weight with `max_positions` 0 at a positive price; 0 for a price <= 0 or risk parity with ATR <= 0; for a non-negative account the count is within the 30% cap (there is no clamp), and it is non-negative when the method's budget is |
| LegacyPortfolio.NonNegativeWhenSolvent | portfolio.py:59-65 | when the account and the method's budget are non-negative, the capped count is never negative, so the missing clamp does not matter there |
| LegacyPortfolio.ClampGivesCurrentRule | portfolio.py:59-65 | both managers raise on the same inputs; otherwise clamping the older result at 0 gives exactly the current risk rule with the older keyword defaults |
| LegacyPortfolio.NegativeAccountExample | portfolio.py:59-65 | a negative account yields a negative share count in the older manager, and 0 under the current rule |
| LegacyPortfolio.FixedPctIsHonoured | portfolio.py:54-57 | the older manager uses the caller's `fixed_pct` for fixed-fraction sizing |
| LegacyPortfolio.CheckCashAvailability | portfolio.py:70-78 | true exactly when 98% of the cash covers the cost, the same as the current manager |
| LegacyPortfolio.GetMaxPurchasable | portfolio.py:80-85 | 0 for a price <= 0, else the largest affordable count for non-negative cash; the same as the current manager |
| LegacyPortfolio.CheckLeverageLimit | portfolio.py:90-103 | raises ZeroDivisionError exactly when the total value is 0, and returns True otherwise |
| LegacyPortfolio.LeverageCheckRaisesOnEmptyAccount | portfolio.py:98 | on an empty account the older check raises, while the current rule accepts |
| LegacyPortfolio.LeverageCheckAgreesOtherwise | portfolio.py:90-103 | for a non-zero total value the older check returns True |
| LegacyPortfolio.GetRebalanceTargets | portfolio.py:108-132 | identical to the current manager's rebalance targets |
| Params.ToInt | engine/optimizer.py:53-54 | `int(x)` on an integral value yields an int of the same numeric value |
| Params.PyEqIsEquivalence | engine/optimizer.py:31-35 | value equality with numeric tolerance 0 is reflexive, symmetric and transitive |
| Params.Get | engine/optimizer.py:30 | a lookup succeeds exactly when the key occurs, and returns a value stored under it |
| Params.Keys | engine/optimizer.py:27 | the key set holds exactly the keys present in the parameter set |
| Params.KeyList | engine/optimizer.py:50 | the keys in insertion order |
| Params.ClosestIndex | engine/optimizer.py:20 | the first index at minimal distance: no candidate is closer and every earlier one is strictly farther |
| Params.ClosestInList | engine/optimizer.py:15-22 | the value itself for no candidates, the first candidate when a distance cannot be computed, otherwise a candidate no farther from the value than any other |
| Params.ClosestIsFirstNearest | engine/optimizer.py:15-22 | for numeric inputs the result is the first candidate at minimal absolute distance |
| Params.ClosestOfMemberIsEqual | engine/optimizer.py:15-22 | when the value equals a candidate numerically, the closest candidate has the same value |
| Params.PyEqMatches | engine/optimizer.py:31-35 | equal values match in both directions |
| Params.GetFirst | engine/optimizer.py:29-30 | in a set with distinct keys, looking up an entry's key returns that entry's value |
| Params.ParamsMatchReflexive | engine/optimizer.py:25-36 | every parameter set with distinct keys matches itself |
| Params.ParamsMatchSymmetric | engine/optimizer.py:25-36 | matching is symmetric |
| Params.FirstMatch | engine/optimizer.py:41-43 | the index of the first result whose parameters match, or none when no result matches |
| Params.ParamsInResults | engine/optimizer.py:39-44 | true exactly when some result's parameters match |
| Params.ChosenValue | engine/optimizer.py:209 | the metric of the first result whose parameters match the chosen ones, as `next()` takes it, or the first result's metric when none matches |
| Params.Candidates | engine/optimizer.py:51 | a non-empty candidate list is the one stored under the key in the grid; an absent key has none |
| Params.SnapValue | engine/optimizer.py:51-56 | unchanged without candidates; otherwise the closest candidate (`_closest_in_list`), converted to an int when all candidates are ints; for numeric inputs no candidate is closer to the value than the result |
| Params.SnapParamsToGrid | engine/optimizer.py:47-57 | the keys and their order are kept; keys without candidates pass through; every gridded key takes its own snapped value: the closest candidate, or its int when the grid is all ints |
| Params.SnapValueOnGrid | engine/optimizer.py:47-57 | a numeric value already on the grid snaps to a numerically equal value |
| Params.SnapOnGridMatches | engine/optimizer.py:47-57 | a parameter set already on a numeric grid snaps to a set that matches it |
| Params.StringGridSnapsToFirst | engine/optimizer.py:21-22 | a string value on a string grid snaps to the grid's first candidate, not to itself |
| Params.ScanStop | engine/optimizer.py:65-67 | the position of the first candidate within 1e-9 of the value, every earlier one being numeric and farther |
| Params.GridParamIndex | engine/optimizer.py:60-71 | 0 for an empty grid or a non-numeric value, otherwise an index into the grid |
| Params.GridParamIndexOnNumericGrid | engine/optimizer.py:64-69 | the first index within 1e-9 when one exists, otherwise the first index at minimal distance |
| Params.GridParamIndexExample | engine/optimizer.py:60-71 | the index of 14 and of 15.0 in [10, 14, 20] is 1, and a string gives 0 |
| GridSpace.WithEach | engine/optimizer.py:383-388 | combining a key's values with every tail yields the values-by-tails product in row-major order |
| GridSpace.ExpandParamGrid | engine/optimizer.py:383-388 | as many combinations as the product of the value-list lengths, each holding one entry per grid key |
| GridSpace.ExpandEntry | engine/optimizer.py:383-388 | combination `i` assigns key `j` the value at its mixed-radix digit of `i` |
| GridSpace.ExpandRow | engine/optimizer.py:383-388 | combination `i` is the first key's value at `i / t` in front of tail combination `i mod t`, where `t` counts the tail's combinations |
| GridSpace.LastKeyFastest | engine/optimizer.py:383-388 | the last key's value index is `i` modulo its value count: the last key varies fastest |
| GridSpace.CombosSplitLast | engine/optimizer.py:383-388 | the combination count is the count without the last key times the last key's value count |
| GridSpace.CandidateForm | engine/optimizer.py:133 | numbers become floats of the same value and everything else is kept |
| GridSpace.ValuesOf | engine/optimizer.py:128-135 | the converted values of a key across the results, one for each result holding the key |
| GridSpace.Dedup | engine/optimizer.py:128-135 | numerically distinct values covering every input value |
| GridSpace.CandidatesFromResults | engine/optimizer.py:127-136 | distinct candidates covering every value of the key in the results, drawn from them, and strictly increasing when all are numeric |
| GridSpace.SortedCandidates | engine/optimizer.py:136 | sorting distinct numeric values yields a strictly increasing list with the same members |
| GridSpace.BuildGridCandidates | engine/optimizer.py:122-137 | the given grid when non-empty, otherwise one candidate list per parameter key built from the results |
| GridSpace.GriddedKeys | engine/optimizer.py:76 | only keys of the parameter set that have candidates |
| GridSpace.GridDistance | engine/optimizer.py:84-87 | the Manhattan distance in grid steps is non-negative |
| GridSpace.GridNeighborIndices | engine/optimizer.py:74-90 | the increasing indices of exactly those results whose total step distance is at most `radius*#keys`, or every index when nothing is gridded |
| GridSpace.DistanceToSelf | engine/optimizer.py:84-87 | a parameter set is at distance 0 from itself |
| GridSpace.SelfIsNeighbour | engine/optimizer.py:74-90 | with a non-negative radius a result is its own neighbour |
| GridSpace.Present | engine/optimizer.py:104-111 | exactly the metrics that are not None |
| GridSpace.ComputeRobustnessScore | engine/optimizer.py:93-119 | 0.0 for an index out of range or no neighbour metrics; otherwise positive or negative exactly as the neighbourhood mean is |
| GridSpace.MeanOverSpread | engine/optimizer.py:114-119 | mean over spread (or mean times 1e6 for a flat neighbourhood) has the sign of the mean |
| GridSpace.ScoredResultHasNeighbourMetrics | engine/optimizer.py:101-111 | a result with a metric contributes that metric to its own neighbourhood, so its score is computed from data |
| Selection.TopRuns | engine/optimizer.py:140-152 | never empty for non-empty input, always an order-preserving subsequence. With a threshold some run meets, exactly the runs meeting it, with multiplicities. Otherwise the prefix of `max(1, int(n*top_pct))` runs |
| Selection.ThresholdKept | engine/optimizer.py:140-152 | the runs meeting a threshold form an order-preserving subsequence that is empty exactly when no run meets it |
| Selection.RankValues | engine/optimizer.py:371-380 | ranks form a permutation of 0..n-1; a smaller rank means an at-least-as-good value (None last); equal values keep their input order |
| Selection.UpperMedian | engine/optimizer.py:199 | `sorted(vals)[n//2]` is a member with at most `n//2` values below it and fewer than `n - n//2` above |
| Selection.MedianCounts | engine/optimizer.py:199 | the k-th element of a sorted permutation has at most k values below and `n-1-k` above |
| Selection.ModeIndex | engine/optimizer.py:221-222 | the first position holding a most frequent value |
| Selection.MajorityIsMode | engine/optimizer.py:193-194 | a value held by a strict majority is the mode |
| Selection.RawValues | engine/optimizer.py:189 | at most one value per top run |
| Selection.RawValuesEmpty | engine/optimizer.py:189-192 | no values exactly when no top run holds the key |
| Selection.RawValuesConstant | engine/optimizer.py:216 | runs agreeing on a key yield only that value |
| Selection.Numerics | engine/optimizer.py:197 | empty exactly when no value is numeric |
| Selection.PlateauValue | engine/optimizer.py:186-207 | for a numeric key with a grid, the plateau value lies on the grid |
| Selection.PlateauOfAgreeingRuns | tests/test_optimizer.py:27-39 | when every top run holds the same int on an ungridded key, that int is the plateau value |
| Selection.PlateauParams | engine/optimizer.py:186-210 | the plateau parameters have exactly the first result's keys, in order |
| Selection.FreqValue | engine/optimizer.py:215-234 | a key no top run holds takes the first top run's value; otherwise the most common value is kept when the key has no candidates or the value is on its grid (Python `in`), and an off-grid mode is replaced by its closest candidate, made an `int` on an all-int grid (Params.SnapValue) |
| Selection.ModeOnGrid | engine/optimizer.py:221-234 | with candidates the value is on the grid; the most common value is kept when there are no candidates or it is on the grid (Python `in`); an off-grid mode becomes its closest candidate, an `int` on an all-int grid (Params.SnapValue) |
| Selection.FreqSnapped | engine/optimizer.py:213-235 | the snapped modes keep the first result's keys in order |
| Selection.PlateauFreqParams | engine/optimizer.py:213-247 | the snapped modes when some result matches them; otherwise the parameters of the first result at minimal grid distance from them: no result is nearer, and every earlier result is strictly farther |
| Selection.MatchOrNearest | engine/optimizer.py:236-245 | the target when some result matches it; otherwise the parameters of a result at minimal grid distance from it, every earlier result being strictly farther |
| Selection.NearestIsMatchOrNearest | engine/optimizer.py:238-245 | the first nearest result is unique: the fallback is the result `NearestIndex` finds |
| Selection.PlateauFreqIsEvaluated | engine/optimizer.py:236-246 | the `plateau_freq` choice always matches an evaluated result |
| Selection.Composite | engine/optimizer.py:362-363 | with alpha 1 the combined rank is the metric rank |
| Selection.RobustIndexAsWritten | engine/optimizer.py:356-366 | for any alpha, the first index maximising `alpha * rank_metric + (1 - alpha) * rank_robust`, with the ranks as `_rank_values` computes them (0 the best) |
| Selection.RobustAsWrittenNotDominated | engine/optimizer.py:356-366 | for any alpha in [0, 1], no other result has a strictly larger as-written rank on both performance and robustness, so none is strictly worse on both |
| Selection.ArgMaxNotDominated | engine/optimizer.py:362-363 | the index of the highest weighted rank is not beaten on both ranks by any other index |
| Selection.CompositeGrows | engine/optimizer.py:362 | an index ranked higher on both counts gets the higher combined rank for any alpha in [0, 1] |
| Selection.WeightedMeanGrows | engine/optimizer.py:362 | a weight-`alpha` mixture of two values grows when both values grow |
| Selection.RobustAsWrittenPicksWorst | engine/optimizer.py:356-380 | with all weight on the metric, the source's `robust` returns a result no better than any other |
| Selection.RobustAsWrittenExample | engine/optimizer.py:356-380 | of metrics 2.0 and 1.0 under maximise, the source's `robust` picks the 1.0 run |
| Selection.RankValuesBestHighest | engine/optimizer.py:371-380 | ranks form a permutation in which a larger rank means an at-least-as-good value |
| Selection.RobustIndex | engine/optimizer.py:356-366 | for any alpha, the first index maximising the combined rank, with ranks in which higher is better |
| Selection.RobustIndexNotDominated | engine/optimizer.py:356-366 | for any alpha in [0, 1], no other result ranks strictly higher on both performance and robustness than the corrected choice |
| Selection.RobustPicksBest | engine/optimizer.py:356-366 | with all weight on the metric, the corrected `robust` returns a result at least as good as every other |
| Selection.SelectFinalParams | engine/optimizer.py:155-368 | `({}, None)` without results. `best` and unknown methods return the first result. `robust` returns the result at the as-written composite argmax, whose ranks put the best value at 0. `plateau` keeps the first result's keys. `plateau` and `plateau_freq` report the metric of the first result matching their parameters. The reported metric is always some result's metric |
| Selection.MethodOf | engine/optimizer.py:178-356 | `best`, `plateau`, `plateau_freq` and `robust` select their branches and exactly those names do; `plateau_kde` and `cluster` give no modelled method; any other name is an unrecognised method |
| Selection.SelectRobustPicksWorst | engine/optimizer.py:356-366 | with all weight on the metric, `select_final_params(method='robust')` returns a result whose metric is no better than any other's |
| Selection.SelectRobustExample | engine/optimizer.py:356-366 | of metrics 2.0 and 1.0 under maximise with alpha 1, `select_final_params` returns the 1.0 run |
| Selection.PlateauFreqReportsItsOwnMetric | engine/optimizer.py:236-247 | `plateau_freq` reports the metric of a result its parameters match |
| Composite.Lower | engine/optimizer.py:531 | same length, with each character case-folded |
| Composite.Upper | engine/optimizer.py:542 | same length, with each character upper-cased |
| Composite.StripLeft | engine/optimizer.py:531 | a suffix of the input that starts with a non-blank, everything dropped before it being blank |
| Composite.StripRight | engine/optimizer.py:531 | a prefix of the input that ends with a non-blank, everything dropped after it being blank |
| Composite.DropLeadingSpace | engine/optimizer.py:531 | dropping one more leading blank keeps the result a suffix preceded by blanks only |
| Composite.DropTrailingSpace | engine/optimizer.py:531 | dropping one more trailing blank keeps the result a prefix followed by blanks only |
| Composite.Strip | engine/optimizer.py:531 | a slice `s[a:b]` of the input with only blanks before `a` and after `b`, and no blank at either end of the result |
| Composite.StripBoth | engine/optimizer.py:531 | stripping the left and then the right end leaves the middle slice between blank runs |
| Composite.StripMiddle | engine/optimizer.py:531 | a blank-free prefix of a blank-free suffix is a slice of the input bounded by blanks only |
| Composite.NormalizedIsLowered | engine/optimizer.py:531 | a normalised metric name is already lower case, so lowering it again changes nothing |
| Composite.LoweredChars | engine/optimizer.py:531 | characters drawn from a lowered name are already lower case |
| Composite.Lookup | engine/optimizer.py:539 | a dictionary lookup succeeds exactly when the name occurs, and returns a value stored under it |
| Composite.Assign | engine/optimizer.py:531 | assignment sets the name's value and leaves every other name's lookup unchanged, so every old name is still found |
| Composite.AssignEntries | engine/optimizer.py:531 | after assignment every entry is the new pair or an old entry |
| Composite.AssignKeepsDistinct | engine/optimizer.py:531 | assignment keeps the names distinct |
| Composite.FoldNames | engine/optimizer.py:531 | every weight name is normalised and its weight kept |
| Composite.BuildDict | engine/optimizer.py:531 | distinct names, each with a non-zero weight |
| Composite.Weights | engine/optimizer.py:531 | the weight dictionary has distinct normalised names with non-zero weights |
| Composite.BuildDictCovers | engine/optimizer.py:531 | every non-zero weight's name is in the dictionary |
| Composite.BuildDictEntries | engine/optimizer.py:531 | every dictionary entry comes from a non-zero input weight |
| Composite.BuildDictLastWins | engine/optimizer.py:531 | a name's last non-zero weight is the one kept |
| Composite.WeightsCoverItems | engine/optimizer.py:531 | every non-zero weight's normalised name is weighted |
| Composite.WeightsFromItems | engine/optimizer.py:531 | every weight entry comes from a non-zero input weight with that normalised name |
| Composite.WeightsLastWins | engine/optimizer.py:531 | a repeated normalised name keeps its last non-zero weight |
| Composite.WeightsEmpty | engine/optimizer.py:531-533 | the dictionary is empty exactly when every weight is zero |
| Composite.AsMetric | engine/optimizer.py:545-549 | a metric value is present exactly when the stored value is numeric |
| Composite.MetricValueOfFoldedName | engine/optimizer.py:539-544 | a metric is read under its folded name, falling back to the upper-case spelling only when the folded one is absent and the upper one exists |
| Composite.Column | engine/optimizer.py:536-550 | one metric value per run, in run order |
| Composite.Present | engine/optimizer.py:558 | every present value is kept, and the list is empty exactly when all are missing |
| Composite.MinOf | engine/optimizer.py:566 | a member no larger than any other |
| Composite.MaxOf | engine/optimizer.py:566 | a member no smaller than any other |
| Composite.Norm | engine/optimizer.py:555-573 | every normalised value lies in [0, 1]; a missing value and a value of a constant column are 0.5; a drawdown metric gets one minus the ordinary normalisation |
| Composite.Scaled | engine/optimizer.py:567-572 | the min-max scaling lies in [0, 1]; the maximum maps to 1 (0 for drawdown) and the minimum to 0 (1 for drawdown) |
| Composite.UnitFraction | engine/optimizer.py:570 | a fraction with numerator between 0 and a positive denominator lies in [0, 1], is 1 for the whole and 0 for nothing |
| Composite.ScaledMonotone | engine/optimizer.py:567-572 | a better value never scales lower |
| Composite.NormMonotone | engine/optimizer.py:555-573 | a better present value never normalises lower |
| Composite.NormExtremes | engine/optimizer.py:566-572 | in a non-constant column, the best value normalises to 1 and the worst to 0 |
| Composite.Columns | engine/optimizer.py:536-550 | one column per weighted metric, each with one cell per run, flagged for drawdown metrics |
| Composite.ScoreBounds | engine/optimizer.py:555-574 | a score lies between the sum of the negative weights and the sum of the positive weights |
| Composite.NormRow | engine/optimizer.py:555-573 | one normalised value per weighted metric for a run, each in [0, 1] |
| Composite.WeightedSumBounds | engine/optimizer.py:573-574 | a weighted sum of values in [0, 1] lies between the sums of the negative and the positive weights |
| Composite.TermBounds | engine/optimizer.py:573 | a weighted normalised term lies between min(w, 0) and max(w, 0) |
| Composite.DominantScoresHigher | engine/optimizer.py:555-574 | with positive weights, a run at least as good on every metric scores at least as high |
| Composite.NormOrdered | engine/optimizer.py:555-573 | a cell at least as good as another (both missing, or both present and no worse) never normalises lower |
| Composite.WeightedSumMonotone | engine/optimizer.py:573-574 | with positive weights, a pointwise larger row of normalised values has at least as large a weighted sum |
| Composite.DominantRunScoresHigher | engine/optimizer.py:522-574 | with non-negative weights, a run at least as good on every weighted metric scores at least as high |
| Composite.ScoredRuns | engine/optimizer.py:575 | each run paired with its own score, in run order |
| Composite.CompositeScore | engine/optimizer.py:522-577 | `[]` for no runs or no weights; `(p, 0.0)` for each run when all weights are zero; otherwise a permutation of the scored runs; always in non-increasing score order |
| Composite.SortByScore | engine/optimizer.py:576 | a permutation in non-increasing score order |
| Composite.CompositeScoreBounds | engine/optimizer.py:522-577 | every reported score lies between the sums of the negative and the positive weights |
| Sorting.SortBy | engine/optimizer.py:576 | the stable sort yields a permutation ordered by the key |
| Search.Collect | engine/optimizer.py:590-603 | one record per combination whose run was set up, in grid order, each with its metric and None for a failed run; a skipped combination leaves no record |
| Search.CollectStep | engine/optimizer.py:590-603 | one loop iteration appends at most the current combination's record, keeping every property of the records: membership both ways and alignment with the evaluated combinations |
| Search.SortRunsAsWritten | engine/optimizer.py:605-612 | a permutation with None metrics last and, in both directions, the present metrics non-increasing |
| Search.GridSearch | engine/optimizer.py:580-615 | reports a permutation of the collected records with None last and the present metrics non-increasing whichever direction is asked for; the best is the first record, or `({}, None)` without records |
| Search.GridSearchReportsLargest | engine/optimizer.py:605-615 | in both directions the reported value is the largest metric (None only if all are None) |
| Search.MinimizeAsWrittenPicksLargest | engine/optimizer.py:610-612 | minimising over metrics 1.0 and 2.0 puts the 2.0 record first |
| Search.SortRuns | engine/optimizer.py:605-612 | the corrected order: None last, present metrics non-increasing when maximising and non-decreasing when minimising |
| Search.GridSearchCorrected | engine/optimizer.py:580-615 | the same records and reporting as `grid_search`, with None last and the present metrics non-increasing when maximising, non-decreasing when minimising |
| Search.GridSearchCorrectedReportsBest | engine/optimizer.py:605-615 | the reported value is the largest metric when maximising and the smallest when minimising |
| Search.GridSearchAgreesWhenMaximizing | engine/optimizer.py:605-615 | when maximising, the corrected and the original search coincide |
| Search.Windows | engine/optimizer.py:672-702 | window k trains on `[from + k*test, +train]` and tests on the next `test` days, inside `to`; there is a window exactly when the first fits |
| Search.GuardHoldsForever | engine/optimizer.py:674-702 | with `test_days <= 0` and a first window that fits, the loop guard still holds after any number of steps, so the loop never ends |
| Search.WindowsContiguous | engine/optimizer.py:741-757 | each test period begins where the previous one ended |
| Search.WindowCount | engine/optimizer.py:741-757 | with a positive step the loop runs `(to - from - train - test) / test + 1` times when the first window fits, else never |
| Search.WindowsInRange | engine/optimizer.py:741-743 | each window lies within `[from, to]` in start, train-end, test-end order |
| Search.PerWindow | engine/optimizer.py:744-757 | the k-th entry is `(test_start, test_end, value)` of the k-th window whose run produced a metric, in window order, with one entry per such window |
| Search.PerWindowStep | engine/optimizer.py:744-757 | one loop iteration appends at most the current window's entry, keeping entries aligned with the measured windows |
| Search.AlignedEntries | engine/optimizer.py:744-757 | entries aligned with the measured windows are exactly the entries of the measured windows |
| Search.ValuesOf | engine/optimizer.py:761 | the metrics of the entries, in order |
| Search.Validate | engine/optimizer.py:728-765 | no mean or std exactly when no window produced a metric; otherwise the population mean and the population standard deviation of the per-window metrics |
| Search.ValidateMeanBetween | engine/optimizer.py:759-765 | a mean of window metrics bounded by lo and hi is itself within [lo, hi] |
| Search.TestMetrics | engine/optimizer.py:674-702 | at most one test metric per window |
| Search.AddAverage | engine/optimizer.py:704-706 | the per-parameter groups stay distinct, keep every other group, and the group of the set records the average |
| Search.GroupAverages | engine/optimizer.py:671-706 | the groups are distinct parameter sets (by exact equality), each with at least one average |
| Search.Rows | engine/optimizer.py:712-715 | one row per group holding the mean of its averages |
| Search.SortRows | engine/optimizer.py:723 | a permutation of the rows in the optimisation direction |
| Search.BestAverage | engine/optimizer.py:709-721 | the running best: minus or plus infinity without rows, otherwise the best row average |
| Search.WalkForward | engine/optimizer.py:655-725 | rows are the sorted group means; the best parameters are the first row's, or `{}` without rows |
| Search.WalkForwardBestAgrees | engine/optimizer.py:716-724 | the reported best average is the average of the first row |
| Search.SortedHeadIsBest | engine/optimizer.py:716-724 | the first row of any best-first ordering of the rows carries the best average the loop tracks |
| Search.WalkForwardRowsAreMeans | engine/optimizer.py:712-715 | each row's average is the mean of the values it carries |
| Screener.Create | strategy/screener.py:5-8 | the screener starts with the snapshot, its row count as the initial count, and an empty log |
| Screener.Log | strategy/screener.py:10-12 | logging leaves the frame as it is and appends one entry holding the current row count |
| Screener.Narrow | strategy/screener.py:24-28 | a filter step keeps the columns and the initial count, keeps an order-preserving subsequence of exactly the rows satisfying the step with their multiplicities, and appends one log entry with the remaining count |
| Screener.LiquidityMasksKeepLiquid | screener.py:24-33 | applying the price/volume mask and then the optional dollar-volume mask keeps exactly the rows satisfying all three bounds |
| Screener.FilterLiquidity | strategy/screener.py:14-22 | keeps exactly the rows with Close >= min price, Volume > min volume and, when given, Close*Volume >= min dollar volume, and logs once |
| Screener.FilterLiquidityDefault | tests/test_screener.py:18-28 | default bounds: Close >= 10, any positive volume, no dollar-volume bound |
| Screener.DropMissingMA200First | screener.py:38-44 | dropping missing MA200 before the comparison keeps the same rows as the strict Close > MA200 test alone |
| Screener.FilterTrendAlignment | strategy/screener.py:24-28 | keeps exactly the rows with a present MA200 strictly below Close |
| Screener.FilterRsiSetup | strategy/screener.py:30-36 | keeps exactly the rows with min <= RSI <= max, inclusive at both ends |
| Screener.FilterGapUp | strategy/screener.py:38-45 | no change and no log without PrevClose; otherwise keeps exactly the rows whose gap exceeds threshold*ATR |
| Screener.GapUpSurvivors | screener.py:55-69 | every surviving row has present Close, PrevClose and ATR with Close - PrevClose > threshold*ATR |
| Screener.FilterVolatilityControl | strategy/screener.py:47-51 | keeps exactly the rows whose ATR/Close is at most the allowed percentage |
| Screener.FilterTrendTemplate | strategy/screener.py:68-80 | no change unless every template column is present; otherwise keeps exactly the stage-2 rows |
| Screener.TemplateSurvivorsAboveMA200 | screener.py:117-137 | every row passing the trend template satisfies Close > MA50 > MA150 > MA200 and the 52-week bounds, so it also passes the trend-alignment test |
| Screener.FilterConsolidation | strategy/screener.py:82-88 | no change without band columns; otherwise keeps exactly the rows whose band width over MA20 is within the bound |
| Screener.FilterNarrowRange | strategy/screener.py:90-94 | no change without the range columns; otherwise keeps exactly the rows whose range is the narrowest of the last `days` |
| Screener.FilterRelativeStrength | strategy/screener.py:96-102 | no change without PrevClose; otherwise keeps exactly the rows outperforming the benchmark change |
| Screener.FilterInsideBar | strategy/screener.py:104-113 | no change without the bar columns; otherwise keeps exactly the inside bars |
| Screener.FirstPresent | strategy/screener.py:117-119 | the position of the first listed name that is a column |
| Screener.Col | strategy/screener.py:115-120 | the first listed name that is a column, or none exactly when no listed name is |
| Screener.Fundamental | strategy/screener.py:122-178 | no change when no listed column exists; otherwise keeps exactly the rows whose value is missing or passes the test, and logs once |
| Screener.FilterPe | strategy/screener.py:122-134 | keeps missing PE, or 0 < PE <= max (PE <= max or PE < 0 when negatives are allowed) |
| Screener.PeAllowNegativeIsCap | strategy/screener.py:129-130 | with a non-negative cap, allowing negatives reduces the PE test to PE <= max |
| Screener.FilterPb | strategy/screener.py:136-145 | keeps missing PB, or min <= PB <= max |
| Screener.FilterRoe | strategy/screener.py:147-156 | keeps missing ROE, or ROE >= min |
| Screener.FilterRevenueGrowth | strategy/screener.py:158-167 | keeps missing growth, or growth >= min, reading the first present of the three spellings |
| Screener.FilterDebtToEquity | strategy/screener.py:169-178 | keeps missing ratio, or ratio <= max, reading the first present of the three spellings |
| Screener.SurvivorsSatisfy | strategy/screener.py:14-51 | every row a filter step keeps satisfies the step's predicate and comes from the input |
| Screener.NarrowIdempotent | strategy/screener.py:30-36 | applying the same filter twice keeps the same rows as once, with one more log entry |
| Screener.MissingValues | strategy/screener.py:127-133 | a missing value passes every fundamental test, and fails the RSI range and the MA200 comparison |
| Screener.SetColumn | strategy/screener.py:55 | adds the column, keeps the rows and their tickers, and writes each row's own value |
| Screener.Scores | strategy/screener.py:55 | each row's score is (Close - PrevClose)/ATR, None when any part is missing or ATR is 0 |
| Screener.SortRows | strategy/screener.py:59 | a permutation of the rows in rank order, missing values last |
| Screener.SortedPrefixIsTop | strategy/screener.py:59-60 | in a rank-ordered list, every row of a prefix ranks before every row after it |
| Screener.SortAndCut | strategy/screener.py:59-60 | a sub-multiset of `min(top_n, n)` rows (Python's negative `head` otherwise), in rank order, each ranking before every dropped row |
| Screener.RankAndCut | strategy/screener.py:53-63 | no change for an absent sort column; otherwise the top rows by the column (scores first for relative strength) and one log entry |
| Screener.RankAndCutKeepsTopFive | screener.py:87-104 | by default exactly `min(5, n)` rows remain, in non-increasing score with missing scores last |
| Screener.GetResult | strategy/screener.py:65-66 | the tickers in current row order |
| Screener.AllFilteredGivesEmpty | tests/test_screener.py:92-99 | a filter nothing passes leaves an empty result and logs a count of 0 |
| Screener.InverseVolatility | strategy/screener.py:186 | each row's 1/ATR, None for a missing or zero ATR |
| Screener.EqualWeights | strategy/screener.py:184-185 | one weight per row |
| Screener.RiskParityWeights | strategy/screener.py:186-188 | one weight per row |
| Screener.CalculateWeights | strategy/screener.py:180-190 | an empty frame or an unknown method is unchanged; otherwise the Weight column is added and every other cell, the tickers, the row count and the log are kept; for `equal` each weight is 1/count, for `risk_parity` row i gets the i-th risk-parity weight |
| Screener.WeightMethodOf | strategy/screener.py:184-190 | `equal` and `risk_parity` select their weights and exactly those names do; any other name leaves the frame alone |
| Screener.EqualWeightsSumToOne | screener.py:206-213 | equal weights of a non-empty frame sum to 1 |
| Screener.RiskParityRowWeights | strategy/screener.py:186-188 | with positive ATRs every risk-parity weight is positive and inversely proportional to its row's ATR: weight times ATR is the same constant for every row |
| Screener.RiskParitySumsToOne | strategy/screener.py:186-188 | with positive ATRs the risk-parity weights sum to 1 |
| Screener.RiskParityWeightsNormalised | screener.py:214-223 | with positive ATRs every written weight is positive, weight times ATR is the same constant for all rows (weights proportional to 1/ATR), and the weights sum to 1 |
| Screener.NarrowKeepsFunnel | strategy/screener.py:10-12 | after a filter the logged counts never increase, starting from the initial count |
| Screener.RankAndCutKeepsFunnel | strategy/screener.py:53-63 | ranking and cutting keeps the logged counts non-increasing |
| Orders.Create | strategy/order_manager.py:7-11 | a new manager tracks no orders and has submitted nothing |
| Orders.Submit | strategy/order_manager.py:22 | a submission appends the request and returns a fresh order for the ticker |
| Orders.TrackOrder | strategy/order_manager.py:69-73 | the order is appended to its list, creating the ticker's lists on first use; the other list and every other ticker are unchanged |
| Orders.BuyMarket | strategy/order_manager.py:18-24 | a zero size returns None and changes nothing; otherwise a market buy is submitted and tracked as an entry |
| Orders.ValidUntil | strategy/order_manager.py:29-31 | an expiry exists exactly for a non-zero validity and lies that many days ahead |
| Orders.BuyStop | strategy/order_manager.py:26-40 | a zero size returns None and changes nothing; otherwise a stop buy at the price, with the expiry, is submitted and tracked as an entry |
| Orders.SellMarket | strategy/order_manager.py:42-54 | without a size: a long position is closed and the order tracked as an exit, and otherwise nothing happens. With a size: a market sell is tracked as an exit. Other tickers are unchanged |
| Orders.AnyLive | strategy/order_manager.py:78-80 | true exactly when some listed order is Submitted or Accepted |
| Orders.HasPendingOrder | strategy/order_manager.py:75-81 | true exactly when some tracked entry of the ticker is Submitted or Accepted |
| Orders.PendingIgnoresExits | strategy/order_manager.py:75-81 | tracking an exit never changes whether a ticker has a pending order |
| Orders.FreshEntryIsPending | strategy/order_manager.py:18-24 | a non-zero market buy whose order is Submitted makes the ticker pending |
| Orders.CancelsFor | strategy/order_manager.py:88-90 | the k-th request cancels the k-th live order of the list: one cancel per live order, in list order, and nothing else |
| Orders.CancelsForStep | strategy/order_manager.py:88-90 | one loop iteration keeps the cancels aligned with the live orders |
| Orders.AlignedCancels | strategy/order_manager.py:88-90 | cancels aligned with the live orders request only live orders of the list, every live order of the list, and no more calls than the list has orders |
| Orders.CancelAllOrdersRequests | strategy/order_manager.py:83-92 | the calls made, in order: for the default types the live entries' cancels and then the live exits', for a single type that list's live orders |
| Orders.Cancelled | strategy/order_manager.py:87-91 | cancels of live orders of the listed types only, covering all of them |
| Orders.Emptied | strategy/order_manager.py:92 | the listed types are emptied and the others kept |
| Orders.CancelAllOrders | strategy/order_manager.py:83-92 | no change for an untracked ticker; otherwise the listed types are emptied, the rest kept, and exactly the live orders' cancels requested |
| Orders.NothingPendingAfterCancelAll | strategy/order_manager.py:83-92 | after cancelling both types the ticker has no pending order |
| Orders.UpdateTrailingStop | strategy/order_manager.py:56-67 | the calls made are the cancels of the live exits, then, with a long position, one stop sell for the whole position at the stop price; entries unchanged; with a long position the exits become exactly the new stop sell, otherwise they are empty and None is returned; other tickers unchanged |
| Orders.ExitCancels | strategy/order_manager.py:57 | cancelling only the exits requests the live exits' cancels in list order, and nothing for an untracked ticker |
| Orders.RemoveFirst | strategy/order_manager.py:115-116 | removes the first occurrence only (nothing when absent), leaving the multiset minus that order |
| Orders.RemoveFirstAppended | strategy/order_manager.py:111-116 | removing an order just appended to a list without it gives back the list |
| Orders.CleanupTracking | strategy/order_manager.py:111-116 | both lists of the order's ticker lose the order's first occurrence; nothing else changes |
| Orders.ProcessStatus | strategy/order_manager.py:94-109 | a non-terminal status changes nothing; a terminal one removes the order from both lists of its ticker |
| Orders.TrackThenCompleteRestores | strategy/order_manager.py:69-116 | tracking an order and then reporting it terminal restores the ticker's lists |

## Left out

- `plateau_kde` and `cluster` in `select_final_params` are not modelled. They call scipy's kernel density estimator and sklearn's k-means.
- `run_bayesian_optimization` and `run_optstrategy` are not modelled. They depend on scikit-optimize and on backtrader's `optstrategy`.
- Metric extraction is not modelled: `_extract_metric`, `_get_returns` and `_params_to_dict`. They read backtrader analyzers and pandas series. The evaluator parameter stands in for them.
- Simulator runs inside `grid_search` and the walk-forward loops are not modelled; each run is an evaluator result. An exception is `Failed` and a `None` cerebro is `Skipped`.
- Dates are integer day offsets. Timestamps and `Timedelta` arithmetic are not modelled.
- Logging is not modelled: `_log` text, logger warnings and `log_trade` calls. The funnel log keeps only the step and the remaining count, and drops the formatted message.
- Python float artefacts are not modelled: rounding, infinities and NaN produced by arithmetic.
- Screener.Div: models division by a zero ATR or zero denominator as a missing value. pandas gives ±inf there, and ±inf then compares like a number.
- Composite.AsMetric: float parsing of string metrics (`float(v)` on a string) is not modelled. A non-numeric metric value is missing.
- Params.ClosestInList: a string that Python's `float()` parses (such as `"14"`) counts as non-numeric, so the model takes the `except` path and returns the first candidate where the source measures distances. The model has no string-to-number parser.
- Params.GridParamIndex: a string value that `float()` parses (such as `"14"`) gets index 0 here, while the source compares it with the grid; the same missing parser.
- GridSpace.CandidateForm: a string that `float()` parses is kept as a string; the source stores its float. The same missing parser.
- Composite.Lower, Composite.Upper: case folding covers ASCII letters only. Blank stripping uses the full set of characters Python's `str.strip()` removes.
- Set iteration order in `_build_grid_candidates` is not modelled: a non-numeric candidate list keeps first-seen order.
- The tie averaging promised by the `_rank_values` docstring is not modelled, because the code does not do it. Ties keep their input order, as the stable sort does.
- pandas' `sort_values` is not stable. The model sorts stably, and its contracts state only the key order, so they hold for any tie order.
- Screener: a column a filter requires but the frame lacks (a pandas KeyError) is a precondition, not an error result.
- Orders: a status change delivered while `cancel_all_orders` runs is not modelled.
- Orders: `strat.buy`, `strat.sell` and `strat.close` are a request log plus an order counter.
- Orders: order statuses and the position size are parameters.
- GridSpace.ComputeRobustnessScore: states the zero cases and the sign of the score, not the exact quotient `mean/(std + 1e-9)` nor the `mean*1e6` flat case.
- GridSpace.MeanOverSpread: states only that the score has the sign of the mean.
- Screener.RiskParityWeightsNormalised: proved only for frames whose ATRs are all positive. With a zero or missing ATR the source's weights are not finite.
- Screener.EqualWeights: states the length. The value 1/count of each weight is stated in Screener.CalculateWeights.
- Selection.PlateauValue: states only the on-grid property for numeric gridded keys. The bool-mode case and the median rule are not stated as contracts.
- Search.TestMetrics: states only the bound on the count of test metrics.
- Search.AddAverage: does not state group insertion order.
- Search.GroupAverages: groups parameter sets by exact equality of their entries. The source's key `tuple(sorted(params.items()))` compares values with Python `==`, so it also merges sets whose values differ only as `1`, `1.0` and `True`; that happens only when one grid lists such equal values for a key. Key order never matters here, because every combination of one grid has the same key order. Its contract states that the groups are distinct and non-empty, not which parameter sets produced them.
- Search.WalkForward: returns each group's parameters in grid key order. The source rebuilds them with `dict(param_tup)` from sorted items, so its dicts list the keys in sorted order; the keys and values are the same.

## Findings

| source | as written | input that shows it | evidently intended | confidence | as-written member | corrected member |
|---|---|---|---|---|---|---|
| engine/optimizer.py:606-612 | with `maximize=False` the key is `-v` and the sort is ascending, so the largest metric comes first and is reported as best | two runs with metrics 1.0 and 2.0, minimising: 2.0 is reported | the smallest metric first when minimising | not executed | Search.MinimizeAsWrittenPicksLargest | Search.GridSearchCorrectedReportsBest |
| engine/optimizer.py:356-380 | `_rank_values` gives rank 0 to the best value, and `robust` takes the argmax of the combined ranks, so it selects the worst-ranked run | two runs with metrics 2.0 and 1.0, maximising, alpha 1: the 1.0 run is chosen | ranks where higher is better, so the best run is chosen | not executed | Selection.SelectRobustPicksWorst | Selection.RobustPicksBest |
| portfolio.py:59-65 | the older manager returns the capped count without clamping at 0 | account -1000, price 10, ATR 2, risk parity: a negative share count | a share count of 0 or more, as `portfolio/risk.py` clamps | not executed | LegacyPortfolio.NegativeAccountExample | Risk.PositionSize |
| engine/optimizer.py:674-702 | the window loops advance `current` by `test_days` only, and nothing checks that it is positive | `test_days = 0` with a first window that fits: the `while` loops of `walk_forward_analysis` and `validate_parameter_selection` never end | a positive `test_days`, for which the loop runs `(to - from - train - test) // test + 1` times | not executed | Search.GuardHoldsForever | Search.WindowCount |
| portfolio.py:98 | the unused leverage ratio divides by `total_value` | `total_value = 0`: ZeroDivisionError instead of True | True for every input, as `portfolio/risk.py` returns | not executed | LegacyPortfolio.LeverageCheckRaisesOnEmptyAccount | Risk.CheckLeverageLimit |

=== FILE: composite.dfy ===
/**
 * `compute_composite_score` of engine/optimizer.py: several metrics of each
 * evaluated parameter set are min-max normalised column by column, weighted,
 * summed, and the parameter sets are returned best score first.
 */
module Composite {
  import opened Wrappers
  import opened Params
  import Sorting

  // ---------------------------------------------------------------------------
  // Metric-name folding: `k.lower().strip()` and `k.upper()`, with ASCII case folding
  // ---------------------------------------------------------------------------

  function LowerChar(c: char): char {
    if 'A' <= c <= 'Z' then (c as int + 32) as char else c
  }

  function UpperChar(c: char): char {
    if 'a' <= c <= 'z' then (c as int - 32) as char else c
  }

  /** `s.lower()` */
  function Lower(s: string): (r: string)
    ensures |r| == |s|
    ensures forall i | 0 <= i < |s| :: r[i] == LowerChar(s[i])
  {
    seq(|s|, i requires 0 <= i < |s| => LowerChar(s[i]))
  }

  /** `s.upper()` */
  function Upper(s: string): (r: string)
    ensures |r| == |s|
    ensures forall i | 0 <= i < |s| :: r[i] == UpperChar(s[i])
  {
    seq(|s|, i requires 0 <= i < |s| => UpperChar(s[i]))
  }

  /**
   * Python's default `str.strip()` whitespace: the characters `str.isspace()`
   * accepts, namely U+0009 to U+000D, U+001C to U+0020, U+0085, U+00A0,
   * U+1680, U+2000 to U+200A, U+2028, U+2029, U+202F, U+205F and U+3000.
   */
  predicate IsSpace(c: char) {
    || '\U{0009}' <= c <= '\U{000D}'
    || '\U{001C}' <= c <= '\U{0020}'
    || c == '\U{0085}' || c == '\U{00A0}' || c == '\U{1680}'
    || '\U{2000}' <= c <= '\U{200A}'
    || c == '\U{2028}' || c == '\U{2029}' || c == '\U{202F}' || c == '\U{205F}' || c == '\U{3000}'
  }

  /** Every character of `s` is whitespace. */
  predicate AllSpace(s: string) {
    forall i | 0 <= i < |s| :: IsSpace(s[i])
  }

  /** `s.lstrip()`: drops the leading whitespace and nothing else. */
  function StripLeft(s: string): (r: string)
    ensures |r| <= |s|
    ensures r == s[|s| - |r|..]
    ensures AllSpace(s[..|s| - |r|])
    ensures |r| == 0 || !IsSpace(r[0])
  {
    if |s| > 0 && IsSpace(s[0]) then
      var r := StripLeft(s[1..]);
      DropLeadingSpace(s, r);
      r
    else s
  }

  /** Dropping one more leading blank keeps `r` a suffix preceded by blanks only. */
  lemma DropLeadingSpace(s: string, r: string)
    requires |s| > 0 && IsSpace(s[0]) && |r| <= |s| - 1
    requires r == s[1..][|s| - 1 - |r|..] && AllSpace(s[1..][..|s| - 1 - |r|])
    ensures r == s[|s| - |r|..] && AllSpace(s[..|s| - |r|])
  {
    var n := |s| - |r|;
    assert s[1..][n - 1..] == s[n..];
    forall i | 0 <= i < n ensures IsSpace(s[..n][i]) {
      if i > 0 { assert s[..n][i] == s[1..][..n - 1][i - 1]; }
    }
  }

  /** `s.rstrip()`: drops the trailing whitespace and nothing else. */
  function StripRight(s: string): (r: string)
    ensures r <= s
    ensures AllSpace(s[|r|..])
    ensures |r| == 0 || !IsSpace(r[|r| - 1])
  {
    if |s| > 0 && IsSpace(s[|s| - 1]) then
      var t := s[..|s| - 1];
      var r := StripRight(t);
      DropTrailingSpace(s, t, r);
      r
    else s
  }

  /** Dropping one more trailing blank keeps `r` a prefix followed by blanks only. */
  lemma DropTrailingSpace(s: string, t: string, r: string)
    requires |s| > 0 && IsSpace(s[|s| - 1]) && t == s[..|s| - 1]
    requires r <= t && AllSpace(t[|r|..])
    ensures r <= s && AllSpace(s[|r|..])
  {
    forall i | 0 <= i < |s| - |r| ensures IsSpace(s[|r|..][i]) {
      if i < |t| - |r| { assert s[|r|..][i] == t[|r|..][i]; }
    }
  }

  /** `s.strip()`: the middle of `s` between its leading and trailing whitespace. */
  function Strip(s: string): (r: string)
    ensures exists a, b | 0 <= a <= b <= |s| :: r == s[a..b] && AllSpace(s[..a]) && AllSpace(s[b..])
    ensures |r| == 0 || (!IsSpace(r[0]) && !IsSpace(r[|r| - 1]))
    ensures forall c | c in r :: c in s
  {
    var t := StripLeft(s);
    var r := StripRight(t);
    StripBoth(s, t, r);
    r
  }

  lemma StripBoth(s: string, t: string, r: string)
    requires t == StripLeft(s) && r == StripRight(t)
    ensures exists a, b | 0 <= a <= b <= |s| :: r == s[a..b] && AllSpace(s[..a]) && AllSpace(s[b..])
    ensures |r| == 0 || (!IsSpace(r[0]) && !IsSpace(r[|r| - 1]))
    ensures forall c | c in r :: c in s
  {
    var a := |s| - |t|;
    var b := a + |r|;
    StripMiddle(s, t, r, a, b);
    if |r| > 0 { assert r[0] == t[0]; }
  }

  lemma StripMiddle(s: string, t: string, r: string, a: nat, b: nat)
    requires |t| <= |s| && a == |s| - |t| && t == s[a..] && AllSpace(s[..a])
    requires r <= t && AllSpace(t[|r|..]) && b == a + |r|
    ensures 0 <= a <= b <= |s| && r == s[a..b] && AllSpace(s[b..])
    ensures forall c | c in r :: c in s
  {
    assert r == s[a..b];
    assert s[b..] == t[|r|..];
    forall c | c in r ensures c in s {
      var i :| 0 <= i < |r| && r[i] == c;
      assert s[a + i] == c;
    }
  }

  /** The dictionary key a weight name is stored under: `k.lower().strip()`. */
  function NormalizeName(k: string): string {
    Strip(Lower(k))
  }

  predicate IsLowered(s: string) {
    forall i | 0 <= i < |s| :: LowerChar(s[i]) == s[i]
  }

  /** A stored weight name is already lower-case, so the `k.lower()` fallback looks up `k` itself. */
  lemma NormalizedIsLowered(k: string)
    ensures IsLowered(NormalizeName(k))
    ensures Lower(NormalizeName(k)) == NormalizeName(k)
  {
    var l := Lower(k);
    var r := Strip(l);
    LoweredChars(k, l, r);
  }

  /** Every character drawn from a lowered string is its own lower case. */
  lemma LoweredChars(k: string, l: string, r: string)
    requires l == Lower(k)
    requires forall c | c in r :: c in l
    ensures IsLowered(r)
    ensures Lower(r) == r
  {
    forall i | 0 <= i < |r| ensures LowerChar(r[i]) == r[i] {
      assert r[i] in l;
      var j :| 0 <= j < |l| && l[j] == r[i];
      assert r[i] == LowerChar(k[j]);
    }
  }

  // ---------------------------------------------------------------------------
  // Weights: `{k.lower().strip(): float(v) for k, v in w.items() if v != 0}`
  // ---------------------------------------------------------------------------

  /** A dict of floats as its entries in insertion order. */
  type RealDict = seq<(string, real)>

  function Lookup(d: RealDict, k: string): (r: Option<real>)
    ensures r.Some? <==> exists i :: 0 <= i < |d| && d[i].0 == k
    ensures r.Some? ==> exists i :: 0 <= i < |d| && d[i] == (k, r.value)
  {
    if |d| == 0 then None
    else if d[0].0 == k then Some(d[0].1)
    else
      assert forall i | 0 <= i < |d[1..]| :: d[1..][i] == d[i + 1];
      Lookup(d[1..], k)
  }

  predicate DistinctNames(d: RealDict) {
    forall i, j | 0 <= i < j < |d| :: d[i].0 != d[j].0
  }

  /** `d[k] = v`: an existing key keeps its place and takes the new value; a new key goes last. */
  function Assign(d: RealDict, k: string, v: real): (r: RealDict)
    ensures Lookup(r, k) == Some(v)
    ensures forall k' | k' != k :: Lookup(r, k') == Lookup(d, k')
  {
    if |d| == 0 then [(k, v)]
    else
      var r := if d[0].0 == k then [(k, v)] + d[1..] else [d[0]] + Assign(d[1..], k, v);
      assert r[1..] == (if d[0].0 == k then d[1..] else Assign(d[1..], k, v));
      r
  }

  /** Every entry after `d[k] = v` is the new pair or an old entry. */
  lemma {:induction false} AssignEntries(d: RealDict, k: string, v: real)
    ensures forall i | 0 <= i < |Assign(d, k, v)| :: Assign(d, k, v)[i] == (k, v) || Assign(d, k, v)[i] in d
  {
    if |d| > 0 && d[0].0 != k {
      var rest := Assign(d[1..], k, v);
      AssignEntries(d[1..], k, v);
      var r := Assign(d, k, v);
      forall i | 0 <= i < |r| ensures r[i] == (k, v) || r[i] in d {
        if i > 0 {
          assert r[i] == rest[i - 1];
          assert r[i] == (k, v) || r[i] in d[1..];
        }
      }
    }
  }

  /** Assignment keeps the names distinct. */
  lemma {:induction false} AssignKeepsDistinct(d: RealDict, k: string, v: real)
    requires DistinctNames(d)
    ensures DistinctNames(Assign(d, k, v))
  {
    if |d| > 0 {
      if d[0].0 == k {
        ReplaceHeadKeepsDistinct(d, k, v);
      } else {
        var rest := Assign(d[1..], k, v);
        assert DistinctNames(d[1..]) by {
          forall i, j | 0 <= i < j < |d[1..]| ensures d[1..][i].0 != d[1..][j].0 {
            assert d[1..][i] == d[i + 1] && d[1..][j] == d[j + 1];
          }
        }
        AssignKeepsDistinct(d[1..], k, v);
        AssignEntries(d[1..], k, v);
        assert Assign(d, k, v) == [d[0]] + rest;
        ConsKeepsDistinct(d, k, v, rest);
      }
    }
  }

  lemma ReplaceHeadKeepsDistinct(d: RealDict, k: string, v: real)
    requires |d| > 0 && d[0].0 == k && DistinctNames(d)
    ensures DistinctNames([(k, v)] + d[1..])
  {
    var r := [(k, v)] + d[1..];
    forall i, j | 0 <= i < j < |r| ensures r[i].0 != r[j].0 {
      assert r[j] == d[j];
      if i > 0 { assert r[i] == d[i]; } else { assert r[i].0 == d[0].0; }
    }
  }

  lemma ConsKeepsDistinct(d: RealDict, k: string, v: real, rest: RealDict)
    requires |d| > 0 && d[0].0 != k && DistinctNames(d) && DistinctNames(rest)
    requires forall i | 0 <= i < |rest| :: rest[i] == (k, v) || rest[i] in d[1..]
    ensures DistinctNames([d[0]] + rest)
  {
    var r := [d[0]] + rest;
    forall i, j | 0 <= i < j < |r| ensures r[i].0 != r[j].0 {
      if i == 0 {
        var x := rest[j - 1];
        assert r[j] == x;
        if x.0 != k {
          assert x in d[1..];
          var m :| 0 <= m < |d[1..]| && d[1..][m] == x;
          assert d[m + 1] == x;
        }
      } else {
        assert r[i] == rest[i - 1] && r[j] == rest[j - 1];
      }
    }
  }

  /** The items with each name folded: `(k.lower().strip(), float(v))`. */
  function FoldNames(cw: seq<(string, real)>): (r: seq<(string, real)>)
    ensures |r| == |cw|
    ensures forall j | 0 <= j < |cw| :: r[j] == (NormalizeName(cw[j].0), cw[j].1)
  {
    seq(|cw|, j requires 0 <= j < |cw| => (NormalizeName(cw[j].0), cw[j].1))
  }

  /** `{k: v for k, v in items if v != 0}` */
  function BuildDict(items: seq<(string, real)>): (r: RealDict)
    ensures DistinctNames(r)
    ensures forall i | 0 <= i < |r| :: r[i].1 != 0.0
  {
    if |items| == 0 then []
    else
      var d := BuildDict(items[..|items| - 1]);
      var last := items[|items| - 1];
      if last.1 != 0.0 then
        var r := Assign(d, last.0, last.1);
        AssignKeepsDistinct(d, last.0, last.1);
        AssignEntries(d, last.0, last.1);
        r
      else d
  }

  /** The weights dict the comprehension builds from the given `(name, weight)` items. */
  function Weights(cw: seq<(string, real)>): (r: RealDict)
    ensures DistinctNames(r)
    ensures forall i | 0 <= i < |r| :: r[i].1 != 0.0
  {
    BuildDict(FoldNames(cw))
  }

  /** Every item with a nonzero value is kept. */
  lemma {:induction false} BuildDictCovers(items: seq<(string, real)>, j: nat)
    requires j < |items| && items[j].1 != 0.0
    ensures Lookup(BuildDict(items), items[j].0).Some?
    decreases |items|
  {
    var front := items[..|items| - 1];
    var last := items[|items| - 1];
    if j < |items| - 1 {
      assert front[j] == items[j];
      BuildDictCovers(front, j);
    }
  }

  /** Every stored entry is an item with a nonzero value. */
  lemma {:induction false} BuildDictEntries(items: seq<(string, real)>, i: nat)
    requires i < |BuildDict(items)|
    ensures exists j :: 0 <= j < |items| && items[j].1 != 0.0 && items[j] == BuildDict(items)[i]
    decreases |items|
  {
    var front := items[..|items| - 1];
    var last := items[|items| - 1];
    var d := BuildDict(front);
    var x := BuildDict(items)[i];
    if x == last && last.1 != 0.0 {
      assert items[|items| - 1] == last;
    } else {
      AssignEntries(d, last.0, last.1);
      assert x in d;
      var i' :| 0 <= i' < |d| && d[i'] == x;
      BuildDictEntries(front, i');
      var j :| 0 <= j < |front| && front[j].1 != 0.0 && front[j] == d[i'];
      assert items[j] == front[j];
    }
  }

  /** Later items overwrite earlier ones: a name holds the value of its last nonzero item. */
  lemma {:induction false} BuildDictLastWins(items: seq<(string, real)>, j: nat)
    requires j < |items| && items[j].1 != 0.0
    requires forall i | j < i < |items| :: items[i].1 == 0.0 || items[i].0 != items[j].0
    ensures Lookup(BuildDict(items), items[j].0) == Some(items[j].1)
    decreases |items|
  {
    var front := items[..|items| - 1];
    if j < |items| - 1 {
      assert front[j] == items[j];
      BuildDictLastWins(front, j);
    }
  }

  /** Every name with a nonzero weight is kept, under its folded spelling. */
  lemma WeightsCoverItems(cw: seq<(string, real)>, j: nat)
    requires j < |cw| && cw[j].1 != 0.0
    ensures Lookup(Weights(cw), NormalizeName(cw[j].0)).Some?
  {
    BuildDictCovers(FoldNames(cw), j);
  }

  /** Every stored weight is a nonzero item's weight under that item's folded name. */
  lemma WeightsFromItems(cw: seq<(string, real)>, i: nat)
    requires i < |Weights(cw)|
    ensures exists j :: 0 <= j < |cw| && cw[j].1 != 0.0 && (NormalizeName(cw[j].0), cw[j].1) == Weights(cw)[i]
  {
    var items := FoldNames(cw);
    BuildDictEntries(items, i);
    var j :| 0 <= j < |items| && items[j].1 != 0.0 && items[j] == BuildDict(items)[i];
    assert cw[j].1 != 0.0 && (NormalizeName(cw[j].0), cw[j].1) == Weights(cw)[i];
  }

  /** Every weight is the one given last for its folded name. */
  lemma WeightsLastWins(cw: seq<(string, real)>, j: nat)
    requires j < |cw| && cw[j].1 != 0.0
    requires forall i | j < i < |cw| :: cw[i].1 == 0.0 || NormalizeName(cw[i].0) != NormalizeName(cw[j].0)
    ensures Lookup(Weights(cw), NormalizeName(cw[j].0)) == Some(cw[j].1)
  {
    BuildDictLastWins(FoldNames(cw), j);
  }

  /** All weights zero (or no items) is exactly the empty weights dict. */
  lemma WeightsEmpty(cw: seq<(string, real)>)
    ensures |Weights(cw)| == 0 <==> forall j | 0 <= j < |cw| :: cw[j].1 == 0.0
  {
    if exists j :: 0 <= j < |cw| && cw[j].1 != 0.0 {
      var j :| 0 <= j < |cw| && cw[j].1 != 0.0;
      WeightsCoverItems(cw, j);
    } else if |Weights(cw)| > 0 {
      WeightsFromItems(cw, 0);
    }
  }

  // ---------------------------------------------------------------------------
  // Metric lookup
  // ---------------------------------------------------------------------------

  /** The metrics of one run: a dict, or some other object without `.get`. */
  datatype MetricsRecord = MetricDict(entries: ParamSet) | NotADict

  /** A dict value after the `float(v)` coercion; strings are not parsed and give None. */
  function AsMetric(v: Option<ParamValue>): (r: Option<real>)
    ensures r.Some? <==> v.Some? && IsNumeric(v.value)
  {
    if v.Some? && IsNumeric(v.value) then Some(ToReal(v.value)) else None
  }

  /** `v is None` for a `.get` result. */
  predicate Absent(v: Option<ParamValue>) {
    v.None? || v.value.PNone?
  }

  /** Column `k` for one run: `m.get(k)`, then `m.get(k.upper(), m.get(k.lower(), None))`. */
  function MetricValue(m: MetricsRecord, k: string): Option<real> {
    match m
    case NotADict => None
    case MetricDict(e) =>
      var v := Get(e, k);
      if !Absent(v) then AsMetric(v)
      else if HasKey(e, Upper(k)) then AsMetric(Get(e, Upper(k)))
      else AsMetric(Get(e, Lower(k)))
  }

  /** For a folded weight name the lookup reads the name itself, then its upper-case spelling. */
  lemma MetricValueOfFoldedName(m: MetricsRecord, name: string)
    ensures var k := NormalizeName(name);
      MetricValue(m, k) ==
        if m.NotADict? then None
        else if !Absent(Get(m.entries, k)) || !HasKey(m.entries, Upper(k)) then AsMetric(Get(m.entries, k))
        else AsMetric(Get(m.entries, Upper(k)))
  {
    NormalizedIsLowered(name);
  }

  // ---------------------------------------------------------------------------
  // Normalisation and the weighted score
  // ---------------------------------------------------------------------------

  /** Metrics where a smaller value is better; their normalised value is flipped. */
  predicate LowerIsBetter(k: string) {
    k == "drawdown" || k == "max_drawdown"
  }

  type Evaluated = (ParamSet, MetricsRecord)

  /** `cols[k]`: metric `k` of every run, None where missing. */
  function Column(results: seq<Evaluated>, k: string): (r: seq<Option<real>>)
    ensures |r| == |results|
    ensures forall i | 0 <= i < |results| :: r[i] == MetricValue(results[i].1, k)
  {
    seq(|results|, i requires 0 <= i < |results| => MetricValue(results[i].1, k))
  }

  /** `[x for x in col if x is not None]` */
  function Present(col: seq<Option<real>>): (r: seq<real>)
    ensures forall i | 0 <= i < |col| && col[i].Some? :: col[i].value in r
    ensures |r| == 0 <==> forall i | 0 <= i < |col| :: col[i].None?
  {
    if |col| == 0 then []
    else
      var rest := Present(col[1..]);
      assert forall i | 1 <= i < |col| :: col[i] == col[1..][i - 1];
      if col[0].Some? then [col[0].value] + rest else rest
  }

  function MinOf(s: seq<real>): (r: real)
    requires |s| > 0
    ensures r in s && forall x | x in s :: r <= x
  {
    if |s| == 1 then s[0]
    else
      var m := MinOf(s[1..]);
      assert forall x | x in s :: x == s[0] || x in s[1..];
      if s[0] <= m then s[0] else m
  }

  function MaxOf(s: seq<real>): (r: real)
    requires |s| > 0
    ensures r in s && forall x | x in s :: x <= r
  {
    if |s| == 1 then s[0]
    else
      var m := MaxOf(s[1..]);
      assert forall x | x in s :: x == s[0] || x in s[1..];
      if s[0] >= m then s[0] else m
  }

  /**
   * The normalised value of row `i` of a column: 0.5 when the column has no
   * values, the row has none or the column is constant, else its min-max
   * position, flipped for a lower-is-better metric.
   */
  function Norm(col: seq<Option<real>>, i: nat, lowerBetter: bool): (r: real)
    requires i < |col|
    ensures 0.0 <= r <= 1.0
    ensures col[i].None? ==> r == 0.5
    ensures col[i].Some? && MinOf(Present(col)) == MaxOf(Present(col)) ==> r == 0.5
    ensures lowerBetter ==> r == 1.0 - Norm(col, i, false)
  {
    var vals := Present(col);
    assert col[i].Some? ==> col[i].value in vals;
    if |vals| == 0 || col[i].None? then 0.5
    else
      var lo, hi := MinOf(vals), MaxOf(vals);
      if hi == lo then 0.5 else Scaled(col[i].value, lo, hi, lowerBetter)
  }

  /** `(v - lo) / (hi - lo)`, or one minus it for a lower-is-better metric. */
  function Scaled(v: real, lo: real, hi: real, lowerBetter: bool): (r: real)
    requires lo <= v <= hi && lo < hi
    ensures 0.0 <= r <= 1.0
    ensures v == hi ==> r == if lowerBetter then 0.0 else 1.0
    ensures v == lo ==> r == if lowerBetter then 1.0 else 0.0
  {
    var a, d := v - lo, hi - lo;
    UnitFraction(a, d);
    var n := a / d;
    if lowerBetter then 1.0 - n else n
  }

  /** A fraction of a positive whole lies in the unit interval; the whole gives 1 and nothing gives 0. */
  lemma UnitFraction(a: real, b: real)
    requires 0.0 <= a <= b && b > 0.0
    ensures 0.0 <= a / b <= 1.0
    ensures a == b ==> a / b == 1.0
    ensures a == 0.0 ==> a / b == 0.0
  {
    var q := a / b;
    assert q * b == a;
    if q < 0.0 {
      PyOps.MulLt(q, 0.0, b);
      assert false;
    }
    if q > 1.0 {
      PyOps.MulLt(1.0, q, b);
      assert false;
    }
  }

  /** Scaling keeps the order of raw values, and a lower-is-better metric reverses it. */
  lemma ScaledMonotone(u: real, v: real, lo: real, hi: real, lowerBetter: bool)
    requires lo <= u <= hi && lo <= v <= hi && lo < hi
    requires if lowerBetter then u <= v else u >= v
    ensures Scaled(u, lo, hi, lowerBetter) >= Scaled(v, lo, hi, lowerBetter)
  {
    var d := hi - lo;
    assert (u - lo) / d - (v - lo) / d == (u - v) / d;
    if lowerBetter {
      assert (v - u) / d >= 0.0;
    } else {
      assert (u - v) / d >= 0.0;
    }
  }

  /** A better raw value never normalises lower: larger for ordinary metrics, smaller for drawdowns. */
  lemma NormMonotone(col: seq<Option<real>>, i: nat, j: nat, lowerBetter: bool)
    requires i < |col| && j < |col| && col[i].Some? && col[j].Some?
    requires if lowerBetter then col[i].value <= col[j].value else col[i].value >= col[j].value
    ensures Norm(col, i, lowerBetter) >= Norm(col, j, lowerBetter)
  {
    var vals := Present(col);
    assert col[i].value in vals && col[j].value in vals;
    var lo, hi := MinOf(vals), MaxOf(vals);
    if hi != lo {
      ScaledMonotone(col[i].value, col[j].value, lo, hi, lowerBetter);
    }
  }

  /** The column's best present value normalises to 1 and its worst to 0. */
  lemma NormExtremes(col: seq<Option<real>>, i: nat, lowerBetter: bool)
    requires i < |col| && col[i].Some?
    ensures var vals := Present(col);
      MinOf(vals) < MaxOf(vals) ==>
        (col[i].value == MaxOf(vals) ==> Norm(col, i, lowerBetter) == (if lowerBetter then 0.0 else 1.0)) &&
        (col[i].value == MinOf(vals) ==> Norm(col, i, lowerBetter) == (if lowerBetter then 1.0 else 0.0))
  {
    assert col[i].value in Present(col);
  }

  /** The values of one weighted metric across all runs, and whether it is a lower-is-better metric. */
  datatype MetricColumn = MetricColumn(cells: seq<Option<real>>, lowerBetter: bool)

  /** `cols`: one column per weight name, in the weights' order. */
  function Columns(results: seq<Evaluated>, ws: RealDict): (cols: seq<MetricColumn>)
    ensures Shaped(cols, ws, |results|)
    ensures forall t | 0 <= t < |ws| ::
      cols[t] == MetricColumn(Column(results, ws[t].0), LowerIsBetter(ws[t].0))
  {
    seq(|ws|, t requires 0 <= t < |ws| => MetricColumn(Column(results, ws[t].0), LowerIsBetter(ws[t].0)))
  }

  /** One column per weight, each with one cell per run. */
  predicate Shaped(cols: seq<MetricColumn>, ws: RealDict, n: nat) {
    |cols| == |ws| && forall t | 0 <= t < |cols| :: |cols[t].cells| == n
  }

  /** `sum(weights[k] * norm_k)` for run `i`, over the weight names in dict order. */
  function Score(ws: RealDict, cols: seq<MetricColumn>, i: nat): real
    requires |cols| == |ws| && forall t | 0 <= t < |cols| :: i < |cols[t].cells|
  {
    WeightedSum(ws, NormRow(cols, i))
  }

  /** The normalised values of run `i`, one per column. */
  function NormRow(cols: seq<MetricColumn>, i: nat): (r: seq<real>)
    requires forall t | 0 <= t < |cols| :: i < |cols[t].cells|
    ensures |r| == |cols|
    ensures forall t | 0 <= t < |cols| :: r[t] == Norm(cols[t].cells, i, cols[t].lowerBetter)
    ensures forall t | 0 <= t < |r| :: 0.0 <= r[t] <= 1.0
  {
    seq(|cols|, t requires 0 <= t < |cols| => Norm(cols[t].cells, i, cols[t].lowerBetter))
  }

  /** `weights[k] * n_k`, summed over the weights in dict order. */
  function WeightedSum(ws: RealDict, ns: seq<real>): real
    requires |ns| == |ws|
  {
    if |ws| == 0 then 0.0 else ws[0].1 * ns[0] + WeightedSum(ws[1..], ns[1..])
  }

  /** Sum of the negative weights (the lowest score possible). */
  function NegativePart(ws: RealDict): real {
    if |ws| == 0 then 0.0 else (if ws[0].1 < 0.0 then ws[0].1 else 0.0) + NegativePart(ws[1..])
  }

  /** Sum of the positive weights (the highest score possible). */
  function PositivePart(ws: RealDict): real {
    if |ws| == 0 then 0.0 else (if ws[0].1 > 0.0 then ws[0].1 else 0.0) + PositivePart(ws[1..])
  }

  /** Every score lies within the weights' signed parts. */
  lemma ScoreBounds(ws: RealDict, cols: seq<MetricColumn>, i: nat)
    requires |cols| == |ws| && forall t | 0 <= t < |cols| :: i < |cols[t].cells|
    ensures NegativePart(ws) <= Score(ws, cols, i) <= PositivePart(ws)
  {
    WeightedSumBounds(ws, NormRow(cols, i));
  }

  /** Each unit value adds between `min(0, w)` and `max(0, w)` to the sum. */
  lemma {:induction false} WeightedSumBounds(ws: RealDict, ns: seq<real>)
    requires |ns| == |ws| && forall t | 0 <= t < |ns| :: 0.0 <= ns[t] <= 1.0
    ensures NegativePart(ws) <= WeightedSum(ws, ns) <= PositivePart(ws)
  {
    if |ws| > 0 {
      var rest := ns[1..];
      assert forall t | 0 <= t < |rest| :: rest[t] == ns[t + 1];
      WeightedSumBounds(ws[1..], rest);
      TermBounds(ws[0].1, ns[0]);
    }
  }

  lemma TermBounds(w: real, n: real)
    requires 0.0 <= n <= 1.0
    ensures (if w < 0.0 then w else 0.0) <= w * n <= (if w > 0.0 then w else 0.0)
  {
    if w >= 0.0 {
      PyOps.MulLe(n, 1.0, w);
      PyOps.MulLe(0.0, n, w);
      assert 0.0 <= n * w <= w;
      assert n * w == w * n;
    } else {
      PyOps.MulLe(n, 1.0, -w);
      PyOps.MulLe(0.0, n, -w);
      assert w * n == -(n * (-w));
    }
  }

  /** Cell `i` is at least as good as cell `j`: both missing, or both present and `i` no worse. */
  predicate AtLeastAsGood(col: seq<Option<real>>, i: nat, j: nat, lowerBetter: bool)
    requires i < |col| && j < |col|
  {
    (col[i].None? && col[j].None?) ||
    (col[i].Some? && col[j].Some? &&
     if lowerBetter then col[i].value <= col[j].value else col[i].value >= col[j].value)
  }

  /** With positive weights, a run at least as good on every weighted metric scores at least as high. */
  lemma DominantScoresHigher(ws: RealDict, cols: seq<MetricColumn>, i: nat, j: nat)
    requires |cols| == |ws| && forall t | 0 <= t < |cols| :: i < |cols[t].cells| && j < |cols[t].cells|
    requires forall t | 0 <= t < |ws| :: ws[t].1 > 0.0 && AtLeastAsGood(cols[t].cells, i, j, cols[t].lowerBetter)
    ensures Score(ws, cols, i) >= Score(ws, cols, j)
  {
    var ni, nj := NormRow(cols, i), NormRow(cols, j);
    forall t | 0 <= t < |ws| ensures ni[t] >= nj[t] {
      NormOrdered(cols[t].cells, i, j, cols[t].lowerBetter);
    }
    WeightedSumMonotone(ws, ni, nj);
  }

  /** With positive weights, a pointwise larger row has a larger weighted sum. */
  lemma {:induction false} WeightedSumMonotone(ws: RealDict, a: seq<real>, b: seq<real>)
    requires |a| == |ws| && |b| == |ws|
    requires forall t | 0 <= t < |ws| :: ws[t].1 > 0.0 && a[t] >= b[t]
    ensures WeightedSum(ws, a) >= WeightedSum(ws, b)
  {
    if |ws| > 0 {
      var ws', a', b' := ws[1..], a[1..], b[1..];
      forall t | 0 <= t < |ws'| ensures ws'[t].1 > 0.0 && a'[t] >= b'[t] {
        assert ws'[t] == ws[t + 1] && a'[t] == a[t + 1] && b'[t] == b[t + 1];
      }
      WeightedSumMonotone(ws', a', b');
      ScaleLe(ws[0].1, b[0], a[0]);
    }
  }

  lemma ScaleLe(w: real, x: real, y: real)
    requires w > 0.0 && x <= y
    ensures w * x <= w * y
  {
    assert w * y - w * x == w * (y - x);
  }

  /** A cell at least as good as another never normalises lower. */
  lemma NormOrdered(col: seq<Option<real>>, i: nat, j: nat, lowerBetter: bool)
    requires i < |col| && j < |col| && AtLeastAsGood(col, i, j, lowerBetter)
    ensures Norm(col, i, lowerBetter) >= Norm(col, j, lowerBetter)
  {
    if col[i].Some? {
      NormMonotone(col, i, j, lowerBetter);
    }
  }

  /** With non-negative weights, a run at least as good as another on every weighted metric scores at least as high. */
  lemma DominantRunScoresHigher(results: seq<Evaluated>, cw: seq<(string, real)>, i: nat, j: nat)
    requires i < |results| && j < |results|
    requires forall t | 0 <= t < |cw| :: cw[t].1 >= 0.0
    requires forall t | 0 <= t < |cw| && cw[t].1 != 0.0 ::
      var k := NormalizeName(cw[t].0);
      AtLeastAsGood(Column(results, k), i, j, LowerIsBetter(k))
    ensures var ws := Weights(cw);
      Score(ws, Columns(results, ws), i) >= Score(ws, Columns(results, ws), j)
  {
    var ws := Weights(cw);
    var cols := Columns(results, ws);
    forall t | 0 <= t < |ws|
      ensures ws[t].1 > 0.0 && AtLeastAsGood(cols[t].cells, i, j, cols[t].lowerBetter)
    {
      WeightsFromItems(cw, t);
    }
    DominantScoresHigher(ws, cols, i, j);
  }

  // ---------------------------------------------------------------------------
  // compute_composite_score
  // ---------------------------------------------------------------------------

  type ScoredRun = (ParamSet, real)

  function ScoreKey(s: ScoredRun): Sorting.XReal {
    Sorting.Fin(s.1)
  }

  /** `[(params_i, score_i)]` in input order, before sorting. */
  function ScoredRuns(results: seq<Evaluated>, ws: RealDict): (r: seq<ScoredRun>)
    ensures |r| == |results|
    ensures forall i | 0 <= i < |results| :: r[i] == (results[i].0, Score(ws, Columns(results, ws), i))
  {
    var cols := Columns(results, ws);
    seq(|results|, i requires 0 <= i < |results| => (results[i].0, Score(ws, cols, i)))
  }

  /**
   * The composite ranking. `composite_weights` is given as its items; the
   * source's `maximize` argument is unused and so not a parameter.
   */
  function CompositeScore(results: seq<Evaluated>, cw: seq<(string, real)>): (r: seq<ScoredRun>)
    ensures |results| == 0 || |cw| == 0 ==> r == []
    ensures |results| > 0 && |cw| > 0 && (forall j | 0 <= j < |cw| :: cw[j].1 == 0.0) ==>
              |r| == |results| && forall i | 0 <= i < |r| :: r[i] == (results[i].0, 0.0)
    ensures |results| > 0 && (exists j :: 0 <= j < |cw| && cw[j].1 != 0.0) ==>
              |r| == |results| && multiset(r) == multiset(ScoredRuns(results, Weights(cw)))
    ensures forall a, b | 0 <= a < b < |r| :: r[a].1 >= r[b].1
  {
    WeightsEmpty(cw);
    if |results| == 0 || |cw| == 0 then []
    else
      var ws := Weights(cw);
      if |ws| == 0 then
        seq(|results|, i requires 0 <= i < |results| => (results[i].0, 0.0))
      else
        SortByScore(ScoredRuns(results, ws))
  }

  /** `out.sort(key=lambda x: x[1], reverse=True)` */
  function SortByScore(s: seq<ScoredRun>): (r: seq<ScoredRun>)
    ensures |r| == |s| && multiset(r) == multiset(s)
    ensures forall a, b | 0 <= a < b < |r| :: r[a].1 >= r[b].1
  {
    var r := Sorting.SortBy(s, ScoreKey, true);
    assert forall a, b | 0 <= a < b < |r| :: Sorting.InOrder(ScoreKey(r[a]), ScoreKey(r[b]), true);
    r
  }

  /** Every composite score lies between the sums of the negative and of the positive weights. */
  lemma CompositeScoreBounds(results: seq<Evaluated>, cw: seq<(string, real)>, t: nat)
    requires t < |CompositeScore(results, cw)|
    ensures var ws := Weights(cw);
      NegativePart(ws) <= CompositeScore(results, cw)[t].1 <= PositivePart(ws)
  {
    var r := CompositeScore(results, cw);
    var ws := Weights(cw);
    WeightsEmpty(cw);
    if |ws| > 0 {
      ScoredRunBounds(results, ws, r[t]);
    }
  }

  /** Every run scored against a non-empty weight dict lies between the weights' signed parts. */
  lemma ScoredRunBounds(results: seq<Evaluated>, ws: RealDict, x: ScoredRun)
    requires x in multiset(ScoredRuns(results, ws))
    ensures NegativePart(ws) <= x.1 <= PositivePart(ws)
  {
    var s := ScoredRuns(results, ws);
    var i :| 0 <= i < |s| && s[i] == x;
    ScoreBounds(ws, Columns(results, ws), i);
  }
}

=== FILE: grid.dfy ===
/**
 * The parameter grid of `engine/optimizer.py`: `_expand_param_grid`,
 * `_build_grid_candidates`, `_grid_neighbor_indices` and
 * `compute_robustness_score`.
 */
module GridSpace {
  import opened Wrappers
  import opened PyOps
  import opened Params
  import opened Seqs
  import Sorting

  // ---------------------------------------------------------------------------
  // _expand_param_grid
  // ---------------------------------------------------------------------------

  /** Number of combinations: the product of the candidate list lengths. */
  function Combos(pg: Grid): nat {
    if |pg| == 0 then 1 else |pg[0].1| * Combos(pg[1..])
  }

  /** `{k: v, **tail}` for each `v` of `vs` (outer) and each tail (inner). */
  function WithEach(k: string, vs: seq<ParamValue>, tails: seq<ParamSet>): (r: seq<ParamSet>)
    ensures |r| == |vs| * |tails|
    ensures forall i | 0 <= i < |r| :: 0 < |tails| && i / |tails| < |vs|
    ensures forall i | 0 <= i < |r| :: r[i] == [(k, vs[i / |tails|])] + tails[i % |tails|]
  {
    if |vs| == 0 then []
    else
      var head := seq(|tails|, b requires 0 <= b < |tails| => [(k, vs[0])] + tails[b]);
      var rest := WithEach(k, vs[1..], tails);
      WithEachStep(k, vs, tails, head, rest);
      MulPred(|vs|, |tails|);
      head + rest
  }

  lemma WithEachStep(k: string, vs: seq<ParamValue>, tails: seq<ParamSet>, head: seq<ParamSet>, rest: seq<ParamSet>)
    requires |vs| > 0
    requires |head| == |tails| && forall b | 0 <= b < |tails| :: head[b] == [(k, vs[0])] + tails[b]
    requires forall i | 0 <= i < |rest| :: 0 < |tails| && i / |tails| < |vs| - 1
    requires forall i | 0 <= i < |rest| :: rest[i] == [(k, vs[1..][i / |tails|])] + tails[i % |tails|]
    ensures forall i | 0 <= i < |head + rest| :: 0 < |tails| && i / |tails| < |vs|
    ensures forall i | 0 <= i < |head + rest| :: (head + rest)[i] == [(k, vs[i / |tails|])] + tails[i % |tails|]
  {
    var T := |tails|;
    var r := head + rest;
    forall i | 0 <= i < |r|
      ensures 0 < T && i / T < |vs|
    {
      if i < T {
        WithEachHead(k, vs, tails, head, rest, i);
      } else {
        WithEachTail(k, vs, tails, head, rest, i);
      }
    }
    forall i | 0 <= i < |r|
      ensures r[i] == [(k, vs[i / T])] + tails[i % T]
    {
      if i < T {
        WithEachHead(k, vs, tails, head, rest, i);
      } else {
        WithEachTail(k, vs, tails, head, rest, i);
      }
    }
  }

  lemma MulPred(m: int, n: int)
    ensures m * n == n + (m - 1) * n
  {
    assert (m - 1) * n == m * n - n;
  }

  lemma WithEachHead(k: string, vs: seq<ParamValue>, tails: seq<ParamSet>, head: seq<ParamSet>, rest: seq<ParamSet>, i: nat)
    requires |vs| > 0 && i < |tails|
    requires |head| == |tails| && head[i] == [(k, vs[0])] + tails[i]
    ensures i / |tails| == 0
    ensures (head + rest)[i] == [(k, vs[i / |tails|])] + tails[i % |tails|]
  {
    DivModUnique(i, |tails|, 0, i);
  }

  lemma WithEachTail(k: string, vs: seq<ParamValue>, tails: seq<ParamSet>, head: seq<ParamSet>, rest: seq<ParamSet>, i: nat)
    requires |vs| > 0 && 0 < |head| == |tails| <= i < |head| + |rest|
    requires (i - |tails|) / |tails| < |vs| - 1
    requires rest[i - |tails|] == [(k, vs[1..][(i - |tails|) / |tails|])] + tails[(i - |tails|) % |tails|]
    ensures i / |tails| < |vs|
    ensures (head + rest)[i] == [(k, vs[i / |tails|])] + tails[i % |tails|]
  {
    var T := |tails|;
    DivModShift(i, T);
    assert (head + rest)[i] == rest[i - T];
  }

  /**
   * `_expand_param_grid`: `itertools.product` of the candidate lists, as
   * dicts in the grid's key order.
   */
  function ExpandParamGrid(pg: Grid): (r: seq<ParamSet>)
    ensures |r| == Combos(pg)
    ensures forall i | 0 <= i < |r| :: |r[i]| == |pg|
  {
    if |pg| == 0 then [[]]
    else
      var tails := ExpandParamGrid(pg[1..]);
      var r := WithEach(pg[0].0, pg[0].1, tails);
      assert forall i | 0 <= i < |r| :: |r[i]| == 1 + |tails[i % |tails|]|;
      r
  }

  /** The candidate position of key `j` in combination `i`, read as mixed-radix digits. */
  function Digit(pg: Grid, i: nat, j: nat): nat
    requires j < |pg|
    requires Combos(pg[1..]) > 0
    decreases j
  {
    var tail := Combos(pg[1..]);
    if j == 0 then i / tail
    else if Combos(pg[2..]) == 0 || |pg| < 2 then 0
    else
      assert pg[1..][1..] == pg[2..];
      Digit(pg[1..], i % tail, j - 1)
  }

  lemma CombosPositiveTail(pg: Grid)
    requires |pg| > 0 && Combos(pg) > 0
    ensures Combos(pg[1..]) > 0 && |pg[0].1| > 0
  {
    ProductPositive(|pg[0].1|, Combos(pg[1..]));
  }

  lemma ProductPositive(a: nat, b: nat)
    requires a * b > 0
    ensures a > 0 && b > 0
  {
  }

  /**
   * Combination `i` assigns key `j` the candidate at position `Digit(pg, i, j)`,
   * and every combination has the grid's keys in the grid's order.
   */
  lemma {:induction false} ExpandEntry(pg: Grid, i: nat, j: nat)
    requires i < Combos(pg) && j < |pg|
    ensures Combos(pg[1..]) > 0
    ensures Digit(pg, i, j) < |pg[j].1|
    ensures ExpandParamGrid(pg)[i][j] == (pg[j].0, pg[j].1[Digit(pg, i, j)])
    decreases j
  {
    ExpandRow(pg, i);
    if j > 0 {
      ExpandEntryTail(pg, i, j);
    }
  }

  lemma {:induction false} ExpandEntryTail(pg: Grid, i: nat, j: nat)
    requires i < Combos(pg) && 0 < j < |pg|
    ensures Combos(pg[1..]) > 0
    ensures Digit(pg, i, j) < |pg[j].1|
    ensures ExpandParamGrid(pg)[i][j] == (pg[j].0, pg[j].1[Digit(pg, i, j)])
    decreases j, 0
  {
    ExpandRow(pg, i);
    var k := i % Combos(pg[1..]);
    DigitStep(pg, i, j);
    ExpandEntry(pg[1..], k, j - 1);
    assert pg[1..][j - 1] == pg[j];
  }

  /** Combination `i` is the first key's value at `i / tail` in front of tail combination `i % tail`. */
  lemma ExpandRow(pg: Grid, i: nat)
    requires |pg| > 0 && i < Combos(pg)
    ensures Combos(pg[1..]) > 0
    ensures i / Combos(pg[1..]) < |pg[0].1| && i % Combos(pg[1..]) < Combos(pg[1..])
    ensures ExpandParamGrid(pg)[i] ==
              [(pg[0].0, pg[0].1[i / Combos(pg[1..])])] + ExpandParamGrid(pg[1..])[i % Combos(pg[1..])]
  {
    CombosPositiveTail(pg);
    DivBound(i, |pg[0].1|, Combos(pg[1..]));
  }

  /** A later key's digit is the digit of the tail combination one key further on. */
  lemma DigitStep(pg: Grid, i: nat, j: nat)
    requires 0 < j < |pg| && Combos(pg[1..]) > 0 && i % Combos(pg[1..]) < Combos(pg[1..])
    ensures Combos(pg[1..][1..]) > 0
    ensures Digit(pg, i, j) == Digit(pg[1..], i % Combos(pg[1..]), j - 1)
  {
    CombosPositiveTail(pg[1..]);
    assert pg[1..][1..] == pg[2..];
  }

  /** The product of the lists before the last one, times the last list's length. */
  lemma {:induction false} CombosSplitLast(pg: Grid)
    requires |pg| > 0
    ensures Combos(pg) == Combos(pg[..|pg| - 1]) * |pg[|pg| - 1].1|
  {
    if |pg| > 1 {
      var init := pg[..|pg| - 1];
      assert pg[1..][..|pg[1..]| - 1] == init[1..];
      CombosSplitLast(pg[1..]);
      assert init[0] == pg[0];
      assert Combos(init) == |pg[0].1| * Combos(init[1..]);
    } else {
      assert pg[..0] == [];
    }
  }

  /** The last key varies fastest: its candidate position is `i mod len(last list)`. */
  lemma {:induction false} LastKeyFastest(pg: Grid, i: nat)
    requires |pg| > 0 && i < Combos(pg)
    ensures Combos(pg[1..]) > 0
    ensures |pg[|pg| - 1].1| > 0 && Digit(pg, i, |pg| - 1) == i % |pg[|pg| - 1].1|
    decreases |pg|
  {
    CombosPositiveTail(pg);
    CombosSplitLast(pg);
    if |pg| >= 2 {
      var tail := Combos(pg[1..]);
      CombosPositiveTail(pg[1..]);
      assert pg[1..][1..] == pg[2..];
      LastKeyFastest(pg[1..], i % tail);
      assert pg[1..][|pg[1..]| - 1] == pg[|pg| - 1];
      var n := |pg[|pg| - 1].1|;
      CombosSplitLast(pg[1..]);
      var m := Combos(pg[1..][..|pg[1..]| - 1]);
      assert tail == m * n;
      ModMod(i, m, n);
    } else {
      assert pg[1..] == [];
      assert i / 1 == i % |pg[0].1| by {
        DivModUnique(i, |pg[0].1|, 0, i);
      }
    }
  }

  // ---------------------------------------------------------------------------
  // _build_grid_candidates
  // ---------------------------------------------------------------------------

  /** `float(v) if not isinstance(v, bool) else v`, keeping what `float()` rejects. */
  function CandidateForm(v: ParamValue): (r: ParamValue)
    ensures IsNumeric(v) <==> IsNumeric(r)
    ensures IsNumeric(v) ==> ToReal(r) == ToReal(v)
    ensures !IsNumeric(v) ==> r == v
  {
    if v.PBool? then v else if IsNumeric(v) then PReal(ToReal(v)) else v
  }

  /** `v` is Python-equal to an element of `s`. */
  predicate PyIn(v: ParamValue, s: seq<ParamValue>) {
    exists i :: 0 <= i < |s| && PyEq(s[i], v)
  }

  /** `v` is the converted value of `k` in some result. */
  predicate IsValueOf(k: string, results: seq<Run>, v: ParamValue) {
    exists j :: 0 <= j < |results| && HasKey(results[j].0, k) && v == CandidateForm(Get(results[j].0, k).value)
  }

  /** Every result holding `k` has its converted value in `r`. */
  predicate HoldsEveryValueOf(k: string, results: seq<Run>, r: seq<ParamValue>) {
    forall j | 0 <= j < |results| && HasKey(results[j].0, k) :: CandidateForm(Get(results[j].0, k).value) in r
  }

  /** The values of key `k` across the results, converted, in result order. */
  function ValuesOf(k: string, results: seq<Run>): (r: seq<ParamValue>)
    ensures forall i | 0 <= i < |r| :: IsValueOf(k, results, r[i])
    ensures HoldsEveryValueOf(k, results, r)
  {
    if |results| == 0 then []
    else
      var rest := ValuesOf(k, results[1..]);
      var r := if HasKey(results[0].0, k) then [CandidateForm(Get(results[0].0, k).value)] + rest else rest;
      ValuesOfCons(k, results, rest, r);
      r
  }

  lemma ValuesOfCons(k: string, results: seq<Run>, rest: seq<ParamValue>, r: seq<ParamValue>)
    requires |results| > 0
    requires forall i | 0 <= i < |rest| :: IsValueOf(k, results[1..], rest[i])
    requires HoldsEveryValueOf(k, results[1..], rest)
    requires r == if HasKey(results[0].0, k) then [CandidateForm(Get(results[0].0, k).value)] + rest else rest
    ensures forall i | 0 <= i < |r| :: IsValueOf(k, results, r[i])
    ensures HoldsEveryValueOf(k, results, r)
  {
    HoldsEveryValueOfCons(k, results, rest, r);
    forall i | 0 <= i < |rest| ensures IsValueOf(k, results, rest[i]) {
      IsValueOfTail(k, results, rest[i]);
    }
    if HasKey(results[0].0, k) {
      forall i | 0 <= i < |r| ensures IsValueOf(k, results, r[i]) {
        if i > 0 { assert r[i] == rest[i - 1]; } else { assert HasKey(results[0].0, k); }
      }
    }
  }

  lemma HoldsEveryValueOfCons(k: string, results: seq<Run>, rest: seq<ParamValue>, r: seq<ParamValue>)
    requires |results| > 0
    requires HoldsEveryValueOf(k, results[1..], rest)
    requires r == if HasKey(results[0].0, k) then [CandidateForm(Get(results[0].0, k).value)] + rest else rest
    ensures HoldsEveryValueOf(k, results, r)
  {
    forall j | 0 <= j < |results| && HasKey(results[j].0, k) ensures CandidateForm(Get(results[j].0, k).value) in r {
      if j > 0 {
        assert results[1..][j - 1] == results[j];
        assert CandidateForm(Get(results[j].0, k).value) in rest;
      } else {
        assert r[0] == CandidateForm(Get(results[0].0, k).value);
      }
    }
  }

  lemma IsValueOfTail(k: string, results: seq<Run>, v: ParamValue)
    requires |results| > 0 && IsValueOf(k, results[1..], v)
    ensures IsValueOf(k, results, v)
  {
    var j :| 0 <= j < |results[1..]| && HasKey(results[1..][j].0, k) && v == CandidateForm(Get(results[1..][j].0, k).value);
    assert results[1..][j] == results[j + 1];
  }

  /** Python `set.add` in order: keeps the first of each group of equal values. */
  function Dedup(s: seq<ParamValue>, seen: seq<ParamValue>): (r: seq<ParamValue>)
    requires PyDistinct(seen)
    ensures PyDistinct(r)
    ensures forall i | 0 <= i < |seen| :: seen[i] in r
    ensures forall i | 0 <= i < |r| :: r[i] in seen || r[i] in s
    ensures CoversAll(s, r)
  {
    if |s| == 0 then seen
    else if PyIn(s[0], seen) then
      var r := Dedup(s[1..], seen);
      forall i | 0 <= i < |r| ensures r[i] in seen || r[i] in s {
        if r[i] !in seen { assert r[i] in s[1..]; }
      }
      PyInKeeps(s[0], seen, r);
      r
    else
      var seen' := seen + [s[0]];
      forall a, b | 0 <= a < b < |seen'| ensures !PyEq(seen'[a], seen'[b]) {
        if b == |seen| {
          assert seen'[a] == seen[a];
        }
      }
      var r := Dedup(s[1..], seen');
      assert forall i | 0 <= i < |seen| :: seen[i] == seen'[i];
      forall i | 0 <= i < |r| ensures r[i] in seen || r[i] in s {
        if r[i] !in seen' { assert r[i] in s[1..]; }
      }
      PyInKeeps(s[0], seen', r);
      r
  }

  lemma PyInKeeps(v: ParamValue, seen: seq<ParamValue>, r: seq<ParamValue>)
    requires PyIn(v, seen) || v in seen
    requires forall i | 0 <= i < |seen| :: seen[i] in r
    ensures PyIn(v, r)
  {
    var i :| 0 <= i < |seen| && (PyEq(seen[i], v) || seen[i] == v);
    var j :| 0 <= j < |r| && r[j] == seen[i];
    assert PyEq(r[j], v);
  }

  /** Sort key of a numeric candidate. */
  function NumKey(v: ParamValue): Sorting.XReal {
    if IsNumeric(v) then Sorting.Fin(ToReal(v)) else Sorting.NegInf
  }

  /**
   * The candidates `_build_grid_candidates` derives for `k`: the distinct
   * values seen, sorted when all are numbers. A set's iteration order is not
   * fixed by Python; first-seen order stands for it when some value is not a number.
   */
  function CandidatesFromResults(k: string, results: seq<Run>): (r: seq<ParamValue>)
    ensures PyDistinct(r)
    ensures DrawnFrom(r, ValuesOf(k, results))
    ensures forall j | 0 <= j < |results| && HasKey(results[j].0, k) :: PyIn(Get(results[j].0, k).value, r)
    ensures |r| > 0 && AllNumeric(r) ==> StrictlyIncreasing(r)
  {
    var vals := ValuesOf(k, results);
    var distinct := Dedup(vals, []);
    var r := if |distinct| > 0 && AllNumeric(distinct) then Sorting.SortBy(distinct, NumKey, false) else distinct;
    CandidatesSound(k, results, vals, distinct, r);
    r
  }

  lemma CandidatesSound(k: string, results: seq<Run>, vals: seq<ParamValue>,
                        distinct: seq<ParamValue>, r: seq<ParamValue>)
    requires vals == ValuesOf(k, results) && distinct == Dedup(vals, [])
    requires r == if |distinct| > 0 && AllNumeric(distinct) then Sorting.SortBy(distinct, NumKey, false) else distinct
    ensures PyDistinct(r) && DrawnFrom(r, vals)
    ensures forall j | 0 <= j < |results| && HasKey(results[j].0, k) :: PyIn(Get(results[j].0, k).value, r)
    ensures |r| > 0 && AllNumeric(r) ==> StrictlyIncreasing(r)
  {
    assert DrawnFrom(distinct, vals) by {
      forall i | 0 <= i < |distinct| ensures distinct[i] in vals {
        assert distinct[i] in [] || distinct[i] in vals;
      }
    }
    if |distinct| > 0 && AllNumeric(distinct) {
      SortedCandidates(vals, distinct, r);
    }
    CoverResults(k, results, vals, r);
  }

  /** No two elements are Python-equal. */
  predicate PyDistinct(s: seq<ParamValue>) {
    forall a, b | 0 <= a < b < |s| :: !PyEq(s[a], s[b])
  }

  /** Every element of `s` occurs in `vals`. */
  predicate DrawnFrom(s: seq<ParamValue>, vals: seq<ParamValue>) {
    forall i | 0 <= i < |s| :: s[i] in vals
  }

  /** Every element of `vals` is Python-equal to an element of `s`. */
  predicate CoversAll(vals: seq<ParamValue>, s: seq<ParamValue>) {
    forall i | 0 <= i < |vals| :: PyIn(vals[i], s)
  }

  /** Numbers in strictly increasing order. */
  predicate StrictlyIncreasing(s: seq<ParamValue>)
    requires AllNumeric(s)
  {
    forall a, b | 0 <= a < b < |s| :: ToReal(s[a]) < ToReal(s[b])
  }

  /** Sorting the de-duplicated values keeps them distinct, drawn from and covering `vals`. */
  lemma SortedCandidates(vals: seq<ParamValue>, distinct: seq<ParamValue>, sorted: seq<ParamValue>)
    requires AllNumeric(distinct) && PyDistinct(distinct)
    requires DrawnFrom(distinct, vals) && CoversAll(vals, distinct)
    requires Sorting.SortedBy(sorted, NumKey, false)
    requires multiset(sorted) == multiset(distinct)
    ensures AllNumeric(sorted) && PyDistinct(sorted) && StrictlyIncreasing(sorted)
    ensures DrawnFrom(sorted, vals) && CoversAll(vals, sorted)
  {
    SortedDistinctIncreasing(distinct, sorted);
    PermutedCovers(vals, distinct, sorted);
    PermutedDrawnFrom(vals, distinct, sorted);
  }

  lemma PermutedCovers(vals: seq<ParamValue>, a: seq<ParamValue>, b: seq<ParamValue>)
    requires multiset(a) == multiset(b) && CoversAll(vals, a)
    ensures CoversAll(vals, b)
  {
    forall i | 0 <= i < |vals| ensures PyIn(vals[i], b) {
      PyInPermuted(vals[i], a, b);
    }
  }

  lemma PermutedDrawnFrom(vals: seq<ParamValue>, a: seq<ParamValue>, b: seq<ParamValue>)
    requires multiset(a) == multiset(b) && DrawnFrom(a, vals)
    ensures DrawnFrom(b, vals)
  {
    forall i | 0 <= i < |b| ensures b[i] in vals {
      assert b[i] in multiset(a);
    }
  }

  /** Every value of `k` in the results is Python-equal to one of `r` when every converted value is. */
  lemma CoverResults(k: string, results: seq<Run>, vals: seq<ParamValue>, r: seq<ParamValue>)
    requires vals == ValuesOf(k, results)
    requires CoversAll(vals, r)
    ensures forall j | 0 <= j < |results| && HasKey(results[j].0, k) :: PyIn(Get(results[j].0, k).value, r)
  {
    forall j | 0 <= j < |results| && HasKey(results[j].0, k)
      ensures PyIn(Get(results[j].0, k).value, r)
    {
      var v := Get(results[j].0, k).value;
      assert CandidateForm(v) in vals;
      var i :| 0 <= i < |vals| && vals[i] == CandidateForm(v);
      var m :| 0 <= m < |r| && PyEq(r[m], vals[i]);
      PyEqIsEquivalence(r[m], vals[i], v);
    }
  }

  lemma PyInPermuted(v: ParamValue, a: seq<ParamValue>, b: seq<ParamValue>)
    requires multiset(a) == multiset(b) && PyIn(v, a)
    ensures PyIn(v, b)
  {
    var i :| 0 <= i < |a| && PyEq(a[i], v);
    assert a[i] in multiset(b);
    var j :| 0 <= j < |b| && b[j] == a[i];
  }

  /** Sorting numbers that are pairwise unequal gives a strictly increasing list of them. */
  lemma SortedDistinctIncreasing(distinct: seq<ParamValue>, sorted: seq<ParamValue>)
    requires AllNumeric(distinct) && PyDistinct(distinct)
    requires Sorting.SortedBy(sorted, NumKey, false)
    requires multiset(sorted) == multiset(distinct)
    ensures AllNumeric(sorted) && PyDistinct(sorted) && StrictlyIncreasing(sorted)
  {
    forall i | 0 <= i < |sorted| ensures IsNumeric(sorted[i]) {
      assert sorted[i] in multiset(distinct);
    }
    forall a, b | 0 <= a < b < |sorted| ensures !PyEq(sorted[a], sorted[b]) {
      assert sorted[a] in multiset(distinct) && sorted[b] in multiset(distinct);
      var x :| 0 <= x < |distinct| && distinct[x] == sorted[a];
      var y :| 0 <= y < |distinct| && distinct[y] == sorted[b];
      if x == y {
        TwoPositions(sorted, a, b);
        DistinctCountsOne(distinct, sorted[a]);
      } else if x < y {
        assert !PyEq(distinct[x], distinct[y]);
      } else {
        assert !PyEq(distinct[y], distinct[x]);
      }
    }
    forall a, b | 0 <= a < b < |sorted| ensures ToReal(sorted[a]) < ToReal(sorted[b]) {
      assert Sorting.InOrder(NumKey(sorted[a]), NumKey(sorted[b]), false);
    }
  }

  /**
   * `_build_grid_candidates`: the given grid when it is non-empty, otherwise
   * one entry per parameter key built from the results.
   */
  function BuildGridCandidates(paramKeys: seq<string>, results: seq<Run>, fromFlow: Grid): (r: Grid)
    ensures |fromFlow| > 0 ==> r == fromFlow
    ensures |fromFlow| == 0 ==> |r| == |paramKeys|
    ensures |fromFlow| == 0 ==> forall i | 0 <= i < |paramKeys| ::
              r[i] == (paramKeys[i], CandidatesFromResults(paramKeys[i], results))
  {
    if |fromFlow| > 0 then fromFlow
    else seq(|paramKeys|, i requires 0 <= i < |paramKeys| => (paramKeys[i], CandidatesFromResults(paramKeys[i], results)))
  }

  // ---------------------------------------------------------------------------
  // _grid_neighbor_indices
  // ---------------------------------------------------------------------------

  /** `[k for k in params if k in grid and grid[k]]` */
  function GriddedKeys(params: ParamSet, g: Grid): (r: seq<string>)
    ensures forall k | k in r :: HasKey(params, k) && |Candidates(g, k)| > 0
  {
    var keys := Filter(KeyList(params), k => |Candidates(g, k)| > 0);
    forall k | k in keys ensures HasKey(params, k) {
      assert k in multiset(KeyList(params));
      var i :| 0 <= i < |params| && KeyList(params)[i] == k;
      assert params[i].0 == k;
    }
    keys
  }

  /**
   * Manhattan distance in grid steps between `p` and the reference `ref`
   * over `keys`; a key `p` lacks reads as `0` (`p.get(k, 0)`).
   */
  function GridDistance(p: ParamSet, ref: ParamSet, keys: seq<string>, g: Grid, missing: ParamValue): (d: int)
    ensures d >= 0
  {
    SumIntNonNegative(StepDiffs(p, ref, keys, g, missing));
    SumInt(StepDiffs(p, ref, keys, g, missing))
  }

  function StepDiffs(p: ParamSet, ref: ParamSet, keys: seq<string>, g: Grid, missing: ParamValue): (r: seq<int>)
    ensures |r| == |keys|
    ensures forall j | 0 <= j < |keys| :: r[j] == StepDiff(p, ref, keys[j], g, missing)
    ensures forall j | 0 <= j < |keys| :: r[j] >= 0
  {
    seq(|keys|, j requires 0 <= j < |keys| => StepDiff(p, ref, keys[j], g, missing) as int)
  }

  /** `abs(idx_p - idx_ref)` for one key. */
  function StepDiff(p: ParamSet, ref: ParamSet, k: string, g: Grid, missing: ParamValue): nat {
    AbsInt(GridParamIndex(Get(p, k).GetOr(missing), Candidates(g, k))
           - GridParamIndex(Get(ref, k).GetOr(missing), Candidates(g, k)))
  }

  lemma {:induction false} SumIntNonNegative(s: seq<int>)
    requires forall j | 0 <= j < |s| :: s[j] >= 0
    ensures SumInt(s) >= 0
  {
    if |s| > 0 { SumIntNonNegative(s[1..]); }
  }

  /**
   * Whether `p` lies within the neighbourhood of `params`: always when no key
   * of `params` is gridded, otherwise when the total step distance is at most
   * `radius` times the number of gridded keys.
   */
  predicate IsNeighbour(p: ParamSet, params: ParamSet, g: Grid, radius: int) {
    var keys := GriddedKeys(params, g);
    |keys| == 0 || GridDistance(p, params, keys, g, PInt(0)) <= radius * |keys|
  }

  /** `_grid_neighbor_indices`: the indices of the neighbouring results, in increasing order. */
  function GridNeighborIndices(params: ParamSet, results: seq<Run>, g: Grid, radius: int): (r: seq<nat>)
    ensures forall a | 0 <= a < |r| :: r[a] < |results|
    ensures forall a, b | 0 <= a < b < |r| :: r[a] < r[b]
    ensures forall i | 0 <= i < |results| :: i in r <==> IsNeighbour(results[i].0, params, g, radius)
  {
    IndicesWhere(|results|, (i: nat) => i < |results| && IsNeighbour(results[i].0, params, g, radius))
  }

  /** The step distance of a set from itself is zero. */
  lemma DistanceToSelf(p: ParamSet, keys: seq<string>, g: Grid, missing: ParamValue)
    ensures GridDistance(p, p, keys, g, missing) == 0
  {
    var d := StepDiffs(p, p, keys, g, missing);
    forall j | 0 <= j < |d| ensures d[j] == 0 {
      assert d[j] == StepDiff(p, p, keys[j], g, missing);
    }
    SumIntZero(d);
  }

  /** A result is always its own neighbour, for any non-negative radius. */
  lemma SelfIsNeighbour(results: seq<Run>, idx: nat, g: Grid, radius: int)
    requires idx < |results| && radius >= 0
    ensures idx in GridNeighborIndices(results[idx].0, results, g, radius)
  {
    var p := results[idx].0;
    var keys := GriddedKeys(p, g);
    DistanceToSelf(p, keys, g, PInt(0));
    MulLeInt(0, radius, |keys|);
    assert IsNeighbour(p, p, g, radius);
  }

  // ---------------------------------------------------------------------------
  // compute_robustness_score
  // ---------------------------------------------------------------------------

  /** `[x for x in s if x is not None]` */
  function Present(s: seq<Option<real>>): (r: seq<real>)
    ensures |r| <= |s|
    ensures forall x :: x in r <==> Some(x) in s
  {
    if |s| == 0 then []
    else
      var rest := Present(s[1..]);
      assert forall x :: Some(x) in s <==> Some(x) == s[0] || Some(x) in s[1..];
      if s[0].Some? then [s[0].value] + rest else rest
  }

  /** The non-None metrics of the neighbours of result `idx`. */
  function NeighbourMetrics(idx: nat, results: seq<Run>, g: Grid, radius: int): seq<real>
    requires idx < |results|
  {
    var nb := GridNeighborIndices(results[idx].0, results, g, radius);
    Present(seq(|nb|, j requires 0 <= j < |nb| => results[nb[j]].1))
  }

  /** `1e-9`: the spread below which a neighbourhood counts as flat. */
  const FlatSpread: real := 0.000000001
  /** `1e6`: the multiplier applied to the mean of a flat neighbourhood. */
  const FlatBoost: real := 1000000.0

  /**
   * `compute_robustness_score`: mean over spread of the neighbourhood's
   * metrics (population standard deviation, `sqrt` given), `mean * 1e6` for a
   * flat neighbourhood, and 0.0 for an index out of range or no metrics.
   */
  function ComputeRobustnessScore(idx: int, results: seq<Run>, g: Grid, radius: int,
                                  sqrt: real -> real): (r: real)
    requires IsSqrt(sqrt)
    ensures idx < 0 || idx >= |results| ==> r == 0.0
    ensures 0 <= idx < |results| && |NeighbourMetrics(idx, results, g, radius)| == 0 ==> r == 0.0
    ensures 0 <= idx < |results| && |NeighbourMetrics(idx, results, g, radius)| > 0 ==>
              && (r > 0.0 <==> Mean(NeighbourMetrics(idx, results, g, radius)) > 0.0)
              && (r < 0.0 <==> Mean(NeighbourMetrics(idx, results, g, radius)) < 0.0)
  {
    if idx < 0 || idx >= |results| then 0.0
    else
      var values := NeighbourMetrics(idx, results, g, radius);
      if |values| == 0 then 0.0 else MeanOverSpread(values, sqrt)
  }

  /** The score of a non-empty neighbourhood has the sign of its mean. */
  function MeanOverSpread(values: seq<real>, sqrt: real -> real): (r: real)
    requires IsSqrt(sqrt) && |values| > 0
    ensures r > 0.0 <==> Mean(values) > 0.0
    ensures r < 0.0 <==> Mean(values) < 0.0
  {
    var m := Mean(values);
    var s := StdDev(values, sqrt);
    if s < FlatSpread then m * FlatBoost
    else
      SignOfQuotient(m, s + FlatSpread);
      m / (s + FlatSpread)
  }

  lemma SignOfQuotient(m: real, d: real)
    requires d > 0.0
    ensures m / d > 0.0 <==> m > 0.0
    ensures m / d < 0.0 <==> m < 0.0
  {
    if m > 0.0 { assert m / d > 0.0; }
    else if m < 0.0 { assert m / d < 0.0; }
  }

  /** A result with a metric always has at least that metric in its neighbourhood. */
  lemma ScoredResultHasNeighbourMetrics(idx: nat, results: seq<Run>, g: Grid, radius: int)
    requires idx < |results| && radius >= 0 && results[idx].1.Some?
    ensures results[idx].1.value in NeighbourMetrics(idx, results, g, radius)
  {
    var nb := GridNeighborIndices(results[idx].0, results, g, radius);
    SelfIsNeighbour(results, idx, g, radius);
    var j :| 0 <= j < |nb| && nb[j] == idx;
    var ms := seq(|nb|, j requires 0 <= j < |nb| => results[nb[j]].1);
    assert ms[j] == results[idx].1;
  }
}

=== FILE: legacy_portfolio.dfy ===
/**
 * The older standalone `PortfolioManager` of `portfolio.py`. Its sizing rules
 * are those of `portfolio/risk.py` without the final clamp at zero, and its
 * leverage check divides by the account value before returning.
 */
module LegacyPortfolio {
  import opened Wrappers
  import opened PyOps
  import Risk
  import Manager

  /** The manager's `risk_pct` and `stop_mult` defaults; `fixed_pct` is passed on as given. */
  function LegacyKwargs(kw: Risk.Kwargs): (fw: Risk.Kwargs)
    ensures Risk.RiskPct(fw) == kw.riskPct.GetOr(Manager.DefaultRiskPerTrade)
    ensures Risk.StopMult(fw) == kw.stopMult.GetOr(Manager.DefaultStopAtrMult)
    ensures fw.fixedPct == kw.fixedPct
  {
    Risk.Kwargs(Some(kw.riskPct.GetOr(Manager.DefaultRiskPerTrade)),
                Some(kw.stopMult.GetOr(Manager.DefaultStopAtrMult)),
                kw.fixedPct)
  }

  /**
   * `calculate_position_size`: the method's share count, lowered to what 30%
   * of the account buys, and returned as is, negative for a negative account;
   * equal weight with no positions raises on `1.0 / self.max_positions`.
   */
  function CalculatePositionSize(pm: Manager.PortfolioManager, accountValue: real, price: real, atr: real,
                                 sizing: Risk.Method, kw: Risk.Kwargs): (r: Risk.Sized)
    ensures r.ZeroDivisionError? <==> Risk.DividesByZero(price, sizing, pm.maxPositions)
    ensures price <= 0.0 ==> r == Risk.Shares(0)
    ensures sizing == Risk.RiskParity && atr <= 0.0 ==> r == Risk.Shares(0)
    ensures r.Shares? && accountValue >= 0.0 ==> Risk.Within(r.count, price, Risk.ConcentrationCap * accountValue)
    ensures r.Shares? && price > 0.0 && accountValue >= 0.0
            && Risk.Budget(accountValue, sizing, pm.maxPositions, pm.maxLeverage, LegacyKwargs(kw)) >= 0.0
            ==> 0 <= r.count
  {
    if price <= 0.0 then Risk.Shares(0)
    else if sizing == Risk.RiskParity && atr <= 0.0 then Risk.Shares(0)
    else if sizing == Risk.EqualWeight && pm.maxPositions == 0 then Risk.ZeroDivisionError
    else
      var target := Risk.TargetShares(accountValue, price, atr, sizing, pm.maxPositions, pm.maxLeverage, LegacyKwargs(kw));
      Risk.CapBound(target, accountValue, price);
      NonNegativeWhenSolvent(target, accountValue, price, atr, sizing, pm, kw);
      Risk.Shares(Risk.CapShares(target, accountValue, price))
  }

  /** A non-negative budget and account never yield a negative count. */
  lemma NonNegativeWhenSolvent(target: int, accountValue: real, price: real, atr: real, sizing: Risk.Method,
                               pm: Manager.PortfolioManager, kw: Risk.Kwargs)
    requires price > 0.0
    requires sizing == Risk.EqualWeight ==> pm.maxPositions != 0
    requires target == Risk.TargetShares(accountValue, price, atr, sizing, pm.maxPositions, pm.maxLeverage, LegacyKwargs(kw))
    ensures accountValue >= 0.0 && Risk.Budget(accountValue, sizing, pm.maxPositions, pm.maxLeverage, LegacyKwargs(kw)) >= 0.0
            ==> Risk.CapShares(target, accountValue, price) >= 0
  {
    var budget := Risk.Budget(accountValue, sizing, pm.maxPositions, pm.maxLeverage, LegacyKwargs(kw));
    var unit := Risk.UnitCost(price, atr, sizing, LegacyKwargs(kw));
    if accountValue >= 0.0 && budget >= 0.0 {
      if !sizing.Unknown? && unit > 0.0 {
        assert budget / unit >= 0.0;
      }
      assert target >= 0;
      assert accountValue * Risk.ConcentrationCap / price >= 0.0;
    }
  }

  /**
   * Clamping the standalone manager's count at zero gives the current sizing
   * rules with the same keyword arguments; both raise on the same inputs.
   */
  lemma ClampGivesCurrentRule(pm: Manager.PortfolioManager, accountValue: real, price: real, atr: real,
                              sizing: Risk.Method, kw: Risk.Kwargs)
    ensures CalculatePositionSize(pm, accountValue, price, atr, sizing, kw).ZeroDivisionError?
        <==> Risk.PositionSize(accountValue, price, atr, sizing, pm.maxPositions, pm.maxLeverage, LegacyKwargs(kw)).ZeroDivisionError?
    ensures CalculatePositionSize(pm, accountValue, price, atr, sizing, kw).Shares? ==>
              Risk.PositionSize(accountValue, price, atr, sizing, pm.maxPositions, pm.maxLeverage, LegacyKwargs(kw))
              == Risk.Shares(Max(0, CalculatePositionSize(pm, accountValue, price, atr, sizing, kw).count))
  {
  }

  /**
   * A negative account sized by risk parity: 2% of -1000 over a 6-point stop
   * truncates to -3 shares, whose cost -30 exceeds the -300 cap, so the cap
   * recomputes -300 / 10 and the manager asks for -30 shares.
   */
  lemma NegativeAccountExample()
    ensures CalculatePositionSize(Manager.PortfolioManager(100000.0, 1.0, 10), -1000.0, 10.0, 2.0,
                                  Risk.RiskParity, Risk.NoKwargs) == Risk.Shares(-30)
    ensures Risk.PositionSize(-1000.0, 10.0, 2.0, Risk.RiskParity, 10, 1.0, LegacyKwargs(Risk.NoKwargs)) == Risk.Shares(0)
  {
    assert -1000.0 * 0.02 / (2.0 * 3.0) == -20.0 / 6.0;
    assert Trunc(-20.0 / 6.0) == -3;
    assert -1000.0 * 0.30 / 10.0 == -30.0;
  }

  /** A keyword `fixed_pct` reaches the fixed-fraction rule here, unlike in the newer manager. */
  lemma FixedPctIsHonoured(pm: Manager.PortfolioManager, accountValue: real, price: real, atr: real, kw: Risk.Kwargs)
    requires price > 0.0
    ensures CalculatePositionSize(pm, accountValue, price, atr, Risk.FixedFraction, kw)
         == Risk.Shares(Risk.CapShares(Trunc(accountValue * kw.fixedPct.GetOr(Risk.DefaultFixedPct) / price), accountValue, price))
  {
    var fw := LegacyKwargs(kw);
    assert Risk.FixedPct(fw) == kw.fixedPct.GetOr(Risk.DefaultFixedPct);
    assert Risk.UnitCost(price, atr, Risk.FixedFraction, fw) == price;
    assert Risk.Budget(accountValue, Risk.FixedFraction, pm.maxPositions, pm.maxLeverage, fw)
        == accountValue * kw.fixedPct.GetOr(Risk.DefaultFixedPct);
  }

  /** `check_cash_availability`: the cost fits in what is left after holding back 2% of the cash. */
  function CheckCashAvailability(currentCash: real, estimatedCost: real): (r: bool)
    ensures r <==> 0.98 * currentCash >= estimatedCost
    ensures r == Manager.CheckCashAvailability(currentCash, estimatedCost)
  {
    var buffer := currentCash * Manager.CashBuffer;
    if currentCash - buffer >= estimatedCost then true else false
  }

  /** `get_max_purchasable`: the same whole-share count as the newer manager. */
  function GetMaxPurchasable(currentCash: real, price: real): (r: int)
    ensures price <= 0.0 ==> r == 0
    ensures price > 0.0 && currentCash >= 0.0 ==> 0 <= r
    ensures price > 0.0 && currentCash >= 0.0 ==> Risk.Within(r, price, currentCash) && !Risk.Within(r + 1, price, currentCash)
    ensures r == Manager.GetMaxPurchasable(currentCash, price)
  {
    if price <= 0.0 then 0
    else
      if currentCash >= 0.0 then Risk.TruncDivBounds(currentCash, price); Trunc(currentCash / price)
      else Trunc(currentCash / price)
  }

  /** What `check_leverage_limit` does: answer, or raise on the unused ratio's division. */
  datatype Outcome = Returns(value: bool) | ZeroDivisionError

  /**
   * `check_leverage_limit` as written: it evaluates
   * `(total_value + new_position_value) / total_value`, discards it and accepts.
   */
  function CheckLeverageLimit(totalValue: real, newPositionValue: real): (r: Outcome)
    ensures r.ZeroDivisionError? <==> totalValue == 0.0
    ensures r.Returns? ==> r.value
  {
    if totalValue == 0.0 then ZeroDivisionError
    else
      var _ := (totalValue + newPositionValue) / totalValue;
      Returns(true)
  }

  /** An empty account makes the standalone check raise where the newer check accepts. */
  lemma LeverageCheckRaisesOnEmptyAccount(newPositionValue: real, maxLeverage: real)
    ensures CheckLeverageLimit(0.0, newPositionValue) == ZeroDivisionError
    ensures Risk.CheckLeverageLimit(0.0, newPositionValue, maxLeverage)
  {
  }

  /** Every other account gets the newer check's answer. */
  lemma LeverageCheckAgreesOtherwise(totalValue: real, newPositionValue: real, maxLeverage: real)
    requires totalValue != 0.0
    ensures CheckLeverageLimit(totalValue, newPositionValue)
         == Returns(Risk.CheckLeverageLimit(totalValue, newPositionValue, maxLeverage))
  {
  }

  /** `get_rebalance_targets`: the same walk over the weights as the newer manager. */
  function GetRebalanceTargets(positions: map<string, int>, idealWeights: seq<(string, real)>,
                               accountValue: real, priceMap: map<string, real>): (r: seq<(string, int)>)
    ensures r == Manager.GetRebalanceTargets(positions, idealWeights, accountValue, priceMap)
  {
    if |idealWeights| == 0 then []
    else
      var ticker := idealWeights[0].0;
      var rest := GetRebalanceTargets(positions, idealWeights[1..], accountValue, priceMap);
      if !Manager.HasPrice(priceMap, ticker) then rest
      else
        var diff := Trunc(accountValue * idealWeights[0].1 / priceMap[ticker]) - Manager.CurrentShares(positions, ticker);
        assert diff == Manager.RebalanceDiff(positions, ticker, idealWeights[0].1, accountValue, priceMap);
        if diff != 0 && Abs(diff as real * priceMap[ticker]) > 500.0 then [(ticker, diff)] + rest else rest
  }
}

=== FILE: manager.dfy ===
/**
 * `PortfolioManager` of `portfolio/manager.py`: sizing with the manager's
 * defaults, the 2% cash buffer, the cash-bound share count and the
 * rebalance diff with its $500 minimum trade.
 */
module Manager {
  import opened Wrappers
  import opened PyOps
  import opened Seqs
  import Risk

  datatype PortfolioManager = PortfolioManager(initialCapital: real, maxLeverage: real, maxPositions: int)

  const DefaultRiskPerTrade: real := 0.02
  const DefaultStopAtrMult: real := 3.0
  /** Fraction of cash held back for slippage and fees. */
  const CashBuffer: real := 0.02
  /** Rebalance orders worth this much or less are not placed. */
  const MinTradeValue: real := 500.0

  /**
   * The keyword arguments forwarded to the sizing rules: `risk_pct` and
   * `stop_mult`, the caller's or else the manager's defaults; `fixed_pct` is
   * not forwarded.
   */
  function ForwardedKwargs(kw: Risk.Kwargs): (fw: Risk.Kwargs)
    ensures fw.riskPct.Some? && fw.stopMult.Some? && fw.fixedPct.None?
    ensures kw.riskPct.Some? ==> Risk.RiskPct(fw) == kw.riskPct.value
    ensures kw.riskPct.None? ==> Risk.RiskPct(fw) == DefaultRiskPerTrade
    ensures kw.stopMult.Some? ==> Risk.StopMult(fw) == kw.stopMult.value
    ensures kw.stopMult.None? ==> Risk.StopMult(fw) == DefaultStopAtrMult
    ensures Risk.FixedPct(fw) == Risk.DefaultFixedPct
  {
    Risk.Kwargs(Some(kw.riskPct.GetOr(DefaultRiskPerTrade)), Some(kw.stopMult.GetOr(DefaultStopAtrMult)), None)
  }

  /**
   * `calculate_position_size`: the sizing rules with the manager's limits and
   * defaults, raising like them for equal weight with no positions.
   */
  function CalculatePositionSize(pm: PortfolioManager, accountValue: real, price: real, atr: real,
                                 sizing: Risk.Method, kw: Risk.Kwargs): (r: Risk.Sized)
    ensures price <= 0.0 ==> r == Risk.Shares(0)
    ensures r.ZeroDivisionError? <==> Risk.DividesByZero(price, sizing, pm.maxPositions)
    ensures r == Risk.PositionSize(accountValue, price, atr, sizing, pm.maxPositions, pm.maxLeverage, ForwardedKwargs(kw))
    ensures r.Shares? && accountValue >= 0.0 ==> Risk.Within(r.count, price, Risk.ConcentrationCap * accountValue)
  {
    if price <= 0.0 then Risk.Shares(0)
    else Risk.PositionSize(accountValue, price, atr, sizing, pm.maxPositions, pm.maxLeverage, ForwardedKwargs(kw))
  }

  /** A `fixed_pct` given to the manager is dropped: fixed fraction always buys 10%. */
  lemma FixedPctIsNotForwarded(pm: PortfolioManager, accountValue: real, price: real, atr: real, kw: Risk.Kwargs)
    ensures CalculatePositionSize(pm, accountValue, price, atr, Risk.FixedFraction, kw)
         == CalculatePositionSize(pm, accountValue, price, atr, Risk.FixedFraction, kw.(fixedPct := None))
    ensures price > 0.0 ==>
              (CalculatePositionSize(pm, accountValue, price, atr, Risk.FixedFraction, kw)
               == Risk.Shares(Max(0, Risk.CapShares(Trunc(accountValue * Risk.DefaultFixedPct / price), accountValue, price))))
  {
  }

  /** `check_cash_availability`: the cost fits in the cash left after the 2% buffer. */
  function CheckCashAvailability(currentCash: real, estimatedCost: real): (r: bool)
    ensures r <==> 0.98 * currentCash >= estimatedCost
  {
    var buffer := currentCash * CashBuffer;
    currentCash - buffer >= estimatedCost
  }

  /** `get_max_purchasable`: how many whole shares the cash pays for. */
  function GetMaxPurchasable(currentCash: real, price: real): (r: int)
    ensures price <= 0.0 ==> r == 0
    ensures price > 0.0 && currentCash >= 0.0 ==> 0 <= r
    ensures price > 0.0 && currentCash >= 0.0 ==> r as real * price <= currentCash < r as real * price + price
    ensures price > 0.0 && currentCash < 0.0 ==> r <= 0
    ensures price > 0.0 && currentCash < 0.0 ==> r as real * price - price < currentCash <= r as real * price
  {
    if price <= 0.0 then 0
    else
      TruncDivSandwich(currentCash, price);
      Trunc(currentCash / price)
  }

  /** `check_leverage_limit`: defers to the risk placeholder, so every position passes. */
  function CheckLeverageLimit(pm: PortfolioManager, totalValue: real, newPositionValue: real): (r: bool)
    ensures r
  {
    Risk.CheckLeverageLimit(totalValue, newPositionValue, pm.maxLeverage)
  }

  /** `price_map.get(ticker)` is truthy: present and non-zero. */
  predicate HasPrice(priceMap: map<string, real>, ticker: string) {
    ticker in priceMap && priceMap[ticker] != 0.0
  }

  /** `current_positions.get(ticker, 0)` */
  function CurrentShares(positions: map<string, int>, ticker: string): int {
    if ticker in positions then positions[ticker] else 0
  }

  /** Signed share change that brings `ticker` to its target weight. */
  function RebalanceDiff(positions: map<string, int>, ticker: string, weight: real,
                         accountValue: real, priceMap: map<string, real>): int
    requires HasPrice(priceMap, ticker)
  {
    Trunc(accountValue * weight / priceMap[ticker]) - CurrentShares(positions, ticker)
  }

  /** A change is placed only if it is non-zero and worth more than $500. */
  predicate WorthTrading(diff: int, price: real) {
    diff != 0 && Abs(diff as real * price) > MinTradeValue
  }

  /** The weight entry produces an order. */
  predicate Emits(positions: map<string, int>, entry: (string, real), accountValue: real, priceMap: map<string, real>) {
    && HasPrice(priceMap, entry.0)
    && WorthTrading(RebalanceDiff(positions, entry.0, entry.1, accountValue, priceMap), priceMap[entry.0])
  }

  function OrderFor(positions: map<string, int>, entry: (string, real), accountValue: real,
                    priceMap: map<string, real>): (string, int)
    requires HasPrice(priceMap, entry.0)
  {
    (entry.0, RebalanceDiff(positions, entry.0, entry.1, accountValue, priceMap))
  }

  /** The weight entries that produce an order, in `ideal_weights` order. */
  ghost function Emitting(positions: map<string, int>, idealWeights: seq<(string, real)>,
                          accountValue: real, priceMap: map<string, real>): seq<(string, real)>
  {
    Filter(idealWeights, e => Emits(positions, e, accountValue, priceMap))
  }

  /** `get_rebalance_targets`, walking `ideal_weights` in its key order. */
  function GetRebalanceTargets(positions: map<string, int>, idealWeights: seq<(string, real)>,
                               accountValue: real, priceMap: map<string, real>): (r: seq<(string, int)>)
    ensures |r| <= |idealWeights|
    ensures forall o | o in r :: HasPrice(priceMap, o.0) && WorthTrading(o.1, priceMap[o.0])
  {
    if |idealWeights| == 0 then []
    else
      var rest := GetRebalanceTargets(positions, idealWeights[1..], accountValue, priceMap);
      if Emits(positions, idealWeights[0], accountValue, priceMap)
      then [OrderFor(positions, idealWeights[0], accountValue, priceMap)] + rest
      else rest
  }

  /** `r[k]` is the order of the `k`-th entry of `em`, and nothing else is in `r`. */
  ghost predicate Aligned(r: seq<(string, int)>, em: seq<(string, real)>, positions: map<string, int>,
                          accountValue: real, priceMap: map<string, real>)
  {
    && |r| == |em|
    && forall k | 0 <= k < |em| :: HasPrice(priceMap, em[k].0) && r[k] == OrderFor(positions, em[k], accountValue, priceMap)
  }

  lemma AlignedCons(r: seq<(string, int)>, em: seq<(string, real)>, e: (string, real), positions: map<string, int>,
                    accountValue: real, priceMap: map<string, real>)
    requires HasPrice(priceMap, e.0) && Aligned(r, em, positions, accountValue, priceMap)
    ensures Aligned([OrderFor(positions, e, accountValue, priceMap)] + r, [e] + em, positions, accountValue, priceMap)
  {
    var r' := [OrderFor(positions, e, accountValue, priceMap)] + r;
    var em' := [e] + em;
    forall k | 0 <= k < |em'|
      ensures HasPrice(priceMap, em'[k].0) && r'[k] == OrderFor(positions, em'[k], accountValue, priceMap)
    {
      if k > 0 { assert em'[k] == em[k - 1] && r'[k] == r[k - 1]; }
    }
  }

  /**
   * One order per emitting weight entry, in the entries' order, each carrying
   * that entry's share change: order and multiplicity as the loop appends.
   */
  lemma {:induction false} RebalanceTargetsInOrder(positions: map<string, int>, idealWeights: seq<(string, real)>,
                                                   accountValue: real, priceMap: map<string, real>)
    ensures var em := Emitting(positions, idealWeights, accountValue, priceMap);
            var r := GetRebalanceTargets(positions, idealWeights, accountValue, priceMap);
            && |r| == |em|
            && forall k | 0 <= k < |em| :: HasPrice(priceMap, em[k].0) && r[k] == OrderFor(positions, em[k], accountValue, priceMap)
  {
    RebalanceAligned(positions, idealWeights, accountValue, priceMap);
  }

  lemma {:induction false} RebalanceAligned(positions: map<string, int>, idealWeights: seq<(string, real)>,
                                            accountValue: real, priceMap: map<string, real>)
    ensures Aligned(GetRebalanceTargets(positions, idealWeights, accountValue, priceMap),
                    Emitting(positions, idealWeights, accountValue, priceMap), positions, accountValue, priceMap)
  {
    if |idealWeights| > 0 {
      var e := idealWeights[0];
      var tail := idealWeights[1..];
      RebalanceAligned(positions, tail, accountValue, priceMap);
      var emTail := Emitting(positions, tail, accountValue, priceMap);
      var rest := GetRebalanceTargets(positions, tail, accountValue, priceMap);
      if Emits(positions, e, accountValue, priceMap) {
        assert Emitting(positions, idealWeights, accountValue, priceMap) == [e] + emTail;
        assert GetRebalanceTargets(positions, idealWeights, accountValue, priceMap)
            == [OrderFor(positions, e, accountValue, priceMap)] + rest;
        AlignedCons(rest, emTail, e, positions, accountValue, priceMap);
      } else {
        assert Emitting(positions, idealWeights, accountValue, priceMap) == emTail;
      }
    }
  }

  /** Order `o` is the diff of some weight entry that emits an order. */
  ghost predicate ProducedBy(o: (string, int), positions: map<string, int>, idealWeights: seq<(string, real)>,
                             accountValue: real, priceMap: map<string, real>)
  {
    exists j :: 0 <= j < |idealWeights|
      && Emits(positions, idealWeights[j], accountValue, priceMap)
      && o == OrderFor(positions, idealWeights[j], accountValue, priceMap)
  }

  lemma ProducedByTail(o: (string, int), positions: map<string, int>, idealWeights: seq<(string, real)>,
                       accountValue: real, priceMap: map<string, real>)
    requires |idealWeights| > 0
    requires ProducedBy(o, positions, idealWeights[1..], accountValue, priceMap)
    ensures ProducedBy(o, positions, idealWeights, accountValue, priceMap)
  {
    var tail := idealWeights[1..];
    var j :| 0 <= j < |tail| && Emits(positions, tail[j], accountValue, priceMap)
             && o == OrderFor(positions, tail[j], accountValue, priceMap);
    assert idealWeights[j + 1] == tail[j];
  }

  /**
   * The orders are exactly the diffs of the weight entries with a truthy
   * price whose change is non-zero and worth more than $500.
   */
  lemma {:induction false} RebalanceTargetsExact(positions: map<string, int>, idealWeights: seq<(string, real)>,
                                                 accountValue: real, priceMap: map<string, real>)
    ensures forall j | 0 <= j < |idealWeights| && Emits(positions, idealWeights[j], accountValue, priceMap) ::
              OrderFor(positions, idealWeights[j], accountValue, priceMap)
                in GetRebalanceTargets(positions, idealWeights, accountValue, priceMap)
    ensures forall o | o in GetRebalanceTargets(positions, idealWeights, accountValue, priceMap) ::
              ProducedBy(o, positions, idealWeights, accountValue, priceMap)
  {
    if |idealWeights| > 0 {
      var tail := idealWeights[1..];
      RebalanceTargetsExact(positions, tail, accountValue, priceMap);
      var r := GetRebalanceTargets(positions, idealWeights, accountValue, priceMap);
      var rest := GetRebalanceTargets(positions, tail, accountValue, priceMap);
      forall j | 0 <= j < |idealWeights| && Emits(positions, idealWeights[j], accountValue, priceMap)
        ensures OrderFor(positions, idealWeights[j], accountValue, priceMap) in r
      {
        if j > 0 { assert idealWeights[j] == tail[j - 1]; }
      }
      forall o | o in r
        ensures ProducedBy(o, positions, idealWeights, accountValue, priceMap)
      {
        if o in rest {
          ProducedByTail(o, positions, idealWeights, accountValue, priceMap);
        } else {
          assert o == OrderFor(positions, idealWeights[0], accountValue, priceMap);
        }
      }
    }
  }

  /** A target already held produces no order; a missing holding counts as zero. */
  lemma RebalanceAtTargetIsQuiet(positions: map<string, int>, ticker: string, weight: real,
                                 accountValue: real, priceMap: map<string, real>)
    requires HasPrice(priceMap, ticker)
    requires CurrentShares(positions, ticker) == Trunc(accountValue * weight / priceMap[ticker])
    ensures GetRebalanceTargets(positions, [(ticker, weight)], accountValue, priceMap) == []
  {
  }
}

=== FILE: orders.dfy ===
/**
 * `OrderManager` of strategy/order_manager.py: per-ticker bookkeeping of the
 * entry and exit orders a strategy has submitted.
 *
 * The backtrader strategy is abstracted: every call the manager makes on it
 * (`buy`, `sell`, `close`, `cancel`) is appended to a request log, a new
 * order takes the next identifier, and the broker's view of order statuses
 * and of the current position is passed in as a parameter.
 */
module Orders {
  import opened Wrappers
  import Seqs

  /** backtrader's `Order.Status` values. */
  datatype Status = Created | Submitted | Accepted | Partial | Completed | Canceled | Expired | Margin | Rejected

  /** Still cancellable: `o.status in [Submitted, Accepted]`. */
  predicate Live(st: Status) {
    st == Submitted || st == Accepted
  }

  /** The statuses after which `process_status` stops tracking an order. */
  predicate Terminal(st: Status) {
    st == Completed || st == Canceled || st == Margin || st == Rejected
  }

  /** An order object, identified as Python identifies it; `ticker` is `order.data._name`. */
  datatype OrderRef = OrderRef(id: nat, ticker: string)

  datatype ExecType = Market | Stop

  /** The calls the manager makes on the strategy. */
  datatype Request =
    | BuyRequest(ticker: string, size: int, exec: ExecType, price: Option<real>, validUntil: Option<int>)
    | SellRequest(ticker: string, size: int, exec: ExecType, price: Option<real>)
    | CloseRequest(ticker: string)
    | CancelRequest(order: OrderRef)

  datatype Kind = Entries | Exits

  /** `{'entries': [...], 'exits': [...]}` */
  datatype Tracked = Tracked(entries: seq<OrderRef>, exits: seq<OrderRef>) {
    function Get(k: Kind): seq<OrderRef> {
      match k
      case Entries => entries
      case Exits => exits
    }

    function Set(k: Kind, l: seq<OrderRef>): (r: Tracked)
      ensures r.Get(k) == l
      ensures forall k2 | k2 != k :: r.Get(k2) == Get(k2)
    {
      match k
      case Entries => this.(entries := l)
      case Exits => this.(exits := l)
    }
  }

  const NoOrders := Tracked([], [])

  /** The manager's state: `open_orders`, the strategy calls so far, and the next order's identifier. */
  datatype Manager = Manager(openOrders: map<string, Tracked>, requests: seq<Request>, nextId: nat)

  /** `OrderManager(strategy)` */
  function Create(): (m: Manager)
    ensures m.openOrders == map[] && m.requests == []
  {
    Manager(map[], [], 0)
  }

  /** The result of a call that may submit an order. */
  datatype Placed = Placed(manager: Manager, order: Option<OrderRef>)

  /** The tracked list of one kind for a ticker; `[]` for an untracked ticker. */
  function ListOf(m: Manager, name: string, k: Kind): seq<OrderRef> {
    if name in m.openOrders then m.openOrders[name].Get(k) else []
  }

  /** The strategy creates an order for `name` and records the call. */
  function Submit(m: Manager, name: string, req: Request): (p: (Manager, OrderRef))
    ensures p.1 == OrderRef(m.nextId, name)
    ensures p.0 == m.(requests := m.requests + [req], nextId := m.nextId + 1)
  {
    (m.(requests := m.requests + [req], nextId := m.nextId + 1), OrderRef(m.nextId, name))
  }

  // ---------------------------------------------------------------------------
  // _track_order
  // ---------------------------------------------------------------------------

  /** `_track_order`: append to `open_orders[name][kind]`, creating both lists on first use. */
  function TrackOrder(m: Manager, o: OrderRef, k: Kind): (r: Manager)
    ensures r.requests == m.requests && r.nextId == m.nextId
    ensures o.ticker in r.openOrders
    ensures ListOf(r, o.ticker, k) == ListOf(m, o.ticker, k) + [o]
    ensures forall k2 | k2 != k :: ListOf(r, o.ticker, k2) == ListOf(m, o.ticker, k2)
    ensures r.openOrders.Keys == m.openOrders.Keys + {o.ticker}
    ensures forall t | t in m.openOrders && t != o.ticker :: r.openOrders[t] == m.openOrders[t]
  {
    var lists := if o.ticker in m.openOrders then m.openOrders[o.ticker] else NoOrders;
    m.(openOrders := m.openOrders[o.ticker := lists.Set(k, lists.Get(k) + [o])])
  }

  // ---------------------------------------------------------------------------
  // Submitting orders
  // ---------------------------------------------------------------------------

  /** `buy_market`: a zero size submits nothing. */
  function BuyMarket(m: Manager, name: string, size: int): (p: Placed)
    ensures size == 0 ==> p == Placed(m, None)
    ensures size != 0 ==>
      && p.order == Some(OrderRef(m.nextId, name))
      && p.manager.requests == m.requests + [BuyRequest(name, size, Market, None, None)]
      && ListOf(p.manager, name, Entries) == ListOf(m, name, Entries) + [p.order.value]
      && ListOf(p.manager, name, Exits) == ListOf(m, name, Exits)
      && forall t | t in m.openOrders && t != name :: t in p.manager.openOrders && p.manager.openOrders[t] == m.openOrders[t]
  {
    if size == 0 then Placed(m, None)
    else
      var (m1, o) := Submit(m, name, BuyRequest(name, size, Market, None, None));
      Placed(TrackOrder(m1, o, Entries), Some(o))
  }

  /** The order's expiry day: `today + valid_days` when `valid_days` is truthy, else none. */
  function ValidUntil(today: int, validDays: Option<int>): (r: Option<int>)
    ensures r.Some? <==> validDays.Some? && validDays.value != 0
    ensures r.Some? ==> r.value - today == validDays.value
  {
    if validDays.Some? && validDays.value != 0 then Some(today + validDays.value) else None
  }

  /** `buy_stop`: a stop buy at `price`, valid for `valid_days` days when given. */
  function BuyStop(m: Manager, name: string, size: int, price: real, validDays: Option<int>, today: int): (p: Placed)
    ensures size == 0 ==> p == Placed(m, None)
    ensures size != 0 ==>
      && p.order == Some(OrderRef(m.nextId, name))
      && p.manager.requests == m.requests + [BuyRequest(name, size, Stop, Some(price), ValidUntil(today, validDays))]
      && ListOf(p.manager, name, Entries) == ListOf(m, name, Entries) + [p.order.value]
      && ListOf(p.manager, name, Exits) == ListOf(m, name, Exits)
      && forall t | t in m.openOrders && t != name :: t in p.manager.openOrders && p.manager.openOrders[t] == m.openOrders[t]
  {
    if size == 0 then Placed(m, None)
    else
      var (m1, o) := Submit(m, name, BuyRequest(name, size, Stop, Some(price), ValidUntil(today, validDays)));
      Placed(TrackOrder(m1, o, Entries), Some(o))
  }

  /**
   * `sell_market`: without a size it closes a long position (and does
   * nothing otherwise); with a size it sells that many, zero included.
   */
  function SellMarket(m: Manager, name: string, size: Option<int>, position: int): (p: Placed)
    ensures size.None? && position <= 0 ==> p == Placed(m, None)
    ensures size.None? && position > 0 ==>
      && p.order == Some(OrderRef(m.nextId, name))
      && p.manager.requests == m.requests + [CloseRequest(name)]
      && ListOf(p.manager, name, Exits) == ListOf(m, name, Exits) + [p.order.value]
      && ListOf(p.manager, name, Entries) == ListOf(m, name, Entries)
    ensures size.Some? ==>
      && p.order == Some(OrderRef(m.nextId, name))
      && p.manager.requests == m.requests + [SellRequest(name, size.value, Market, None)]
      && ListOf(p.manager, name, Exits) == ListOf(m, name, Exits) + [p.order.value]
      && ListOf(p.manager, name, Entries) == ListOf(m, name, Entries)
    ensures forall t | t in m.openOrders && t != name :: t in p.manager.openOrders && p.manager.openOrders[t] == m.openOrders[t]
  {
    match size
    case None =>
      if position > 0 then
        var (m1, o) := Submit(m, name, CloseRequest(name));
        Placed(TrackOrder(m1, o, Exits), Some(o))
      else Placed(m, None)
    case Some(n) =>
      var (m1, o) := Submit(m, name, SellRequest(name, n, Market, None));
      Placed(TrackOrder(m1, o, Exits), Some(o))
  }

  // ---------------------------------------------------------------------------
  // has_pending_order
  // ---------------------------------------------------------------------------

  /** `has_pending_order`: some tracked entry is still Submitted or Accepted. */
  function HasPendingOrder(m: Manager, name: string, status: OrderRef -> Status): (r: bool)
    ensures r <==> exists i :: 0 <= i < |ListOf(m, name, Entries)| && Live(status(ListOf(m, name, Entries)[i]))
  {
    AnyLive(ListOf(m, name, Entries), status)
  }

  function AnyLive(l: seq<OrderRef>, status: OrderRef -> Status): (r: bool)
    ensures r <==> exists i :: 0 <= i < |l| && Live(status(l[i]))
  {
    if |l| == 0 then false
    else if Live(status(l[0])) then true
    else
      assert forall i | 1 <= i < |l| :: l[i] == l[1..][i - 1];
      AnyLive(l[1..], status)
  }

  /** Exit orders never make a ticker pending. */
  lemma PendingIgnoresExits(m: Manager, name: string, status: OrderRef -> Status, o: OrderRef)
    ensures HasPendingOrder(TrackOrder(m, o, Exits), name, status) == HasPendingOrder(m, name, status)
  {
    var r := TrackOrder(m, o, Exits);
    assert ListOf(r, name, Entries) == ListOf(m, name, Entries);
  }

  /** A tracked entry the broker still holds as Submitted makes its ticker pending. */
  lemma FreshEntryIsPending(m: Manager, name: string, size: int, status: OrderRef -> Status)
    requires size != 0 && status(OrderRef(m.nextId, name)) == Submitted
    ensures HasPendingOrder(BuyMarket(m, name, size).manager, name, status)
  {
    var p := BuyMarket(m, name, size);
    var l := ListOf(p.manager, name, Entries);
    assert l[|l| - 1] == OrderRef(m.nextId, name);
  }

  // ---------------------------------------------------------------------------
  // cancel_all_orders
  // ---------------------------------------------------------------------------

  /** The live orders of `l`, in list order. */
  ghost function LiveOrders(l: seq<OrderRef>, status: OrderRef -> Status): seq<OrderRef> {
    Seqs.Filter(l, o => Live(status(o)))
  }

  /** The cancel calls for the live orders of `l`, in list order. */
  function CancelsFor(l: seq<OrderRef>, status: OrderRef -> Status): (r: seq<Request>)
    ensures forall j | 0 <= j < |r| :: r[j].CancelRequest? && r[j].order in l && Live(status(r[j].order))
    ensures forall i | 0 <= i < |l| && Live(status(l[i])) :: CancelRequest(l[i]) in r
    ensures |r| <= |l|
    ensures var f := LiveOrders(l, status);
            && |r| == |f|
            && forall j | 0 <= j < |f| :: r[j] == CancelRequest(f[j])
  {
    if |l| == 0 then []
    else
      var rest := CancelsFor(l[1..], status);
      var r := if Live(status(l[0])) then [CancelRequest(l[0])] + rest else rest;
      CancelsForStep(l, status, rest, r);
      AlignedCancels(l, status, r);
      r
  }

  /** One step of the loop: consing the head's cancel, if it is live, keeps the alignment with the live orders. */
  lemma CancelsForStep(l: seq<OrderRef>, status: OrderRef -> Status, rest: seq<Request>, r: seq<Request>)
    requires |l| > 0
    requires var f := LiveOrders(l[1..], status);
             && |rest| == |f|
             && forall j | 0 <= j < |f| :: rest[j] == CancelRequest(f[j])
    requires r == if Live(status(l[0])) then [CancelRequest(l[0])] + rest else rest
    ensures var f := LiveOrders(l, status);
            && |r| == |f|
            && forall j | 0 <= j < |f| :: r[j] == CancelRequest(f[j])
  {
    var fTail := LiveOrders(l[1..], status);
    var f := LiveOrders(l, status);
    if !Live(status(l[0])) {
      assert f == fTail;
    } else {
      assert f == [l[0]] + fTail;
      forall j | 0 <= j < |f| ensures r[j] == CancelRequest(f[j]) {
        if j > 0 { assert f[j] == fTail[j - 1] && r[j] == rest[j - 1]; }
      }
    }
  }

  /** Cancels aligned with the live orders cancel exactly the live orders of the list. */
  lemma AlignedCancels(l: seq<OrderRef>, status: OrderRef -> Status, r: seq<Request>)
    requires var f := LiveOrders(l, status);
             && |r| == |f|
             && forall j | 0 <= j < |f| :: r[j] == CancelRequest(f[j])
    ensures forall j | 0 <= j < |r| :: r[j].CancelRequest? && r[j].order in l && Live(status(r[j].order))
    ensures forall i | 0 <= i < |l| && Live(status(l[i])) :: CancelRequest(l[i]) in r
    ensures |r| <= |l|
  {
    var f := LiveOrders(l, status);
    forall j | 0 <= j < |r| ensures r[j].order in l && Live(status(r[j].order)) {
      assert f[j] in f;
      assert multiset(f)[f[j]] > 0;
    }
    forall i | 0 <= i < |l| && Live(status(l[i])) ensures CancelRequest(l[i]) in r {
      assert multiset(l)[l[i]] > 0;
      assert l[i] in multiset(f);
      var k :| 0 <= k < |f| && f[k] == l[i];
      assert r[k] == CancelRequest(l[i]);
    }
  }

  /**
   * The cancel calls of the `for t in types` loop: each pass cancels the
   * live orders of its list and then empties it, so a kind listed twice is
   * cancelled once.
   */
  function Cancelled(lists: Tracked, types: seq<Kind>, status: OrderRef -> Status): (r: seq<Request>)
    ensures forall j | 0 <= j < |r| ::
      r[j].CancelRequest? && Live(status(r[j].order)) && exists k :: k in types && r[j].order in lists.Get(k)
    ensures forall k, o | k in types && o in lists.Get(k) && Live(status(o)) :: CancelRequest(o) in r
    decreases |types|
  {
    if |types| == 0 then []
    else
      var first := CancelsFor(lists.Get(types[0]), status);
      var rest := Cancelled(lists.Set(types[0], []), types[1..], status);
      CancelledStep(lists, types, status, first, rest);
      first + rest
  }

  lemma CancelledStep(lists: Tracked, types: seq<Kind>, status: OrderRef -> Status, first: seq<Request>, rest: seq<Request>)
    requires |types| > 0 && first == CancelsFor(lists.Get(types[0]), status)
    requires forall j | 0 <= j < |rest| ::
      rest[j].CancelRequest? && Live(status(rest[j].order)) &&
      exists k :: k in types[1..] && rest[j].order in lists.Set(types[0], []).Get(k)
    requires forall k, o | k in types[1..] && o in lists.Set(types[0], []).Get(k) && Live(status(o)) :: CancelRequest(o) in rest
    ensures forall j | 0 <= j < |first + rest| ::
      (first + rest)[j].CancelRequest? && Live(status((first + rest)[j].order)) &&
      exists k :: k in types && (first + rest)[j].order in lists.Get(k)
    ensures forall k, o | k in types && o in lists.Get(k) && Live(status(o)) :: CancelRequest(o) in first + rest
  {
    var emptied := lists.Set(types[0], []);
    assert types[0] in types;
    forall j | 0 <= j < |first + rest|
      ensures (first + rest)[j].CancelRequest? && Live(status((first + rest)[j].order)) &&
              exists k :: k in types && (first + rest)[j].order in lists.Get(k)
    {
      if j >= |first| {
        var x := rest[j - |first|];
        var k :| k in types[1..] && x.order in emptied.Get(k);
        assert k != types[0];
        assert k in types;
      }
    }
    forall k, o | k in types && o in lists.Get(k) && Live(status(o))
      ensures CancelRequest(o) in first + rest
    {
      if k != types[0] {
        assert k in types[1..];
        assert o in emptied.Get(k);
      }
    }
  }

  /** The lists after the loop: every listed kind emptied, the others as they were. */
  function Emptied(lists: Tracked, types: seq<Kind>): (r: Tracked)
    ensures forall k | k in types :: r.Get(k) == []
    ensures forall k | k !in types :: r.Get(k) == lists.Get(k)
  {
    Tracked(if Entries in types then [] else lists.entries, if Exits in types then [] else lists.exits)
  }

  /**
   * `cancel_all_orders`: cancel the live orders of the listed kinds and
   * empty exactly those lists; an untracked ticker is left alone.
   */
  function CancelAllOrders(m: Manager, name: string, types: seq<Kind>, status: OrderRef -> Status): (r: Manager)
    ensures name !in m.openOrders ==> r == m
    ensures name in m.openOrders ==>
      && r.nextId == m.nextId
      && r.openOrders.Keys == m.openOrders.Keys
      && (forall t | t in m.openOrders && t != name :: r.openOrders[t] == m.openOrders[t])
      && (forall k | k in types :: ListOf(r, name, k) == [])
      && (forall k | k !in types :: ListOf(r, name, k) == ListOf(m, name, k))
      && |m.requests| <= |r.requests| && r.requests[..|m.requests|] == m.requests
      && (forall j | |m.requests| <= j < |r.requests| ::
            r.requests[j].CancelRequest? && Live(status(r.requests[j].order)) &&
            exists k :: k in types && r.requests[j].order in ListOf(m, name, k))
      && (forall k, o | k in types && o in ListOf(m, name, k) && Live(status(o)) ::
            CancelRequest(o) in r.requests[|m.requests|..])
  {
    if name !in m.openOrders then m
    else
      var lists := m.openOrders[name];
      var cancels := Cancelled(lists, types, status);
      var r := Manager(m.openOrders[name := Emptied(lists, types)], m.requests + cancels, m.nextId);
      assert r.requests[..|m.requests|] == m.requests && r.requests[|m.requests|..] == cancels;
      assert forall j | |m.requests| <= j < |r.requests| :: r.requests[j] == cancels[j - |m.requests|];
      r
  }

  /** The default `types=['entries', 'exits']`. */
  const BothKinds: seq<Kind> := [Entries, Exits]

  /**
   * The calls `cancel_all_orders` makes, in order: for the default types the
   * live entries in list order and then the live exits, for a single type
   * the live orders of that list.
   */
  lemma {:induction false} CancelAllOrdersRequests(m: Manager, name: string, types: seq<Kind>, status: OrderRef -> Status)
    requires name in m.openOrders
    ensures types == BothKinds ==>
      CancelAllOrders(m, name, types, status).requests
        == m.requests + CancelsFor(ListOf(m, name, Entries), status) + CancelsFor(ListOf(m, name, Exits), status)
    ensures |types| == 1 ==>
      CancelAllOrders(m, name, types, status).requests == m.requests + CancelsFor(ListOf(m, name, types[0]), status)
  {
    var lists := m.openOrders[name];
    if types == BothKinds {
      var e := lists.Set(Entries, []);
      assert Cancelled(e.Set(Exits, []), [], status) == [];
      assert Cancelled(e, [Exits], status) == CancelsFor(e.Get(Exits), status);
      assert e.Get(Exits) == lists.Get(Exits);
      assert Cancelled(lists, types, status) == CancelsFor(lists.Get(Entries), status) + CancelsFor(lists.Get(Exits), status);
    }
    if |types| == 1 {
      assert Cancelled(lists.Set(types[0], []), types[1..], status) == [];
      assert Cancelled(lists, types, status) == CancelsFor(lists.Get(types[0]), status);
    }
  }

  /** `cancel_all_orders(data, types=['exits'])` adds the cancels of the live exits, none for an untracked ticker. */
  lemma ExitCancels(m: Manager, name: string, status: OrderRef -> Status)
    ensures CancelAllOrders(m, name, [Exits], status).requests == m.requests + CancelsFor(ListOf(m, name, Exits), status)
  {
    if name in m.openOrders {
      CancelAllOrdersRequests(m, name, [Exits], status);
    } else {
      assert CancelsFor([], status) == [];
    }
  }

  /** After cancelling both kinds nothing is pending for the ticker. */
  lemma NothingPendingAfterCancelAll(m: Manager, name: string, status: OrderRef -> Status)
    ensures !HasPendingOrder(CancelAllOrders(m, name, BothKinds, status), name, status)
  {
    var r := CancelAllOrders(m, name, BothKinds, status);
    if name in m.openOrders {
      assert Entries in BothKinds;
      assert ListOf(r, name, Entries) == [];
    }
  }

  // ---------------------------------------------------------------------------
  // update_trailing_stop
  // ---------------------------------------------------------------------------

  /**
   * `update_trailing_stop`: clear the ticker's exits (cancelling the live
   * ones), then, for a long position, track one stop sell for the whole
   * position at `stop_price`.
   */
  function UpdateTrailingStop(m: Manager, name: string, stopPrice: real, position: int, status: OrderRef -> Status): (p: Placed)
    ensures ListOf(p.manager, name, Entries) == ListOf(m, name, Entries)
    ensures position > 0 ==>
      && p.order == Some(OrderRef(m.nextId, name))
      && ListOf(p.manager, name, Exits) == [p.order.value]
      && |p.manager.requests| > 0
      && p.manager.requests[|p.manager.requests| - 1] == SellRequest(name, position, Stop, Some(stopPrice))
    ensures position <= 0 ==> p.order.None? && ListOf(p.manager, name, Exits) == []
    ensures forall t | t in m.openOrders && t != name :: t in p.manager.openOrders && p.manager.openOrders[t] == m.openOrders[t]
    ensures p.manager.requests == m.requests + CancelsFor(ListOf(m, name, Exits), status)
                                  + (if position > 0 then [SellRequest(name, position, Stop, Some(stopPrice))] else [])
  {
    var m1 := CancelAllOrders(m, name, [Exits], status);
    ExitCancels(m, name, status);
    assert Exits in [Exits] && Entries !in [Exits];
    if position > 0 then
      var (m2, o) := Submit(m1, name, SellRequest(name, position, Stop, Some(stopPrice)));
      Placed(TrackOrder(m2, o, Exits), Some(o))
    else Placed(m1, None)
  }

  // ---------------------------------------------------------------------------
  // process_status and _cleanup_tracking
  // ---------------------------------------------------------------------------

  /** `list.remove(x)` after an `x in list` check: drop the first occurrence, if any. */
  function RemoveFirst(l: seq<OrderRef>, x: OrderRef): (r: seq<OrderRef>)
    ensures x !in l ==> r == l
    ensures x in l ==> exists i :: 0 <= i < |l| && l[i] == x && x !in l[..i] && r == l[..i] + l[i + 1..]
    ensures multiset(r) == multiset(l) - multiset{x}
  {
    if x !in l then l
    else
      var i := Seqs.IndexOf(l, x);
      assert l == l[..i] + [x] + l[i + 1..];
      l[..i] + l[i + 1..]
  }

  /** Removing an order appended to a list that did not hold it gives the list back. */
  lemma RemoveFirstAppended(l: seq<OrderRef>, x: OrderRef)
    requires x !in l
    ensures RemoveFirst(l + [x], x) == l
  {
    var s := l + [x];
    var i := Seqs.IndexOf(s, x);
    assert i == |l| by {
      assert forall j | 0 <= j < |l| :: s[j] == l[j];
    }
    assert s[..i] == l;
  }

  /** `_cleanup_tracking`: forget the order in both lists of its ticker. */
  function CleanupTracking(m: Manager, o: OrderRef): (r: Manager)
    ensures r.requests == m.requests && r.nextId == m.nextId
    ensures r.openOrders.Keys == m.openOrders.Keys
    ensures forall t | t in m.openOrders && t != o.ticker :: r.openOrders[t] == m.openOrders[t]
    ensures forall k :: ListOf(r, o.ticker, k) == RemoveFirst(ListOf(m, o.ticker, k), o)
  {
    if o.ticker in m.openOrders then
      m.(openOrders := m.openOrders[o.ticker := Untrack(m.openOrders[o.ticker], o)])
    else m
  }

  /** Both of a ticker's lists with the first occurrence of `o` removed. */
  function Untrack(lists: Tracked, o: OrderRef): (r: Tracked)
    ensures forall k :: r.Get(k) == RemoveFirst(lists.Get(k), o)
  {
    var r := Tracked(RemoveFirst(lists.entries, o), RemoveFirst(lists.exits, o));
    assert r.Get(Entries) == RemoveFirst(lists.Get(Entries), o);
    r
  }

  /** `process_status`: a terminal status stops tracking the order; any other status changes nothing. Trade logging is not modelled. */
  function ProcessStatus(m: Manager, o: OrderRef, st: Status): (r: Manager)
    ensures !Terminal(st) ==> r == m
    ensures Terminal(st) ==>
      && r.requests == m.requests
      && r.openOrders.Keys == m.openOrders.Keys
      && (forall t | t in m.openOrders && t != o.ticker :: r.openOrders[t] == m.openOrders[t])
      && (forall k :: multiset(ListOf(r, o.ticker, k)) == multiset(ListOf(m, o.ticker, k)) - multiset{o})
      && (forall k | o !in ListOf(m, o.ticker, k) :: ListOf(r, o.ticker, k) == ListOf(m, o.ticker, k))
  {
    if Terminal(st) then CleanupTracking(m, o) else m
  }

  /** Tracking a new order and then seeing it reach a terminal status leaves the ticker's lists as they were. */
  lemma TrackThenCompleteRestores(m: Manager, o: OrderRef, k: Kind, st: Status)
    requires Terminal(st)
    requires forall k2 :: o !in ListOf(m, o.ticker, k2)
    ensures forall k2 :: ListOf(ProcessStatus(TrackOrder(m, o, k), o, st), o.ticker, k2) == ListOf(m, o.ticker, k2)
  {
    var t := TrackOrder(m, o, k);
    forall k2 ensures ListOf(ProcessStatus(t, o, st), o.ticker, k2) == ListOf(m, o.ticker, k2) {
      if k2 == k {
        RemoveFirstAppended(ListOf(m, o.ticker, k2), o);
      }
    }
  }
}

=== FILE: params.dfy ===
/**
 * Parameter values and parameter sets of `engine/optimizer.py`, with the grid
 * helpers `_closest_in_list`, `_params_match`, `_params_in_results`,
 * `_snap_params_to_grid` and `_grid_param_index`.
 *
 * A Python dict keeps insertion order, and the optimizer iterates its keys in
 * that order, so a parameter set is an association list whose first entry for
 * a key is the one that counts.
 */
module Params {
  import opened Wrappers
  import opened PyOps
  import opened Seqs

  /** A strategy parameter: Python `int`, `float`, `bool`, `str` or `None`. */
  datatype ParamValue = PInt(i: int) | PReal(x: real) | PBool(b: bool) | PStr(s: string) | PNone

  /** `isinstance(v, (int, float))`; a `bool` is an `int` in Python. */
  predicate IsNumeric(v: ParamValue) {
    v.PInt? || v.PReal? || v.PBool?
  }

  /** `isinstance(v, int)` */
  predicate IsIntLike(v: ParamValue) {
    v.PInt? || v.PBool?
  }

  /** `float(v)` for a numeric value; `float(True) == 1.0`. */
  function ToReal(v: ParamValue): real
    requires IsNumeric(v)
  {
    match v
    case PInt(i) => i as real
    case PReal(x) => x
    case PBool(b) => if b then 1.0 else 0.0
  }

  /** `int(v)` for an int-like value. */
  function ToInt(v: ParamValue): (r: ParamValue)
    requires IsIntLike(v)
    ensures r.PInt? && ToReal(r) == ToReal(v)
  {
    match v
    case PInt(i) => v
    case PBool(b) => PInt(if b then 1 else 0)
  }

  /** Python `==`: numbers compare by value across `int`, `float` and `bool`. */
  predicate PyEq(a: ParamValue, b: ParamValue) {
    if IsNumeric(a) && IsNumeric(b) then ToReal(a) == ToReal(b) else a == b
  }

  lemma PyEqIsEquivalence(a: ParamValue, b: ParamValue, c: ParamValue)
    ensures PyEq(a, a)
    ensures PyEq(a, b) ==> PyEq(b, a)
    ensures PyEq(a, b) && PyEq(b, c) ==> PyEq(a, c)
  {
  }

  predicate AllNumeric(s: seq<ParamValue>) {
    forall i | 0 <= i < |s| :: IsNumeric(s[i])
  }

  predicate AllIntLike(s: seq<ParamValue>) {
    forall i | 0 <= i < |s| :: IsIntLike(s[i])
  }

  /** A parameter set: a dict as its entries in insertion order. */
  type ParamSet = seq<(string, ParamValue)>

  /** `p.get(k)` */
  function Get(p: ParamSet, k: string): (r: Option<ParamValue>)
    ensures r.Some? <==> exists i :: 0 <= i < |p| && p[i].0 == k
    ensures r.Some? ==> exists i :: 0 <= i < |p| && p[i] == (k, r.value)
  {
    if |p| == 0 then None
    else if p[0].0 == k then Some(p[0].1)
    else
      var r := Get(p[1..], k);
      assert forall i | 0 <= i < |p[1..]| :: p[1..][i] == p[i + 1];
      r
  }

  /** `k in p` */
  predicate HasKey(p: ParamSet, k: string) {
    Get(p, k).Some?
  }

  /** The key set of `p`. */
  function Keys(p: ParamSet): (r: set<string>)
    ensures forall k :: k in r <==> HasKey(p, k)
  {
    set i | 0 <= i < |p| :: p[i].0
  }

  /** `list(p.keys())` */
  function KeyList(p: ParamSet): (r: seq<string>)
    ensures |r| == |p|
    ensures forall i | 0 <= i < |p| :: r[i] == p[i].0
  {
    seq(|p|, i requires 0 <= i < |p| => p[i].0)
  }

  /** One evaluated parameter set: the parameters and their metric, None when unavailable. */
  type Run = (ParamSet, Option<real>)

  /** Each key occurs once, as in any Python dict. */
  predicate DistinctKeys(p: ParamSet) {
    forall i, j | 0 <= i < j < |p| :: p[i].0 != p[j].0
  }

  /** Tolerance used for numeric parameter comparisons. */
  const Tolerance: real := 0.000000001

  // ---------------------------------------------------------------------------
  // _closest_in_list
  // ---------------------------------------------------------------------------

  /** `abs(float(c) - x)` */
  function Dist(c: ParamValue, x: real): real
    requires IsNumeric(c)
  {
    Abs(ToReal(c) - x)
  }

  /** The index that `min(candidates, key=...)` picks: the first at minimal distance. */
  function ClosestIndex(cands: seq<ParamValue>, x: real): (r: nat)
    requires |cands| > 0 && AllNumeric(cands)
    ensures r < |cands|
    ensures forall j | 0 <= j < |cands| :: Dist(cands[r], x) <= Dist(cands[j], x)
    ensures forall j | 0 <= j < r :: Dist(cands[r], x) < Dist(cands[j], x)
  {
    if |cands| == 1 then 0
    else
      var last := |cands| - 1;
      var j := ClosestIndex(cands[..last], x);
      assert forall i | 0 <= i < last :: cands[..last][i] == cands[i];
      if Dist(cands[last], x) < Dist(cands[j], x) then last else j
  }

  /**
   * `_closest_in_list`: the value itself for no candidates; the first closest
   * candidate when the value and every candidate convert to float; otherwise
   * (the `TypeError` path) the first candidate.
   */
  function ClosestInList(value: ParamValue, cands: seq<ParamValue>): (r: ParamValue)
    ensures |cands| == 0 ==> r == value
    ensures |cands| > 0 ==> r in cands
    ensures |cands| > 0 && !(IsNumeric(value) && AllNumeric(cands)) ==> r == cands[0]
    ensures |cands| > 0 && IsNumeric(value) && AllNumeric(cands) ==>
              forall j | 0 <= j < |cands| :: Dist(r, ToReal(value)) <= Dist(cands[j], ToReal(value))
  {
    if |cands| == 0 then value
    else if IsNumeric(value) && AllNumeric(cands) then cands[ClosestIndex(cands, ToReal(value))]
    else cands[0]
  }

  /** With numeric inputs the chosen candidate is a nearest one, and the first of the nearest. */
  lemma ClosestIsFirstNearest(value: ParamValue, cands: seq<ParamValue>)
    requires |cands| > 0 && IsNumeric(value) && AllNumeric(cands)
    ensures exists i :: 0 <= i < |cands| && ClosestInList(value, cands) == cands[i]
                        && (forall j | 0 <= j < |cands| :: Dist(cands[i], ToReal(value)) <= Dist(cands[j], ToReal(value)))
                        && (forall j | 0 <= j < i :: Dist(cands[i], ToReal(value)) < Dist(cands[j], ToReal(value)))
  {
    var i := ClosestIndex(cands, ToReal(value));
    assert ClosestInList(value, cands) == cands[i];
  }

  /** A numeric value equal to some candidate snaps to a candidate equal to it. */
  lemma ClosestOfMemberIsEqual(value: ParamValue, cands: seq<ParamValue>, k: nat)
    requires k < |cands| && IsNumeric(value) && AllNumeric(cands)
    requires PyEq(cands[k], value)
    ensures IsNumeric(ClosestInList(value, cands))
    ensures ToReal(ClosestInList(value, cands)) == ToReal(value)
  {
    var i := ClosestIndex(cands, ToReal(value));
    assert Dist(cands[k], ToReal(value)) == 0.0;
    assert Dist(cands[i], ToReal(value)) <= 0.0;
  }

  // ---------------------------------------------------------------------------
  // _params_match / _params_in_results
  // ---------------------------------------------------------------------------

  /** Two values agree: numbers within the tolerance, anything else by `==`. */
  predicate ValueMatch(a: ParamValue, b: ParamValue) {
    if IsNumeric(a) && IsNumeric(b) then Abs(ToReal(a) - ToReal(b)) <= Tolerance else a == b
  }

  /** `_params_match`: the same key set, and every key's values agree. */
  predicate ParamsMatch(p1: ParamSet, p2: ParamSet) {
    && Keys(p1) == Keys(p2)
    && forall i | 0 <= i < |p1| :: HasKey(p2, p1[i].0) && ValueMatch(p1[i].1, Get(p2, p1[i].0).value)
  }

  /** Python-equal values agree. */
  lemma PyEqMatches(a: ParamValue, b: ParamValue)
    requires PyEq(a, b)
    ensures ValueMatch(a, b) && ValueMatch(b, a)
  {
  }

  /** The first entry of a key is what `p[k]` reads. */
  lemma GetFirst(p: ParamSet, i: nat)
    requires i < |p| && DistinctKeys(p)
    ensures Get(p, p[i].0) == Some(p[i].1)
  {
    if i > 0 {
      assert p[0].0 != p[i].0;
      assert DistinctKeys(p[1..]) by {
        forall a, b | 0 <= a < b < |p[1..]| ensures p[1..][a].0 != p[1..][b].0 {
          assert p[1..][a] == p[a + 1] && p[1..][b] == p[b + 1];
        }
      }
      GetFirst(p[1..], i - 1);
    }
  }

  /** Every dict matches itself. */
  lemma {:induction false} ParamsMatchReflexive(p: ParamSet)
    requires DistinctKeys(p)
    ensures ParamsMatch(p, p)
  {
    forall i | 0 <= i < |p|
      ensures HasKey(p, p[i].0) && ValueMatch(p[i].1, Get(p, p[i].0).value)
    {
      GetFirst(p, i);
    }
  }

  /** Between dicts the match does not depend on the order of the arguments. */
  lemma ParamsMatchSymmetric(p1: ParamSet, p2: ParamSet)
    requires DistinctKeys(p1) && DistinctKeys(p2)
    requires ParamsMatch(p1, p2)
    ensures ParamsMatch(p2, p1)
  {
    forall i | 0 <= i < |p2|
      ensures HasKey(p1, p2[i].0) && ValueMatch(p2[i].1, Get(p1, p2[i].0).value)
    {
      var k := p2[i].0;
      GetFirst(p2, i);
      assert k in Keys(p1);
      var j :| 0 <= j < |p1| && p1[j].0 == k;
      GetFirst(p1, j);
    }
  }

  /** The index of the first result whose parameters match `p`. */
  function FirstMatch(p: ParamSet, results: seq<Run>): (r: Option<nat>)
    ensures r.Some? ==> r.value < |results| && ParamsMatch(p, results[r.value].0)
    ensures r.Some? ==> forall j | 0 <= j < r.value :: !ParamsMatch(p, results[j].0)
    ensures r.None? ==> forall j | 0 <= j < |results| :: !ParamsMatch(p, results[j].0)
  {
    var matches := seq(|results|, i requires 0 <= i < |results| => ParamsMatch(p, results[i].0));
    assert forall i | 0 <= i < |results| :: matches[i] == ParamsMatch(p, results[i].0);
    var k := FirstTrue(matches);
    if k < |results| then Some(k) else None
  }

  /** `_params_in_results` */
  function ParamsInResults(p: ParamSet, results: seq<Run>): (r: bool)
    ensures r <==> exists i :: 0 <= i < |results| && ParamsMatch(p, results[i].0)
  {
    FirstMatch(p, results).Some?
  }

  /**
   * `next((val for p, val in all_results if _params_match(p, final)), all_results[0][1])`:
   * the metric of the first matching result, else the first result's metric.
   */
  function ChosenValue(final: ParamSet, results: seq<Run>): (r: Option<real>)
    requires |results| > 0
    ensures ParamsInResults(final, results) ==>
              exists i :: 0 <= i < |results| && ParamsMatch(final, results[i].0) && r == results[i].1
    ensures forall i | 0 <= i < |results| && ParamsMatch(final, results[i].0)
                       && (forall j | 0 <= j < i :: !ParamsMatch(final, results[j].0)) :: r == results[i].1
    ensures !ParamsInResults(final, results) ==> r == results[0].1
  {
    match FirstMatch(final, results)
    case Some(i) => results[i].1
    case None => results[0].1
  }

  // ---------------------------------------------------------------------------
  // Grid candidates and _snap_params_to_grid
  // ---------------------------------------------------------------------------

  /** `grid_candidates`: candidate lists per parameter name, in dict order. */
  type Grid = seq<(string, seq<ParamValue>)>

  /**
   * The candidates of `k`, or the empty list when `k` has none; the source
   * treats a missing key and an empty list alike (`k in g and g[k]`).
   */
  function Candidates(g: Grid, k: string): (r: seq<ParamValue>)
    ensures |r| > 0 ==> exists i :: 0 <= i < |g| && g[i] == (k, r)
    ensures (forall i | 0 <= i < |g| :: g[i].0 != k) ==> r == []
  {
    if |g| == 0 then []
    else if g[0].0 == k then g[0].1
    else
      var r := Candidates(g[1..], k);
      assert forall i | 0 <= i < |g[1..]| :: g[1..][i] == g[i + 1];
      r
  }

  /**
   * One value of `_snap_params_to_grid`: the closest candidate, as an `int`
   * when every candidate is one. A number lands at least as close to itself
   * as any candidate.
   */
  function SnapValue(v: ParamValue, cands: seq<ParamValue>): (r: ParamValue)
    ensures |cands| == 0 ==> r == v
    ensures |cands| > 0 && !AllIntLike(cands) ==> r in cands && r == ClosestInList(v, cands)
    ensures |cands| > 0 && AllIntLike(cands) ==> r.PInt? && ToInt(ClosestInList(v, cands)) == r
    ensures |cands| > 0 && IsNumeric(v) && AllNumeric(cands) ==>
              IsNumeric(r) && forall j | 0 <= j < |cands| :: Dist(r, ToReal(v)) <= Dist(cands[j], ToReal(v))
  {
    if |cands| == 0 then v
    else
      var c := ClosestInList(v, cands);
      if AllIntLike(cands) then ToInt(c) else c
  }

  /**
   * `_snap_params_to_grid`: every key with candidates moves to its closest
   * candidate (made an `int` when every candidate is one); other keys pass
   * through; keys and their order are kept.
   */
  function SnapParamsToGrid(p: ParamSet, g: Grid): (r: ParamSet)
    ensures |r| == |p|
    ensures forall i | 0 <= i < |p| :: r[i].0 == p[i].0
    ensures forall i | 0 <= i < |p| && |Candidates(g, p[i].0)| == 0 :: r[i].1 == p[i].1
    ensures forall i | 0 <= i < |p| && |Candidates(g, p[i].0)| > 0 && !AllIntLike(Candidates(g, p[i].0)) ::
              r[i].1 in Candidates(g, p[i].0)
    ensures forall i | 0 <= i < |p| && |Candidates(g, p[i].0)| > 0 && AllIntLike(Candidates(g, p[i].0)) ::
              r[i].1.PInt?
    ensures forall i | 0 <= i < |p| :: r[i].1 == SnapValue(p[i].1, Candidates(g, p[i].0))
  {
    seq(|p|, i requires 0 <= i < |p| => (p[i].0, SnapValue(p[i].1, Candidates(g, p[i].0))))
  }

  /** Every gridded key holds a number that is one of its (numeric) candidates. */
  ghost predicate OnNumericGrid(p: ParamSet, g: Grid) {
    forall i | 0 <= i < |p| && |Candidates(g, p[i].0)| > 0 ::
      && IsNumeric(p[i].1)
      && AllNumeric(Candidates(g, p[i].0))
      && exists k :: 0 <= k < |Candidates(g, p[i].0)| && PyEq(Candidates(g, p[i].0)[k], p[i].1)
  }

  /** The snapped value of an on-grid number equals it. */
  lemma SnapValueOnGrid(v: ParamValue, cands: seq<ParamValue>, k: nat)
    requires k < |cands| && IsNumeric(v) && AllNumeric(cands) && PyEq(cands[k], v)
    ensures IsNumeric(SnapValue(v, cands)) && ToReal(SnapValue(v, cands)) == ToReal(v)
  {
    ClosestOfMemberIsEqual(v, cands, k);
  }

  /** A parameter set already on a numeric grid snaps to a set that matches it. */
  lemma {:induction false} SnapOnGridMatches(p: ParamSet, g: Grid)
    requires DistinctKeys(p)
    requires OnNumericGrid(p, g)
    ensures ParamsMatch(SnapParamsToGrid(p, g), p)
  {
    var r := SnapParamsToGrid(p, g);
    SnapKeepsKeys(p, g);
    forall i | 0 <= i < |r|
      ensures HasKey(p, r[i].0) && ValueMatch(r[i].1, Get(p, r[i].0).value)
    {
      SnapEntryMatches(p, g, i);
    }
  }

  lemma SnapKeepsKeys(p: ParamSet, g: Grid)
    ensures Keys(SnapParamsToGrid(p, g)) == Keys(p)
  {
    var r := SnapParamsToGrid(p, g);
    forall k ensures k in Keys(r) <==> k in Keys(p) {
      if k in Keys(r) { var i :| 0 <= i < |r| && r[i].0 == k; assert p[i].0 == k; }
      if k in Keys(p) { var i :| 0 <= i < |p| && p[i].0 == k; assert r[i].0 == k; }
    }
  }

  /** Entry `i` of an on-grid set snaps to a value matching the set's own value for that key. */
  lemma SnapEntryMatches(p: ParamSet, g: Grid, i: nat)
    requires DistinctKeys(p) && OnNumericGrid(p, g) && i < |p|
    ensures var r := SnapParamsToGrid(p, g);
      HasKey(p, r[i].0) && ValueMatch(r[i].1, Get(p, r[i].0).value)
  {
    GetFirst(p, i);
    var cands := Candidates(g, p[i].0);
    if |cands| > 0 {
      var k :| 0 <= k < |cands| && PyEq(cands[k], p[i].1);
      SnapValueOnGrid(p[i].1, cands, k);
    }
  }

  /** On a grid of strings every value snaps to the first candidate, even one already on it. */
  lemma StringGridSnapsToFirst()
    ensures SnapParamsToGrid([("mode", PStr("b"))], [("mode", [PStr("a"), PStr("b")])]) == [("mode", PStr("a"))]
  {
    assert Candidates([("mode", [PStr("a"), PStr("b")])], "mode") == [PStr("a"), PStr("b")];
  }

  // ---------------------------------------------------------------------------
  // _grid_param_index
  // ---------------------------------------------------------------------------

  /**
   * The first position at which the scan of `_grid_param_index` stops: a
   * candidate within the tolerance of `x`, or one that does not convert to
   * float; `|grid|` when there is none.
   */
  function ScanStop(grid: seq<ParamValue>, x: real): (r: nat)
    ensures r <= |grid|
    ensures forall j | 0 <= j < r :: IsNumeric(grid[j]) && Dist(grid[j], x) >= Tolerance
    ensures r < |grid| ==> !IsNumeric(grid[r]) || Dist(grid[r], x) < Tolerance
  {
    if |grid| == 0 then 0
    else if !IsNumeric(grid[0]) || Dist(grid[0], x) < Tolerance then 0
    else
      var r := ScanStop(grid[1..], x);
      assert forall j | 0 <= j < |grid[1..]| :: grid[1..][j] == grid[j + 1];
      r + 1
  }

  /**
   * `_grid_param_index`: the first candidate within the tolerance, else the
   * first nearest one; 0 for an empty grid or whenever a `float()`
   * conversion fails before an answer is found.
   */
  function GridParamIndex(value: ParamValue, grid: seq<ParamValue>): (r: nat)
    ensures |grid| == 0 ==> r == 0
    ensures |grid| > 0 ==> r < |grid|
    ensures !IsNumeric(value) ==> r == 0
  {
    if |grid| == 0 || !IsNumeric(value) then 0
    else
      var x := ToReal(value);
      var stop := ScanStop(grid, x);
      if stop < |grid| then (if IsNumeric(grid[stop]) then stop else 0)
      else ClosestIndex(grid, x)
  }

  /** On a numeric grid the index is the first match within the tolerance, else the first nearest. */
  lemma GridParamIndexOnNumericGrid(value: ParamValue, grid: seq<ParamValue>)
    requires |grid| > 0 && IsNumeric(value) && AllNumeric(grid)
    ensures var r := GridParamIndex(value, grid);
            var x := ToReal(value);
            (exists j :: 0 <= j < |grid| && Dist(grid[j], x) < Tolerance) ==>
              (Dist(grid[r], x) < Tolerance && forall j | 0 <= j < r :: Dist(grid[j], x) >= Tolerance)
    ensures var r := GridParamIndex(value, grid);
            var x := ToReal(value);
            (forall j | 0 <= j < |grid| :: Dist(grid[j], x) >= Tolerance) ==>
              ((forall j | 0 <= j < |grid| :: Dist(grid[r], x) <= Dist(grid[j], x))
               && forall j | 0 <= j < r :: Dist(grid[r], x) < Dist(grid[j], x))
  {
    var x := ToReal(value);
    var stop := ScanStop(grid, x);
    if exists j :: 0 <= j < |grid| && Dist(grid[j], x) < Tolerance {
      var j :| 0 <= j < |grid| && Dist(grid[j], x) < Tolerance;
      assert stop <= j;
    }
  }

  /** An exact grid value is found at its first occurrence. */
  lemma GridParamIndexExample()
    ensures GridParamIndex(PInt(14), [PInt(10), PInt(14), PInt(20)]) == 1
    ensures GridParamIndex(PReal(15.0), [PInt(10), PInt(14), PInt(20)]) == 1
    ensures GridParamIndex(PStr("x"), [PInt(10), PInt(14)]) == 0
  {
    ScanStopExample();
    ClosestIndexExample();
  }

  lemma ScanStopExample()
    ensures ScanStop([PInt(10), PInt(14), PInt(20)], 14.0) == 1
    ensures ScanStop([PInt(10), PInt(14), PInt(20)], 15.0) == 3
  {
    var g := [PInt(10), PInt(14), PInt(20)];
    assert ScanStop(g[1..], 14.0) == 0;
    assert ScanStop(g[1..][1..][1..], 15.0) == 0;
  }

  lemma ClosestIndexExample()
    ensures ClosestIndex([PInt(10), PInt(14), PInt(20)], 15.0) == 1
  {
    var g := [PInt(10), PInt(14), PInt(20)];
    assert ClosestIndex(g[..2], 15.0) == 1 by {
      assert ClosestIndex(g[..2][..1], 15.0) == 0;
    }
  }
}

=== FILE: pyops.dfy ===
/** Python numeric built-ins used throughout the model, stated over exact reals. */
module PyOps {

  /** Python `int(x)` on a float: truncation toward zero (not floor). */
  function Trunc(x: real): (r: int)
    ensures 0.0 <= x ==> 0 <= r && r as real <= x < r as real + 1.0
    ensures x < 0.0 ==> r <= 0 && r as real - 1.0 < x <= r as real
  {
    if x >= 0.0 then x.Floor else -((-x).Floor)
  }

  lemma MulLe(x: real, y: real, b: real)
    requires x <= y && b >= 0.0
    ensures x * b <= y * b
  {
    assert y * b - x * b == (y - x) * b;
  }

  lemma MulLt(x: real, y: real, b: real)
    requires x < y && b > 0.0
    ensures x * b < y * b
  {
    assert y * b - x * b == (y - x) * b;
  }

  /** `x < q` scales to `x * b < a` when `q * b == a` and `b` is positive. */
  lemma ScaleLt(x: real, q: real, b: real, a: real)
    requires x < q && b > 0.0 && q * b == a
    ensures x * b < a
  {
    MulLt(x, q, b);
  }

  lemma TruncDivNonNegative(a: real, b: real)
    requires b > 0.0 && a >= 0.0
    ensures Trunc(a / b) as real * b <= a
    ensures a < Trunc(a / b) as real * b + b
  {
    TruncDivNonNegativeLow(a, b);
    TruncDivNonNegativeHigh(a, b);
  }

  lemma TruncDivNonNegativeLow(a: real, b: real)
    requires b > 0.0 && a >= 0.0
    ensures Trunc(a / b) as real * b <= a
  {
    var q := a / b;
    assert q * b == a;
    var t := Trunc(q) as real;
    assert t <= q;
    MulLe(t, q, b);
    assert t * b <= a;
  }

  lemma TruncDivNonNegativeHigh(a: real, b: real)
    requires b > 0.0 && a >= 0.0
    ensures a < Trunc(a / b) as real * b + b
  {
    var q := a / b;
    assert q * b == a;
    var t := Trunc(q) as real;
    assert q < t + 1.0;
    MulLt(q, t + 1.0, b);
    assert a < (t + 1.0) * b;
    assert (t + 1.0) * b == t * b + b;
  }

  lemma TruncDivNegative(a: real, b: real)
    requires b > 0.0 && a < 0.0
    ensures Trunc(a / b) as real * b - b < a
    ensures a <= Trunc(a / b) as real * b
  {
    TruncDivNegativeLow(a, b);
    TruncDivNegativeHigh(a, b);
  }

  lemma TruncDivNegativeLow(a: real, b: real)
    requires b > 0.0 && a < 0.0
    ensures Trunc(a / b) as real * b - b < a
  {
    var q := a / b;
    assert q * b == a;
    assert q < 0.0 by {
      if q >= 0.0 { MulLe(0.0, q, b); }
    }
    var t := Trunc(q) as real;
    ScaleLt(t - 1.0, q, b, a);
    assert (t - 1.0) * b == t * b - b;
  }

  lemma TruncDivNegativeHigh(a: real, b: real)
    requires b > 0.0 && a < 0.0
    ensures a <= Trunc(a / b) as real * b
  {
    var q := a / b;
    assert q * b == a;
    var t := Trunc(q) as real;
    assert q <= t;
    MulLe(q, t, b);
    assert a <= t * b;
  }

  /** `int(a / b)` for a positive divisor brackets `a` between consecutive multiples of `b`. */
  lemma TruncDivSandwich(a: real, b: real)
    requires b > 0.0
    ensures a >= 0.0 ==> Trunc(a / b) as real * b <= a < Trunc(a / b) as real * b + b
    ensures a < 0.0 ==> Trunc(a / b) as real * b - b < a <= Trunc(a / b) as real * b
  {
    if a >= 0.0 { TruncDivNonNegative(a, b); } else { TruncDivNegative(a, b); }
  }

  function Abs(x: real): real {
    if x < 0.0 then -x else x
  }

  function AbsInt(x: int): nat {
    if x < 0 then -x else x
  }

  function Max(a: int, b: int): int {
    if a < b then b else a
  }

  function Min(a: int, b: int): int {
    if a < b then a else b
  }

  /** Python `sum(values)`. */
  function Sum(s: seq<real>): real {
    if |s| == 0 then 0.0 else s[0] + Sum(s[1..])
  }

  /** Python `sum(values) / len(values)`. */
  function Mean(s: seq<real>): real
    requires |s| > 0
  {
    Sum(s) / (|s| as real)
  }

  function SumSquaredDeviations(s: seq<real>, m: real): (r: real)
    ensures r >= 0.0
  {
    if |s| == 0 then 0.0
    else
      var d := s[0] - m;
      assert d * d >= 0.0 by { if d < 0.0 { assert (-d) * (-d) == d * d; } }
      d * d + SumSquaredDeviations(s[1..], m)
  }

  /** Population variance `sum((x - mean) ** 2) / len`. */
  function Variance(s: seq<real>): (r: real)
    requires |s| > 0
    ensures r >= 0.0
  {
    SumSquaredDeviations(s, Mean(s)) / (|s| as real)
  }

  /** `f` behaves as the square root on the non-negative reals (`x ** 0.5`). */
  ghost predicate IsSqrt(f: real -> real) {
    forall x :: 0.0 <= x ==> 0.0 <= f(x) && f(x) * f(x) == x
  }

  /** Population standard deviation, `variance ** 0.5`. */
  function StdDev(s: seq<real>, sqrt: real -> real): (r: real)
    requires IsSqrt(sqrt) && |s| > 0
    ensures r >= 0.0 && r * r == Variance(s)
  {
    sqrt(Variance(s))
  }

  /**
   * Python slicing `s[:n]`: a negative bound counts from the end, and a bound
   * past either end is clamped.
   */
  function Prefix<T>(s: seq<T>, n: int): (r: seq<T>)
    ensures n >= 0 ==> |r| == if n > |s| then |s| else n
    ensures n < 0 ==> |r| == if |s| + n < 0 then 0 else |s| + n
    ensures r <= s
  {
    if n < 0 then (if |s| + n < 0 then [] else s[..|s| + n])
    else if n > |s| then s else s[..n]
  }

  lemma SumAppend(a: seq<real>, b: seq<real>)
    ensures Sum(a + b) == Sum(a) + Sum(b)
  {
    if |a| == 0 {
      assert a + b == b;
    } else {
      assert (a + b)[1..] == a[1..] + b;
      SumAppend(a[1..], b);
    }
  }
  /** Integer division and remainder are the unique quotient and remainder. */
  lemma DivModUnique(i: int, n: int, q: int, r: int)
    requires n > 0 && i == q * n + r && 0 <= r < n
    ensures i / n == q && i % n == r
  {
    var q0, r0 := i / n, i % n;
    assert i == q0 * n + r0;
    if q0 > q {
      assert q0 * n - q * n == (q0 - q) * n;
      MulLeInt(1, q0 - q, n);
    } else if q0 < q {
      assert q * n - q0 * n == (q - q0) * n;
      MulLeInt(1, q - q0, n);
    }
  }

  lemma MulLeInt(x: int, y: int, n: int)
    requires x <= y && n >= 0
    ensures x * n <= y * n
  {
    assert y * n - x * n == (y - x) * n;
  }

  /** Stepping back one block of `n` lowers the quotient by one and keeps the remainder. */
  lemma DivModShift(i: int, n: int)
    requires n > 0 && i >= n
    ensures (i - n) / n == i / n - 1 && (i - n) % n == i % n
  {
    var q, r := i / n, i % n;
    assert i - n == (q - 1) * n + r;
    DivModUnique(i - n, n, q - 1, r);
  }

  /** An index below `m` blocks of `n` lies in one of the first `m` blocks. */
  lemma DivBound(i: int, m: int, n: int)
    requires n > 0 && 0 <= i < m * n
    ensures 0 <= i / n < m
  {
    var q := i / n;
    assert i == q * n + i % n;
    if q >= m {
      MulLeInt(m, q, n);
    }
  }

  /** The remainder by `n` survives a first reduction by a multiple of `n`. */
  lemma ModMod(i: int, m: int, n: int)
    requires m > 0 && n > 0
    ensures (i % (m * n)) % n == i % n
  {
    var q := i / (m * n);
    var r := i % (m * n);
    assert i == q * (m * n) + r;
    var q2 := r / n;
    var r2 := r % n;
    assert r == q2 * n + r2;
    assert i == (q * m + q2) * n + r2;
    DivModUnique(i, n, q * m + q2, r2);
  }

  lemma {:induction false} SumBounds(s: seq<real>, lo: real, hi: real)
    requires forall i | 0 <= i < |s| :: lo <= s[i] <= hi
    ensures (|s| as real) * lo <= Sum(s) <= (|s| as real) * hi
  {
    if |s| > 0 {
      SumBounds(s[1..], lo, hi);
      assert (|s| as real) * lo == lo + ((|s| - 1) as real) * lo;
      assert (|s| as real) * hi == hi + ((|s| - 1) as real) * hi;
    }
  }

  /** The mean lies between any lower and upper bound of the values. */
  lemma MeanBetween(s: seq<real>, lo: real, hi: real)
    requires |s| > 0
    requires forall i | 0 <= i < |s| :: lo <= s[i] <= hi
    ensures lo <= Mean(s) <= hi
  {
    SumBounds(s, lo, hi);
    var n := |s| as real;
    assert Mean(s) * n == Sum(s);
    if Mean(s) < lo { MulLt(Mean(s), lo, n); }
    if Mean(s) > hi { MulLt(hi, Mean(s), n); }
  }
}

=== FILE: risk.dfy ===
/**
 * Position sizing and stop-loss rules of `portfolio/risk.py`: ATR risk parity,
 * equal weight and fixed fraction share counts, the 30% single-name cap and
 * the final clamp at zero.
 */
module Risk {
  import opened Wrappers
  import opened PyOps

  /** The sizing methods; `Unknown` stands for a name other than the three recognised ones (see `MethodOf`). */
  datatype Method = RiskParity | EqualWeight | FixedFraction | Unknown(name: string)

  /** The string dispatch of `position_size`: each recognised name selects its rule, any other name none. */
  function MethodOf(name: string): (m: Method)
    ensures name == "risk_parity" <==> m == RiskParity
    ensures name == "equal_weight" <==> m == EqualWeight
    ensures name == "fixed_fraction" <==> m == FixedFraction
    ensures m.Unknown? ==> m.name == name
  {
    if name == "risk_parity" then RiskParity
    else if name == "equal_weight" then EqualWeight
    else if name == "fixed_fraction" then FixedFraction
    else Unknown(name)
  }

  /** The optional keyword arguments `risk_pct`, `stop_mult` and `fixed_pct`. */
  datatype Kwargs = Kwargs(riskPct: Option<real>, stopMult: Option<real>, fixedPct: Option<real>)

  const NoKwargs := Kwargs(None, None, None)

  /** `kwargs.get('risk_pct', 0.02)` */
  function RiskPct(kw: Kwargs): real {
    match kw.riskPct
    case Some(v) => v
    case None => DefaultRiskPct
  }

  /** `kwargs.get('stop_mult', 3.0)` */
  function StopMult(kw: Kwargs): real {
    match kw.stopMult
    case Some(v) => v
    case None => DefaultStopMult
  }

  /** `kwargs.get('fixed_pct', 0.10)` */
  function FixedPct(kw: Kwargs): real {
    match kw.fixedPct
    case Some(v) => v
    case None => DefaultFixedPct
  }

  const DefaultRiskPct: real := 0.02
  const DefaultStopMult: real := 3.0
  const DefaultFixedPct: real := 0.10
  /** No single name may take more than this fraction of the account. */
  const ConcentrationCap: real := 0.30

  /** `n` shares at `unitCost` each stay within `budget`. */
  ghost predicate Within(n: int, unitCost: real, budget: real) {
    n as real * unitCost <= budget
  }

  /** A positive count at a positive price costs a positive amount. */
  lemma PositiveCost(n: int, price: real)
    requires price > 0.0
    ensures n > 0 ==> n as real * price > 0.0
    ensures n <= 0 ==> n as real * price <= 0.0
  {
    if n > 0 { MulLt(0.0, n as real, price); } else { MulLe(n as real, 0.0, price); }
  }

  /** Truncated division of a non-negative amount is the largest count within it. */
  lemma TruncDivBounds(a: real, b: real)
    requires b > 0.0 && a >= 0.0
    ensures Within(Trunc(a / b), b, a)
    ensures !Within(Trunc(a / b) + 1, b, a)
  {
    TruncDivSandwich(a, b);
    assert (Trunc(a / b) + 1) as real == Trunc(a / b) as real + 1.0;
  }

  /**
   * What the method may spend: the dollar risk for risk parity (`risk_amount`),
   * the dollar allocation for equal weight and fixed fraction (`target_value`).
   */
  function Budget(accountValue: real, sizing: Method, maxPositions: int, maxLeverage: real, kw: Kwargs): real
    requires sizing == EqualWeight ==> maxPositions != 0
  {
    match sizing
    case RiskParity => accountValue * RiskPct(kw)
    case EqualWeight => accountValue * (1.0 / (maxPositions as real)) * maxLeverage
    case FixedFraction => accountValue * FixedPct(kw)
    case Unknown(_) => 0.0
  }

  /** What one share consumes of that budget: the stop distance `atr * stop_mult`, or the price. */
  function UnitCost(price: real, atr: real, sizing: Method, kw: Kwargs): real {
    if sizing == RiskParity then atr * StopMult(kw) else price
  }

  /**
   * The method's own share count, before the concentration cap. Risk parity
   * buys nothing unless the stop distance is positive; the dollar methods
   * divide by the price, positive here; an unknown method buys nothing.
   */
  function TargetShares(accountValue: real, price: real, atr: real, sizing: Method,
                        maxPositions: int, maxLeverage: real, kw: Kwargs): int
    requires price > 0.0
    requires sizing == EqualWeight ==> maxPositions != 0
  {
    var unit := UnitCost(price, atr, sizing, kw);
    if sizing.Unknown? || unit <= 0.0 then 0
    else Trunc(Budget(accountValue, sizing, maxPositions, maxLeverage, kw) / unit)
  }

  /** Lowers a count whose cost exceeds 30% of the account to what 30% buys. */
  function CapShares(target: int, accountValue: real, price: real): int
    requires price > 0.0
  {
    var maxAllocation := accountValue * ConcentrationCap;
    if target as real * price > maxAllocation then Trunc(maxAllocation / price) else target
  }

  /**
   * What a sizing call gives back: a share count, or the `ZeroDivisionError`
   * that `1.0 / max_positions` raises for equal weight with no positions.
   */
  datatype Sized = Shares(count: int) | ZeroDivisionError

  /** The equal-weight slice `1.0 / max_positions` is reached with a zero divisor. */
  predicate DividesByZero(price: real, sizing: Method, maxPositions: int) {
    price > 0.0 && sizing == EqualWeight && maxPositions == 0
  }

  /**
   * `position_size`: the number of shares to buy. Risk parity buys nothing
   * without a positive ATR or a positive stop distance; an unknown method
   * and a non-positive account buy nothing; a non-negative account never
   * puts more than 30% of itself into the name.
   */
  function PositionSize(accountValue: real, price: real, atr: real, sizing: Method,
                        maxPositions: int, maxLeverage: real, kw: Kwargs): (r: Sized)
    ensures r.ZeroDivisionError? <==> DividesByZero(price, sizing, maxPositions)
    ensures r.Shares? ==> r.count >= 0
    ensures price <= 0.0 ==> r == Shares(0)
    ensures sizing == RiskParity && (atr <= 0.0 || atr * StopMult(kw) <= 0.0) ==> r == Shares(0)
    ensures accountValue <= 0.0 && r.Shares? ==> r.count == 0
    ensures sizing.Unknown? ==> r == Shares(0)
    ensures r.Shares? && accountValue >= 0.0 ==> Within(r.count, price, ConcentrationCap * accountValue)
  {
    if price <= 0.0 then Shares(0)
    else if sizing == RiskParity && atr <= 0.0 then Shares(0)
    else if sizing == EqualWeight && maxPositions == 0 then ZeroDivisionError
    else
      var target := TargetShares(accountValue, price, atr, sizing, maxPositions, maxLeverage, kw);
      var capped := CapShares(target, accountValue, price);
      CapBound(target, accountValue, price);
      Shares(Max(0, capped))
  }

  lemma CapBound(target: int, accountValue: real, price: real)
    requires price > 0.0
    ensures target <= 0 ==> Max(0, CapShares(target, accountValue, price)) == 0
    ensures accountValue >= 0.0 ==> Within(Max(0, CapShares(target, accountValue, price)), price, ConcentrationCap * accountValue)
    ensures accountValue <= 0.0 ==> Max(0, CapShares(target, accountValue, price)) == 0
  {
    var maxAllocation := accountValue * ConcentrationCap;
    PositiveCost(target, price);
    if target as real * price > maxAllocation {
      if accountValue >= 0.0 {
        TruncDivBounds(maxAllocation, price);
      } else {
        assert maxAllocation / price <= 0.0;
      }
    }
  }

  /**
   * Shared core of the sizing rules: capping a truncated budget count and
   * clamping at zero yields the largest count within both the budget
   * (`unitCost` per share) and the 30% cap.
   */
  lemma CappedTargetIsLargest(budget: real, unitCost: real, accountValue: real, price: real)
    requires unitCost > 0.0 && price > 0.0 && accountValue >= 0.0
    ensures var r := Max(0, CapShares(Trunc(budget / unitCost), accountValue, price));
            && (r == 0 || Within(r, unitCost, budget))
            && Within(r, price, ConcentrationCap * accountValue)
            && !(Within(r + 1, unitCost, budget) && Within(r + 1, price, ConcentrationCap * accountValue))
  {
    var target := Trunc(budget / unitCost);
    var cap := accountValue * ConcentrationCap;
    var r := Max(0, CapShares(target, accountValue, price));
    PositiveCost(target, price);
    if budget >= 0.0 {
      TruncDivBounds(budget, unitCost);
      if target as real * price > cap {
        TruncDivBounds(cap, price);
        assert r == Trunc(cap / price);
        assert r < target by {
          if r >= target { MulLe(target as real, r as real, price); }
        }
        MulLe(r as real, target as real, unitCost);
      }
    } else {
      assert budget / unitCost < 0.0;
      assert target <= 0;
      assert r == 0;
      MulLt(budget / unitCost, 1.0, unitCost);
    }
  }

  /**
   * Every known method buys the largest count whose consumption of the
   * method's budget (for risk parity: the loss of a full stop-out,
   * `atr * stop_mult` per share, against `risk_pct` of the account; otherwise
   * the cost against the dollar allocation) and whose cost against 30% of
   * the account both fit.
   */
  lemma PositionSizeIsLargestWithinBudgets(accountValue: real, price: real, atr: real, sizing: Method,
                                           maxPositions: int, maxLeverage: real, kw: Kwargs)
    requires !sizing.Unknown?
    requires sizing == EqualWeight ==> maxPositions != 0
    requires price > 0.0 && accountValue >= 0.0
    requires sizing == RiskParity ==> atr > 0.0
    requires UnitCost(price, atr, sizing, kw) > 0.0
    ensures var r := PositionSize(accountValue, price, atr, sizing, maxPositions, maxLeverage, kw).count;
            var unit := UnitCost(price, atr, sizing, kw);
            var budget := Budget(accountValue, sizing, maxPositions, maxLeverage, kw);
            && (r == 0 || Within(r, unit, budget))
            && Within(r, price, ConcentrationCap * accountValue)
            && !(Within(r + 1, unit, budget) && Within(r + 1, price, ConcentrationCap * accountValue))
  {
    var unit := UnitCost(price, atr, sizing, kw);
    var budget := Budget(accountValue, sizing, maxPositions, maxLeverage, kw);
    CappedTargetIsLargest(budget, unit, accountValue, price);
  }

  /** The worked example: 2000 at risk over a 6-point stop buys 333 shares. */
  lemma RiskParityExample()
    ensures PositionSize(100000.0, 50.0, 2.0, RiskParity, 10, 1.0, Kwargs(Some(0.02), Some(3.0), None)) == Shares(333)
  {
    assert 100000.0 * 0.02 / (2.0 * 3.0) == 2000.0 / 6.0;
    assert (2000.0 / 6.0).Floor == 333;
  }

  /** A large account with a tiny ATR is held to the 30% cap. */
  lemma ConcentrationCapExample()
    ensures PositionSize(10000000.0, 100.0, 0.01, RiskParity, 10, 1.0, NoKwargs) == Shares(30000)
  {
    var target := TargetShares(10000000.0, 100.0, 0.01, RiskParity, 10, 1.0, NoKwargs);
    assert 10000000.0 * 0.02 / (0.01 * 3.0) == 20000000.0 / 3.0;
    assert target == (20000000.0 / 3.0).Floor;
    assert target >= 6666666;
    assert 10000000.0 * 0.30 / 100.0 == 30000.0;
  }

  /** The price at which a long position is stopped out. */
  function StopLine(highestPrice: real, atr: real, stopAtrMult: real): real {
    highestPrice - atr * stopAtrMult
  }

  /** `should_trigger_stop_loss`: the close fell strictly below the ATR trailing stop. */
  function ShouldTriggerStopLoss(close: real, highestPrice: real, atr: Option<real>, stopAtrMult: real): (r: bool)
    ensures atr.None? || atr.value <= 0.0 ==> !r
    ensures atr.Some? && atr.value > 0.0 ==> (r <==> close < StopLine(highestPrice, atr.value, stopAtrMult))
  {
    match atr
    case None => false
    case Some(a) => if a <= 0.0 then false else close < highestPrice - a * stopAtrMult
  }

  /** A close exactly at the stop line does not trigger; any lower close does. */
  lemma StopBoundaryExclusive(highestPrice: real, atr: real, stopAtrMult: real, below: real)
    requires atr > 0.0 && below > 0.0
    ensures !ShouldTriggerStopLoss(StopLine(highestPrice, atr, stopAtrMult), highestPrice, Some(atr), stopAtrMult)
    ensures ShouldTriggerStopLoss(StopLine(highestPrice, atr, stopAtrMult) - below, highestPrice, Some(atr), stopAtrMult)
  {
  }

  /** Once a close triggers, every lower close triggers too. */
  lemma StopMonotoneInClose(close: real, lower: real, highestPrice: real, atr: Option<real>, stopAtrMult: real)
    requires lower <= close
    requires ShouldTriggerStopLoss(close, highestPrice, atr, stopAtrMult)
    ensures ShouldTriggerStopLoss(lower, highestPrice, atr, stopAtrMult)
  {
  }

  lemma StopLossExamples()
    ensures ShouldTriggerStopLoss(93.0, 100.0, Some(2.0), 3.0)
    ensures !ShouldTriggerStopLoss(94.0, 100.0, Some(2.0), 3.0)
    ensures ShouldTriggerStopLoss(89.0, 100.0, Some(5.0), 2.0)
    ensures !ShouldTriggerStopLoss(91.0, 100.0, Some(5.0), 2.0)
    ensures !ShouldTriggerStopLoss(50.0, 100.0, None, 3.0)
  {
  }

  /** `check_leverage_limit`: a placeholder that accepts every position. */
  function CheckLeverageLimit(totalValue: real, newPositionValue: real, maxLeverage: real): (r: bool)
    ensures r
  {
    true
  }
}

=== FILE: screener.dfy ===
/**
 * `StockScreener` of strategy/screener.py (and the older screener.py, whose
 * technical filters, ranking and weighting are the same code): a chain of
 * row filters over a ticker-indexed daily snapshot, a top-N cut, and weight
 * allocation, with one funnel-log entry per step that ran.
 *
 * A cell is `Option<real>`: None is pandas' NaN. Every pandas comparison
 * involving NaN is false, and arithmetic on NaN gives NaN.
 */
module Screener {
  import opened Wrappers
  import opened PyOps
  import opened Seqs
  import Sorting

  // ---------------------------------------------------------------------------
  // Snapshot
  // ---------------------------------------------------------------------------

  /** One ticker's row: its index label and its cells by column name. */
  datatype Row = Row(ticker: string, cells: map<string, Option<real>>)

  /** The DataFrame: its column labels and its rows in index order. */
  datatype Frame = Frame(columns: set<string>, rows: seq<Row>)

  /** The message `_log` records: which step ran, with the parameters its label shows. */
  datatype Step =
    | Liquidity
    | TrendAlignment
    | RsiSetup(minRsi: real, maxRsi: real)
    | GapUp
    | VolatilityControl
    | RankCut(topN: int)
    | TrendTemplate
    | Consolidation(maxBandwidth: real)
    | NarrowRange(days: int)
    | RelativeStrength
    | InsideBar
    | PeLimit(maxPe: real)
    | PbRange(minPb: real, maxPb: real)
    | RoeFloor(minRoe: real)
    | RevenueGrowthFloor(minGrowth: real)
    | DebtToEquityCap(maxDte: real)

  /** One funnel-log line: the step's name and how many rows remain after it. */
  datatype LogEntry = LogEntry(step: Step, remaining: nat)

  datatype Screener = Screener(df: Frame, initialCount: nat, logs: seq<LogEntry>)

  /** `StockScreener(df_snapshot)` */
  function Create(snapshot: Frame): (s: Screener)
    ensures s.df == snapshot && s.initialCount == |snapshot.rows| && s.logs == []
  {
    Screener(snapshot, |snapshot.rows|, [])
  }

  /** `df[c]` for one row; a cell the row does not carry reads as NaN. */
  function Cell(row: Row, c: string): Option<real> {
    if c in row.cells then row.cells[c] else None
  }

  predicate Ge(a: Option<real>, b: real) { a.Some? && a.value >= b }
  predicate Gt(a: Option<real>, b: real) { a.Some? && a.value > b }
  predicate Le(a: Option<real>, b: real) { a.Some? && a.value <= b }
  predicate Lt(a: Option<real>, b: real) { a.Some? && a.value < b }

  /** Column-against-column comparison `a > b`: false when either is NaN. */
  predicate GtCells(a: Option<real>, b: Option<real>) { a.Some? && b.Some? && a.value > b.value }
  predicate GeCells(a: Option<real>, b: Option<real>) { a.Some? && b.Some? && a.value >= b.value }
  predicate LeCells(a: Option<real>, b: Option<real>) { a.Some? && b.Some? && a.value <= b.value }
  predicate LtCells(a: Option<real>, b: Option<real>) { a.Some? && b.Some? && a.value < b.value }

  function Sub(a: Option<real>, b: Option<real>): Option<real> {
    if a.Some? && b.Some? then Some(a.value - b.value) else None
  }

  function Mul(a: Option<real>, b: Option<real>): Option<real> {
    if a.Some? && b.Some? then Some(a.value * b.value) else None
  }

  /** `a / b`; a zero divisor is treated as NaN (the infinities pandas would give are not modelled). */
  function Div(a: Option<real>, b: Option<real>): Option<real> {
    if a.Some? && b.Some? && b.value != 0.0 then Some(a.value / b.value) else None
  }

  // ---------------------------------------------------------------------------
  // Narrowing and logging
  // ---------------------------------------------------------------------------

  /** `self.logs.append(...)` with the current row count. */
  function Log(s: Screener, step: Step): (r: Screener)
    ensures r.df == s.df && r.initialCount == s.initialCount
    ensures r.logs == s.logs + [LogEntry(step, |s.df.rows|)]
  {
    s.(logs := s.logs + [LogEntry(step, |s.df.rows|)])
  }

  /** `self.df = self.df[mask]` */
  function Keep(s: Screener, keep: Row -> bool): (r: Screener)
    ensures r.df.columns == s.df.columns && r.initialCount == s.initialCount && r.logs == s.logs
    ensures r.df.rows == Filter(s.df.rows, keep)
  {
    s.(df := s.df.(rows := Filter(s.df.rows, keep)))
  }

  /**
   * `r` is `s` after one filter step: the columns stay, the rows are
   * exactly those of `s` that satisfy `keep`, in their original order, and
   * one log entry records the step and the remaining count.
   */
  ghost predicate Narrowed(s: Screener, r: Screener, keep: Row -> bool, step: Step) {
    && r.df.columns == s.df.columns
    && r.initialCount == s.initialCount
    && SubseqOf(r.df.rows, s.df.rows)
    && (forall x :: multiset(r.df.rows)[x] == if keep(x) then multiset(s.df.rows)[x] else 0)
    && r.logs == s.logs + [LogEntry(step, |r.df.rows|)]
  }

  /** A filter step followed by its log entry. */
  function Narrow(s: Screener, keep: Row -> bool, step: Step): (r: Screener)
    ensures Narrowed(s, r, keep, step)
  {
    FilterIsSubseq(s.df.rows, keep);
    Log(Keep(s, keep), step)
  }

  // ---------------------------------------------------------------------------
  // Technical filters
  // ---------------------------------------------------------------------------

  /** `Close >= min_price`, `Volume > min_volume` and, when given, `Close * Volume >= min_dollar_vol`. */
  predicate Liquid(row: Row, minPrice: real, minVolume: real, minDollarVol: Option<real>) {
    && Ge(Cell(row, "Close"), minPrice)
    && Gt(Cell(row, "Volume"), minVolume)
    && (minDollarVol.None? || Ge(Mul(Cell(row, "Close"), Cell(row, "Volume")), minDollarVol.value))
  }

  function PriceVolumeOk(minPrice: real, minVolume: real): Row -> bool {
    row => Ge(Cell(row, "Close"), minPrice) && Gt(Cell(row, "Volume"), minVolume)
  }

  function DollarVolumeOk(minDollarVol: real): Row -> bool {
    row => Ge(Mul(Cell(row, "Close"), Cell(row, "Volume")), minDollarVol)
  }

  function LiquidFor(minPrice: real, minVolume: real, minDollarVol: Option<real>): Row -> bool {
    row => Liquid(row, minPrice, minVolume, minDollarVol)
  }

  /** The two masks of `filter_liquidity`, the second only when `min_dollar_vol` is given. */
  function LiquidityMasks(rows: seq<Row>, minPrice: real, minVolume: real, minDollarVol: Option<real>): seq<Row> {
    var first := Filter(rows, PriceVolumeOk(minPrice, minVolume));
    if minDollarVol.Some? then Filter(first, DollarVolumeOk(minDollarVol.value)) else first
  }

  /** Applying the masks one after the other keeps exactly the liquid rows. */
  lemma {:induction false} LiquidityMasksKeepLiquid(rows: seq<Row>, minPrice: real, minVolume: real, minDollarVol: Option<real>)
    ensures LiquidityMasks(rows, minPrice, minVolume, minDollarVol) == Filter(rows, LiquidFor(minPrice, minVolume, minDollarVol))
  {
    if minDollarVol.Some? {
      FilterFilter(rows, PriceVolumeOk(minPrice, minVolume), DollarVolumeOk(minDollarVol.value),
                   LiquidFor(minPrice, minVolume, minDollarVol));
    } else {
      FilterAgree(rows, PriceVolumeOk(minPrice, minVolume), LiquidFor(minPrice, minVolume, minDollarVol));
    }
  }

  /** `filter_liquidity`: both masks, then one log entry. */
  function FilterLiquidity(s: Screener, minPrice: real, minVolume: real, minDollarVol: Option<real>): (r: Screener)
    requires "Close" in s.df.columns && "Volume" in s.df.columns
    ensures Narrowed(s, r, LiquidFor(minPrice, minVolume, minDollarVol), Liquidity)
  {
    LiquidityMasksKeepLiquid(s.df.rows, minPrice, minVolume, minDollarVol);
    FilterIsSubseq(s.df.rows, LiquidFor(minPrice, minVolume, minDollarVol));
    Log(s.(df := s.df.(rows := LiquidityMasks(s.df.rows, minPrice, minVolume, minDollarVol))), Liquidity)
  }

  /** The default `filter_liquidity()`: price at least 10.0, positive volume, no dollar-volume floor. */
  function FilterLiquidityDefault(s: Screener): (r: Screener)
    requires "Close" in s.df.columns && "Volume" in s.df.columns
    ensures Narrowed(s, r, LiquidFor(10.0, 0.0, None), Liquidity)
  {
    FilterLiquidity(s, 10.0, 0.0, None)
  }

  /** `Close > MA200`, strictly; a NaN MA200 fails it. */
  predicate AboveMA200(row: Row) {
    GtCells(Cell(row, "Close"), Cell(row, "MA200"))
  }

  function HasMA200(): Row -> bool {
    row => Cell(row, "MA200").Some?
  }

  /** `dropna(subset=['MA200'])` before the comparison removes nothing the comparison keeps. */
  lemma {:induction false} DropMissingMA200First(rows: seq<Row>)
    ensures Filter(Filter(rows, HasMA200()), AboveMA200) == Filter(rows, AboveMA200)
  {
    FilterFilter(rows, HasMA200(), AboveMA200, AboveMA200);
  }

  /** `filter_trend_alignment`: `dropna(subset=['MA200'])`, then the strict comparison. */
  function FilterTrendAlignment(s: Screener): (r: Screener)
    requires "Close" in s.df.columns && "MA200" in s.df.columns
    ensures Narrowed(s, r, AboveMA200, TrendAlignment)
  {
    DropMissingMA200First(s.df.rows);
    FilterIsSubseq(s.df.rows, AboveMA200);
    Log(s.(df := s.df.(rows := Filter(Filter(s.df.rows, HasMA200()), AboveMA200))), TrendAlignment)
  }

  /** `min_rsi <= RSI <= max_rsi`, inclusive at both ends. */
  function RsiWithin(minRsi: real, maxRsi: real): Row -> bool {
    row => Ge(Cell(row, "RSI"), minRsi) && Le(Cell(row, "RSI"), maxRsi)
  }

  function FilterRsiSetup(s: Screener, minRsi: real, maxRsi: real): (r: Screener)
    requires "RSI" in s.df.columns
    ensures Narrowed(s, r, RsiWithin(minRsi, maxRsi), RsiSetup(minRsi, maxRsi))
  {
    Narrow(s, RsiWithin(minRsi, maxRsi), RsiSetup(minRsi, maxRsi))
  }

  /** `Close - PrevClose > ATR * threshold_atr`. */
  function GappedUp(thresholdAtr: real): Row -> bool {
    row => GtCells(Sub(Cell(row, "Close"), Cell(row, "PrevClose")), Mul(Cell(row, "ATR"), Some(thresholdAtr)))
  }

  /** `filter_gap_up`: a no-op without a PrevClose column. */
  function FilterGapUp(s: Screener, thresholdAtr: real): (r: Screener)
    requires "PrevClose" in s.df.columns ==> "Close" in s.df.columns && "ATR" in s.df.columns
    ensures "PrevClose" !in s.df.columns ==> r == s
    ensures "PrevClose" in s.df.columns ==> Narrowed(s, r, GappedUp(thresholdAtr), GapUp)
  {
    if "PrevClose" !in s.df.columns then s else Narrow(s, GappedUp(thresholdAtr), GapUp)
  }

  /** `ATR / Close <= max_atr_percent`. */
  function CalmEnough(maxAtrPercent: real): Row -> bool {
    row => Le(Div(Cell(row, "ATR"), Cell(row, "Close")), maxAtrPercent)
  }

  function FilterVolatilityControl(s: Screener, maxAtrPercent: real): (r: Screener)
    requires "ATR" in s.df.columns && "Close" in s.df.columns
    ensures Narrowed(s, r, CalmEnough(maxAtrPercent), VolatilityControl)
  {
    Narrow(s, CalmEnough(maxAtrPercent), VolatilityControl)
  }

  const TemplateColumns: seq<string> := ["MA50", "MA150", "MA200", "52W_High", "52W_Low"]

  predicate AllPresent(s: Screener, cols: seq<string>) {
    forall i | 0 <= i < |cols| :: cols[i] in s.df.columns
  }

  /** `Close > MA50 > MA150 > MA200`, at least 25% above the 52-week low and within 25% of the 52-week high. */
  predicate Stage2(row: Row) {
    && GtCells(Cell(row, "Close"), Cell(row, "MA50"))
    && GtCells(Cell(row, "MA50"), Cell(row, "MA150"))
    && GtCells(Cell(row, "MA150"), Cell(row, "MA200"))
    && GeCells(Cell(row, "Close"), Mul(Cell(row, "52W_Low"), Some(1.25)))
    && GeCells(Cell(row, "Close"), Mul(Cell(row, "52W_High"), Some(0.75)))
  }

  /** `filter_trend_template`: a no-op unless all five template columns are present. */
  function FilterTrendTemplate(s: Screener): (r: Screener)
    requires AllPresent(s, TemplateColumns) ==> "Close" in s.df.columns
    ensures !AllPresent(s, TemplateColumns) ==> r == s
    ensures AllPresent(s, TemplateColumns) ==> Narrowed(s, r, Stage2, TrendTemplate)
  {
    if !AllPresent(s, TemplateColumns) then s else Narrow(s, Stage2, TrendTemplate)
  }

  /** A Stage 2 close is strictly above its 200-day average, so the template never keeps a row the trend filter would drop. */
  lemma Stage2IsAboveMA200(row: Row)
    requires Stage2(row)
    ensures AboveMA200(row)
  {
  }

  /** `(BB_Upper - BB_Lower) / MA20 <= max_bandwidth`. */
  function Squeezed(maxBandwidth: real): Row -> bool {
    row => Le(Div(Sub(Cell(row, "BB_Upper"), Cell(row, "BB_Lower")), Cell(row, "MA20")), maxBandwidth)
  }

  /** `filter_consolidation`: only the BB_Upper column is checked for. */
  function FilterConsolidation(s: Screener, maxBandwidth: real): (r: Screener)
    requires "BB_Upper" in s.df.columns ==> "BB_Lower" in s.df.columns && "MA20" in s.df.columns
    ensures "BB_Upper" !in s.df.columns ==> r == s
    ensures "BB_Upper" in s.df.columns ==> Narrowed(s, r, Squeezed(maxBandwidth), Consolidation(maxBandwidth))
  {
    if "BB_Upper" !in s.df.columns then s else Narrow(s, Squeezed(maxBandwidth), Consolidation(maxBandwidth))
  }

  function DigitChar(d: nat): char
    requires d < 10
  {
    "0123456789"[d]
  }

  /** `str(n)` for a natural number. */
  function NatToString(n: nat): (r: string)
    ensures |r| > 0
    decreases n
  {
    if n < 10 then [DigitChar(n)] else NatToString(n / 10) + [DigitChar(n % 10)]
  }

  /** `str(n)` */
  function IntToString(n: int): string {
    if n < 0 then "-" + NatToString(-n) else NatToString(n)
  }

  /** `f'MinRange{days}'` */
  function MinRangeColumn(days: int): string {
    "MinRange" + IntToString(days)
  }

  /** `Range <= MinRange{days}`: today's range is the narrowest of the window. */
  function NarrowestRange(days: int): Row -> bool {
    row => LeCells(Cell(row, "Range"), Cell(row, MinRangeColumn(days)))
  }

  /** `filter_narrow_range`: runs, and logs, only when both columns are present. */
  function FilterNarrowRange(s: Screener, days: int): (r: Screener)
    ensures !("Range" in s.df.columns && MinRangeColumn(days) in s.df.columns) ==> r == s
    ensures "Range" in s.df.columns && MinRangeColumn(days) in s.df.columns ==>
              Narrowed(s, r, NarrowestRange(days), NarrowRange(days))
  {
    if "Range" in s.df.columns && MinRangeColumn(days) in s.df.columns then
      Narrow(s, NarrowestRange(days), NarrowRange(days))
    else s
  }

  /** `(Close - PrevClose) / PrevClose > benchmark_pct_change`. */
  function Outperforms(benchmark: real): Row -> bool {
    row => Gt(Div(Sub(Cell(row, "Close"), Cell(row, "PrevClose")), Cell(row, "PrevClose")), benchmark)
  }

  function FilterRelativeStrength(s: Screener, benchmark: real): (r: Screener)
    requires "PrevClose" in s.df.columns ==> "Close" in s.df.columns
    ensures "PrevClose" !in s.df.columns ==> r == s
    ensures "PrevClose" in s.df.columns ==> Narrowed(s, r, Outperforms(benchmark), RelativeStrength)
  {
    if "PrevClose" !in s.df.columns then s else Narrow(s, Outperforms(benchmark), RelativeStrength)
  }

  const InsideBarColumns: seq<string> := ["High", "Low", "PrevHigh", "PrevLow"]

  /** `High < PrevHigh` and `Low > PrevLow`: today's bar inside yesterday's. */
  predicate Inside(row: Row) {
    LtCells(Cell(row, "High"), Cell(row, "PrevHigh")) && GtCells(Cell(row, "Low"), Cell(row, "PrevLow"))
  }

  function FilterInsideBar(s: Screener): (r: Screener)
    ensures !AllPresent(s, InsideBarColumns) ==> r == s
    ensures AllPresent(s, InsideBarColumns) ==> Narrowed(s, r, Inside, InsideBar)
  {
    if !AllPresent(s, InsideBarColumns) then s else Narrow(s, Inside, InsideBar)
  }

  // ---------------------------------------------------------------------------
  // Fundamental filters
  // ---------------------------------------------------------------------------

  /** The position of the first of `names[from..]` that is a column, or `|names|`. */
  function FirstPresent(cols: set<string>, names: seq<string>, from: nat): (i: nat)
    requires from <= |names|
    ensures from <= i <= |names|
    ensures forall j | from <= j < i :: names[j] !in cols
    ensures i < |names| ==> names[i] in cols
    decreases |names| - from
  {
    if from == |names| || names[from] in cols then from else FirstPresent(cols, names, from + 1)
  }

  /** `_col(*names)`: the first name that is a column, if any. */
  function Col(s: Screener, names: seq<string>): (r: Option<string>)
    ensures r.Some? ==> exists i :: 0 <= i < |names| && names[i] == r.value && r.value in s.df.columns &&
                                    forall j | 0 <= j < i :: names[j] !in s.df.columns
    ensures r.None? <==> forall i | 0 <= i < |names| :: names[i] !in s.df.columns
  {
    var i := FirstPresent(s.df.columns, names, 0);
    if i < |names| then Some(names[i]) else None
  }

  /** `mask_na | mask_ok`: a missing value is kept, a present one must pass `ok`. */
  function KeepMissingOr(c: string, ok: real -> bool): Row -> bool {
    row => Cell(row, c).None? || ok(Cell(row, c).value)
  }

  /** A fundamental filter on the first present column among `names`; a no-op when none is present. */
  function Fundamental(s: Screener, names: seq<string>, ok: real -> bool, step: Step): (r: Screener)
    ensures Col(s, names).None? ==> r == s
    ensures Col(s, names).Some? ==> Narrowed(s, r, KeepMissingOr(Col(s, names).value, ok), step)
  {
    var c := Col(s, names);
    if c.None? then s else Narrow(s, KeepMissingOr(c.value, ok), step)
  }

  /** The PE test: `0 < PE <= max_pe`, or `PE <= max_pe or PE < 0` when negatives are allowed. */
  function PeOk(maxPe: real, allowNegative: bool): real -> bool {
    pe => if allowNegative then pe <= maxPe || pe < 0.0 else 0.0 < pe <= maxPe
  }

  function FilterPe(s: Screener, maxPe: real, allowNegative: bool): (r: Screener)
    ensures Col(s, ["PE", "pe"]).None? ==> r == s
    ensures Col(s, ["PE", "pe"]).Some? ==>
              Narrowed(s, r, KeepMissingOr(Col(s, ["PE", "pe"]).value, PeOk(maxPe, allowNegative)), PeLimit(maxPe))
  {
    Fundamental(s, ["PE", "pe"], PeOk(maxPe, allowNegative), PeLimit(maxPe))
  }

  /** With negatives allowed the PE test reduces to `PE <= max_pe` when `max_pe` is non-negative. */
  lemma PeAllowNegativeIsCap(maxPe: real, pe: real)
    requires maxPe >= 0.0
    ensures PeOk(maxPe, true)(pe) == (pe <= maxPe)
  {
  }

  function PbWithin(minPb: real, maxPb: real): real -> bool {
    pb => minPb <= pb <= maxPb
  }

  function FilterPb(s: Screener, maxPb: real, minPb: real): (r: Screener)
    ensures Col(s, ["PB", "pb"]).None? ==> r == s
    ensures Col(s, ["PB", "pb"]).Some? ==>
              Narrowed(s, r, KeepMissingOr(Col(s, ["PB", "pb"]).value, PbWithin(minPb, maxPb)), PbRange(minPb, maxPb))
  {
    Fundamental(s, ["PB", "pb"], PbWithin(minPb, maxPb), PbRange(minPb, maxPb))
  }

  function AtLeast(m: real): real -> bool {
    x => x >= m
  }

  function AtMost(m: real): real -> bool {
    x => x <= m
  }

  function FilterRoe(s: Screener, minRoe: real): (r: Screener)
    ensures Col(s, ["ROE", "roe"]).None? ==> r == s
    ensures Col(s, ["ROE", "roe"]).Some? ==>
              Narrowed(s, r, KeepMissingOr(Col(s, ["ROE", "roe"]).value, AtLeast(minRoe)), RoeFloor(minRoe))
  {
    Fundamental(s, ["ROE", "roe"], AtLeast(minRoe), RoeFloor(minRoe))
  }

  const RevenueGrowthNames: seq<string> := ["RevenueGrowth", "revenue_growth", "revenuegrowth"]

  function FilterRevenueGrowth(s: Screener, minGrowth: real): (r: Screener)
    ensures Col(s, RevenueGrowthNames).None? ==> r == s
    ensures Col(s, RevenueGrowthNames).Some? ==>
              Narrowed(s, r, KeepMissingOr(Col(s, RevenueGrowthNames).value, AtLeast(minGrowth)), RevenueGrowthFloor(minGrowth))
  {
    Fundamental(s, RevenueGrowthNames, AtLeast(minGrowth), RevenueGrowthFloor(minGrowth))
  }

  const DebtToEquityNames: seq<string> := ["DebtToEquity", "debt_to_equity", "debttoequity"]

  function FilterDebtToEquity(s: Screener, maxDte: real): (r: Screener)
    ensures Col(s, DebtToEquityNames).None? ==> r == s
    ensures Col(s, DebtToEquityNames).Some? ==>
              Narrowed(s, r, KeepMissingOr(Col(s, DebtToEquityNames).value, AtMost(maxDte)), DebtToEquityCap(maxDte))
  {
    Fundamental(s, DebtToEquityNames, AtMost(maxDte), DebtToEquityCap(maxDte))
  }

  // ---------------------------------------------------------------------------
  // Properties of the filter chain
  // ---------------------------------------------------------------------------

  /** Every row left after a filter step passed the filter and was there before. */
  lemma SurvivorsSatisfy(s: Screener, r: Screener, keep: Row -> bool, step: Step)
    requires Narrowed(s, r, keep, step)
    ensures forall i | 0 <= i < |r.df.rows| :: keep(r.df.rows[i]) && r.df.rows[i] in s.df.rows
  {
    forall i | 0 <= i < |r.df.rows| ensures keep(r.df.rows[i]) && r.df.rows[i] in s.df.rows {
      var x := r.df.rows[i];
      assert multiset(r.df.rows)[x] > 0;
    }
  }

  /** Every row `filter_gap_up` keeps rose by more than `threshold_atr` ATRs since the previous close. */
  lemma GapUpSurvivors(s: Screener, thresholdAtr: real)
    requires "PrevClose" in s.df.columns && "Close" in s.df.columns && "ATR" in s.df.columns
    ensures forall row | row in FilterGapUp(s, thresholdAtr).df.rows ::
      && Cell(row, "Close").Some? && Cell(row, "PrevClose").Some? && Cell(row, "ATR").Some?
      && Cell(row, "Close").value - Cell(row, "PrevClose").value > Cell(row, "ATR").value * thresholdAtr
  {
    var r := FilterGapUp(s, thresholdAtr);
    SurvivorsSatisfy(s, r, GappedUp(thresholdAtr), GapUp);
    forall row | row in r.df.rows
      ensures && Cell(row, "Close").Some? && Cell(row, "PrevClose").Some? && Cell(row, "ATR").Some?
              && Cell(row, "Close").value - Cell(row, "PrevClose").value > Cell(row, "ATR").value * thresholdAtr
    {
      var i :| 0 <= i < |r.df.rows| && r.df.rows[i] == row;
      GapUpRow(row, thresholdAtr);
    }
  }

  lemma GapUpRow(row: Row, thresholdAtr: real)
    requires GappedUp(thresholdAtr)(row)
    ensures && Cell(row, "Close").Some? && Cell(row, "PrevClose").Some? && Cell(row, "ATR").Some?
            && Cell(row, "Close").value - Cell(row, "PrevClose").value > Cell(row, "ATR").value * thresholdAtr
  {
  }

  /** Every row the trend template keeps is a Stage 2 row and so above its 200-day average. */
  lemma TemplateSurvivorsAboveMA200(s: Screener)
    requires AllPresent(s, TemplateColumns) && "Close" in s.df.columns
    ensures forall row | row in FilterTrendTemplate(s).df.rows :: Stage2(row) && AboveMA200(row)
  {
    SurvivorsSatisfy(s, FilterTrendTemplate(s), Stage2, TrendTemplate);
  }

  /** Running a filter a second time keeps every row again and only adds a log line. */
  lemma NarrowIdempotent(s: Screener, keep: Row -> bool, step: Step)
    ensures var once := Narrow(s, keep, step);
      Narrow(once, keep, step).df == once.df &&
      Narrow(once, keep, step).logs == once.logs + [LogEntry(step, |once.df.rows|)]
  {
    var once := Narrow(s, keep, step);
    FilterAll(once.df.rows, keep);
  }

  /** A row NaN in the compared column never survives a comparison filter, but always survives a fundamental one. */
  lemma MissingValues(row: Row, c: string, ok: real -> bool)
    requires Cell(row, c).None?
    ensures KeepMissingOr(c, ok)(row)
    ensures c == "RSI" ==> forall lo: real, hi: real :: !RsiWithin(lo, hi)(row)
    ensures c == "MA200" ==> !AboveMA200(row)
  {
  }

  // ---------------------------------------------------------------------------
  // rank_and_cut
  // ---------------------------------------------------------------------------

  /** `df[name] = values`: the column is added (or replaced) row by row. */
  function SetColumn(f: Frame, name: string, values: seq<Option<real>>): (r: Frame)
    requires |values| == |f.rows|
    ensures r.columns == f.columns + {name}
    ensures |r.rows| == |f.rows|
    ensures forall i | 0 <= i < |f.rows| ::
      r.rows[i].ticker == f.rows[i].ticker && r.rows[i].cells == f.rows[i].cells[name := values[i]]
  {
    Frame(f.columns + {name},
          seq(|f.rows|, i requires 0 <= i < |f.rows| => f.rows[i].(cells := f.rows[i].cells[name := values[i]])))
  }

  /** `(Close - PrevClose) / ATR` */
  function RelativeStrengthScore(row: Row): Option<real> {
    Div(Sub(Cell(row, "Close"), Cell(row, "PrevClose")), Cell(row, "ATR"))
  }

  function Scores(rows: seq<Row>): (r: seq<Option<real>>)
    ensures |r| == |rows|
    ensures forall i | 0 <= i < |rows| :: r[i] == RelativeStrengthScore(rows[i])
  {
    seq(|rows|, i requires 0 <= i < |rows| => RelativeStrengthScore(rows[i]))
  }

  /** The sort key of `sort_values`: NaN goes last in either direction. */
  function RankKey(row: Row, c: string, ascending: bool): Sorting.XReal {
    match Cell(row, c)
    case None => if ascending then Sorting.PosInf else Sorting.NegInf
    case Some(v) => Sorting.Fin(v)
  }

  function RankKeyFor(c: string, ascending: bool): Row -> Sorting.XReal {
    row => RankKey(row, c, ascending)
  }

  /** `a` may precede `b` in the order `sort_values(by=c, ascending=...)` produces. */
  predicate RanksBefore(a: Row, b: Row, c: string, ascending: bool) {
    Sorting.InOrder(RankKey(a, c, ascending), RankKey(b, c, ascending), !ascending)
  }

  /**
   * `sort_values(by=c, ascending=...)`. Pandas' default sort is not stable;
   * the model takes the stable order, and the contract promises only the key order.
   */
  function SortRows(rows: seq<Row>, c: string, ascending: bool): (r: seq<Row>)
    ensures |r| == |rows| && multiset(r) == multiset(rows)
    ensures forall a, b | 0 <= a < b < |r| :: RanksBefore(r[a], r[b], c, ascending)
  {
    var r := Sorting.SortBy(rows, RankKeyFor(c, ascending), !ascending);
    assert forall a, b | 0 <= a < b < |r| ::
      Sorting.InOrder(RankKeyFor(c, ascending)(r[a]), RankKeyFor(c, ascending)(r[b]), !ascending);
    r
  }

  /** In a sorted sequence every element of a prefix ranks before every element left out of it. */
  lemma {:induction false} SortedPrefixIsTop(sorted: seq<Row>, k: nat, c: string, ascending: bool)
    requires k <= |sorted|
    requires forall a, b | 0 <= a < b < |sorted| :: RanksBefore(sorted[a], sorted[b], c, ascending)
    ensures forall x, y | x in sorted[..k] && y in multiset(sorted) - multiset(sorted[..k]) :: RanksBefore(x, y, c, ascending)
  {
    var top, rest := sorted[..k], sorted[k..];
    PrefixLeavesSuffix(sorted, k);
    TopBeforeRest(sorted, k, c, ascending);
    forall x, y | x in top && y in multiset(sorted) - multiset(top)
      ensures RanksBefore(x, y, c, ascending)
    {
      assert y in multiset(rest);
    }
  }

  /** Taking a prefix out of a sequence leaves the suffix. */
  lemma PrefixLeavesSuffix<T>(s: seq<T>, k: nat)
    requires k <= |s|
    ensures multiset(s) - multiset(s[..k]) == multiset(s[k..])
  {
    assert s == s[..k] + s[k..];
  }

  lemma TopBeforeRest(sorted: seq<Row>, k: nat, c: string, ascending: bool)
    requires k <= |sorted|
    requires forall a, b | 0 <= a < b < |sorted| :: RanksBefore(sorted[a], sorted[b], c, ascending)
    ensures forall x, y | x in sorted[..k] && y in sorted[k..] :: RanksBefore(x, y, c, ascending)
  {
    forall x, y | x in sorted[..k] && y in sorted[k..] ensures RanksBefore(x, y, c, ascending) {
      var a :| 0 <= a < k && sorted[..k][a] == x;
      var b :| 0 <= b < |sorted| - k && sorted[k..][b] == y;
      assert sorted[a] == x && sorted[k + b] == y;
    }
  }

  /** `sort_values(...).head(top_n)` */
  function SortAndCut(rows: seq<Row>, c: string, ascending: bool, topN: int): (r: seq<Row>)
    ensures multiset(r) <= multiset(rows)
    ensures topN >= 0 ==> |r| == Min(topN, |rows|)
    ensures topN < 0 ==> |r| == Max(|rows| + topN, 0)
    ensures forall a, b | 0 <= a < b < |r| :: RanksBefore(r[a], r[b], c, ascending)
    ensures forall x, y | x in r && y in multiset(rows) - multiset(r) :: RanksBefore(x, y, c, ascending)
  {
    var sorted := SortRows(rows, c, ascending);
    var r := Prefix(sorted, topN);
    PrefixSortedRows(sorted, r, c, ascending);
    SortedPrefixIsTop(sorted, |r|, c, ascending);
    r
  }

  lemma PrefixSortedRows(sorted: seq<Row>, r: seq<Row>, c: string, ascending: bool)
    requires |r| <= |sorted| && r == sorted[..|r|]
    requires forall a, b | 0 <= a < b < |sorted| :: RanksBefore(sorted[a], sorted[b], c, ascending)
    ensures multiset(r) <= multiset(sorted)
    ensures forall a, b | 0 <= a < b < |r| :: RanksBefore(r[a], r[b], c, ascending)
  {
    assert sorted == r + sorted[|r|..];
    forall a, b | 0 <= a < b < |r| ensures RanksBefore(r[a], r[b], c, ascending) {
      assert r[a] == sorted[a] && r[b] == sorted[b];
    }
  }

  /**
   * `rank_and_cut`: with `RelativeStrength` the Score column is computed
   * first (so the sort always runs); otherwise a missing sort column leaves
   * the screener unchanged and unlogged.
   */
  function RankAndCut(s: Screener, sortBy: string, ascending: bool, topN: int): (r: Screener)
    requires sortBy == "RelativeStrength" ==>
               "Close" in s.df.columns && "PrevClose" in s.df.columns && "ATR" in s.df.columns
    ensures sortBy != "RelativeStrength" && sortBy !in s.df.columns ==> r == s
    ensures sortBy != "RelativeStrength" && sortBy in s.df.columns ==>
              r.df.columns == s.df.columns && r.initialCount == s.initialCount &&
              r.df.rows == SortAndCut(s.df.rows, sortBy, ascending, topN) &&
              r.logs == s.logs + [LogEntry(RankCut(topN), |r.df.rows|)]
    ensures sortBy == "RelativeStrength" ==>
              var scored := SetColumn(s.df, "Score", Scores(s.df.rows));
              r.df.columns == s.df.columns + {"Score"} && r.initialCount == s.initialCount &&
              r.df.rows == SortAndCut(scored.rows, "Score", ascending, topN) &&
              r.logs == s.logs + [LogEntry(RankCut(topN), |r.df.rows|)]
  {
    var df := if sortBy == "RelativeStrength" then SetColumn(s.df, "Score", Scores(s.df.rows)) else s.df;
    var c := if sortBy == "RelativeStrength" then "Score" else sortBy;
    if c in df.columns then
      Log(s.(df := df.(rows := SortAndCut(df.rows, c, ascending, topN))), RankCut(topN))
    else s
  }

  /** The default `rank_and_cut()`: relative strength, best first, five rows. */
  lemma RankAndCutKeepsTopFive(s: Screener)
    requires "Close" in s.df.columns && "PrevClose" in s.df.columns && "ATR" in s.df.columns
    ensures var r := RankAndCut(s, "RelativeStrength", false, 5);
      |r.df.rows| == Min(5, |s.df.rows|) &&
      forall a, b | 0 <= a < b < |r.df.rows| && Cell(r.df.rows[b], "Score").Some? ::
        Cell(r.df.rows[a], "Score").Some? && Cell(r.df.rows[a], "Score").value >= Cell(r.df.rows[b], "Score").value
  {
    var r := RankAndCut(s, "RelativeStrength", false, 5);
    DescendingScores(r.df.rows);
  }

  lemma DescendingScores(rows: seq<Row>)
    requires forall a, b | 0 <= a < b < |rows| :: RanksBefore(rows[a], rows[b], "Score", false)
    ensures forall a, b | 0 <= a < b < |rows| && Cell(rows[b], "Score").Some? ::
      Cell(rows[a], "Score").Some? && Cell(rows[a], "Score").value >= Cell(rows[b], "Score").value
  {
    forall a, b | 0 <= a < b < |rows| && Cell(rows[b], "Score").Some?
      ensures Cell(rows[a], "Score").Some? && Cell(rows[a], "Score").value >= Cell(rows[b], "Score").value
    {
      assert RanksBefore(rows[a], rows[b], "Score", false);
    }
  }

  /** `get_result`: the index labels in current row order. */
  function GetResult(s: Screener): (r: seq<string>)
    ensures |r| == |s.df.rows|
    ensures forall i | 0 <= i < |r| :: r[i] == s.df.rows[i].ticker
  {
    seq(|s.df.rows|, i requires 0 <= i < |s.df.rows| => s.df.rows[i].ticker)
  }

  /** A filter that keeps no row leaves an empty result. */
  lemma AllFilteredGivesEmpty(s: Screener, keep: Row -> bool, step: Step)
    requires forall i | 0 <= i < |s.df.rows| :: !keep(s.df.rows[i])
    ensures GetResult(Narrow(s, keep, step)) == []
    ensures Narrow(s, keep, step).logs[|s.logs|] == LogEntry(step, 0)
  {
    FilterNone(s.df.rows, keep);
  }

  // ---------------------------------------------------------------------------
  // calculate_weights
  // ---------------------------------------------------------------------------

  /** The weighting methods; `OtherMethod` stands for a name other than the two recognised ones (see `WeightMethodOf`). */
  datatype WeightMethod = Equal | RiskParity | OtherMethod(name: string)

  /** The string dispatch of `calculate_weights`: `equal` and `risk_parity` select their rule, any other name none. */
  function WeightMethodOf(name: string): (m: WeightMethod)
    ensures name == "equal" <==> m == Equal
    ensures name == "risk_parity" <==> m == RiskParity
    ensures m.OtherMethod? ==> m.name == name
  {
    if name == "equal" then Equal
    else if name == "risk_parity" then RiskParity
    else OtherMethod(name)
  }

  /** `1.0 / df['ATR']` */
  function InverseVolatility(rows: seq<Row>): (r: seq<Option<real>>)
    ensures |r| == |rows|
    ensures forall i | 0 <= i < |rows| :: r[i] == Div(Some(1.0), Cell(rows[i], "ATR"))
  {
    seq(|rows|, i requires 0 <= i < |rows| => Div(Some(1.0), Cell(rows[i], "ATR")))
  }

  /** `Series.sum()`: NaN cells are skipped. */
  function SumPresent(s: seq<Option<real>>): real {
    if |s| == 0 then 0.0 else (if s[0].Some? then s[0].value else 0.0) + SumPresent(s[1..])
  }

  function EqualWeights(n: nat): (r: seq<Option<real>>)
    requires n > 0
    ensures |r| == n
  {
    seq(n, i requires 0 <= i < n => Some(1.0 / n as real))
  }

  function RiskParityWeights(rows: seq<Row>): (r: seq<Option<real>>)
    ensures |r| == |rows|
    ensures forall i | 0 <= i < |rows| :: r[i] == Div(InverseVolatility(rows)[i], Some(SumPresent(InverseVolatility(rows))))
  {
    var inv := InverseVolatility(rows);
    var total := SumPresent(inv);
    seq(|rows|, i requires 0 <= i < |rows| => Div(inv[i], Some(total)))
  }

  /** `calculate_weights`: adds a Weight column; an empty frame or an unknown method is left alone. No log entry. */
  function CalculateWeights(s: Screener, how: WeightMethod): (r: Screener)
    requires how.RiskParity? && |s.df.rows| > 0 ==> "ATR" in s.df.columns
    ensures r.logs == s.logs && r.initialCount == s.initialCount
    ensures |s.df.rows| == 0 || how.OtherMethod? ==> r == s
    ensures |s.df.rows| > 0 && !how.OtherMethod? ==>
              r.df.columns == s.df.columns + {"Weight"} && |r.df.rows| == |s.df.rows| &&
              forall i | 0 <= i < |s.df.rows| :: r.df.rows[i].ticker == s.df.rows[i].ticker
    ensures |s.df.rows| > 0 && how.Equal? ==>
              forall i | 0 <= i < |s.df.rows| :: Cell(r.df.rows[i], "Weight") == Some(1.0 / |s.df.rows| as real)
    ensures |s.df.rows| > 0 && how.RiskParity? ==>
              forall i | 0 <= i < |s.df.rows| :: Cell(r.df.rows[i], "Weight") == RiskParityWeights(s.df.rows)[i]
    ensures |s.df.rows| > 0 && !how.OtherMethod? ==>
              forall i, c | 0 <= i < |s.df.rows| && c != "Weight" :: Cell(r.df.rows[i], c) == Cell(s.df.rows[i], c)
  {
    var n := |s.df.rows|;
    if n == 0 then s
    else match how
      case Equal => s.(df := SetColumn(s.df, "Weight", EqualWeights(n)))
      case RiskParity => s.(df := SetColumn(s.df, "Weight", RiskParityWeights(s.df.rows)))
      case OtherMethod(_) => s
  }

  function WeightColumn(s: Screener): (r: seq<Option<real>>)
    ensures |r| == |s.df.rows|
  {
    seq(|s.df.rows|, i requires 0 <= i < |s.df.rows| => Cell(s.df.rows[i], "Weight"))
  }

  lemma {:induction false} SumPresentConst(s: seq<Option<real>>, c: real)
    requires forall i | 0 <= i < |s| :: s[i] == Some(c)
    ensures SumPresent(s) == |s| as real * c
  {
    if |s| > 0 {
      SumPresentConst(s[1..], c);
    }
  }

  /** Equal weights sum to one. */
  lemma EqualWeightsSumToOne(s: Screener)
    requires |s.df.rows| > 0
    ensures SumPresent(WeightColumn(CalculateWeights(s, Equal))) == 1.0
  {
    var n := |s.df.rows|;
    WeightColumnWritten(s, Equal);
    var w := EqualWeights(n);
    SumPresentConst(w, 1.0 / n as real);
    assert (n as real) * (1.0 / n as real) == 1.0;
  }

  /** Each present cell divided by `t`, NaN kept. */
  lemma {:induction false} SumPresentDivided(s: seq<Option<real>>, w: seq<Option<real>>, t: real)
    requires t != 0.0 && |w| == |s|
    requires forall i | 0 <= i < |s| :: w[i] == Div(s[i], Some(t))
    ensures SumPresent(w) == SumPresent(s) / t
  {
    if |s| > 0 {
      SumPresentDivided(s[1..], w[1..], t);
      var h := if s[0].Some? then s[0].value else 0.0;
      assert (if w[0].Some? then w[0].value else 0.0) == h / t;
      assert h / t + SumPresent(s[1..]) / t == (h + SumPresent(s[1..])) / t;
    }
  }

  lemma {:induction false} SumPresentPositive(s: seq<Option<real>>)
    requires |s| > 0 && forall i | 0 <= i < |s| :: s[i].Some? && s[i].value > 0.0
    ensures SumPresent(s) > 0.0
  {
    if |s| > 1 {
      SumPresentPositive(s[1..]);
    }
  }

  /** The Weight column `calculate_weights` writes is the one computed for its rows. */
  lemma WeightColumnWritten(s: Screener, how: WeightMethod)
    requires |s.df.rows| > 0 && !how.OtherMethod?
    requires how.RiskParity? ==> "ATR" in s.df.columns
    ensures WeightColumn(CalculateWeights(s, how)) ==
              if how.Equal? then EqualWeights(|s.df.rows|) else RiskParityWeights(s.df.rows)
  {
    var values := if how.Equal? then EqualWeights(|s.df.rows|) else RiskParityWeights(s.df.rows);
    var f := SetColumn(s.df, "Weight", values);
    assert CalculateWeights(s, how).df == f;
    forall i | 0 <= i < |s.df.rows| ensures WeightColumn(CalculateWeights(s, how))[i] == values[i] {
      assert Cell(f.rows[i], "Weight") == values[i];
    }
  }

  lemma InverseVolatilityPositive(rows: seq<Row>)
    requires forall i | 0 <= i < |rows| :: Gt(Cell(rows[i], "ATR"), 0.0)
    ensures forall i | 0 <= i < |rows| :: InverseVolatility(rows)[i].Some? && InverseVolatility(rows)[i].value > 0.0
  {
    var inv := InverseVolatility(rows);
    forall i | 0 <= i < |rows| ensures inv[i].Some? && inv[i].value > 0.0 {
      assert inv[i] == Some(1.0 / Cell(rows[i], "ATR").value);
    }
  }

  /** The summed inverse ATRs are positive when every ATR is. */
  lemma InverseVolatilityTotalPositive(rows: seq<Row>)
    requires |rows| > 0 && forall i | 0 <= i < |rows| :: Gt(Cell(rows[i], "ATR"), 0.0)
    ensures SumPresent(InverseVolatility(rows)) > 0.0
  {
    InverseVolatilityPositive(rows);
    SumPresentPositive(InverseVolatility(rows));
  }

  /** Each risk-parity weight times its ATR is `1 / total` when every ATR is positive. */
  lemma RiskParityRowWeights(rows: seq<Row>)
    requires |rows| > 0 && forall i | 0 <= i < |rows| :: Gt(Cell(rows[i], "ATR"), 0.0)
    ensures SumPresent(InverseVolatility(rows)) > 0.0
    ensures InverseToAtr(RiskParityWeights(rows), rows, 1.0 / SumPresent(InverseVolatility(rows)))
  {
    var inv := InverseVolatility(rows);
    var total := SumPresent(inv);
    var w := RiskParityWeights(rows);
    InverseVolatilityTotalPositive(rows);
    forall i | 0 <= i < |w|
      ensures w[i].Some? && w[i].value > 0.0 && Cell(rows[i], "ATR").Some? && w[i].value * Cell(rows[i], "ATR").value == 1.0 / total
    {
      WeightTimesAtr(Cell(rows[i], "ATR").value, total, inv[i], w[i]);
    }
  }

  lemma WeightTimesAtr(a: real, total: real, inv: Option<real>, w: Option<real>)
    requires a > 0.0 && total > 0.0
    requires inv == Div(Some(1.0), Some(a)) && w == Div(inv, Some(total))
    ensures w.Some? && w.value > 0.0 && w.value * a == 1.0 / total
  {
    var v := 1.0 / a;
    assert v * a == 1.0;
    assert (v / total) * a == (v * a) / total;
  }

  lemma RiskParitySumsToOne(rows: seq<Row>)
    requires |rows| > 0 && forall i | 0 <= i < |rows| :: Gt(Cell(rows[i], "ATR"), 0.0)
    ensures SumPresent(RiskParityWeights(rows)) == 1.0
  {
    InverseVolatilityTotalPositive(rows);
    NormalisedSumsToOne(InverseVolatility(rows), RiskParityWeights(rows), SumPresent(InverseVolatility(rows)));
  }

  /** Dividing every cell by the column total leaves a column that sums to one. */
  lemma NormalisedSumsToOne(s: seq<Option<real>>, w: seq<Option<real>>, t: real)
    requires t == SumPresent(s) && t > 0.0 && |w| == |s|
    requires forall i | 0 <= i < |s| :: w[i] == Div(s[i], Some(t))
    ensures SumPresent(w) == 1.0
  {
    SumPresentDivided(s, w, t);
    DivSelf(t);
  }

  lemma DivSelf(t: real)
    requires t > 0.0
    ensures t / t == 1.0
  {
  }

  /**
   * With every ATR present and positive, risk-parity weights are positive,
   * sum to one, and are inversely proportional to ATR: `Weight * ATR` is the
   * same constant, one over the summed inverse ATRs, for every row.
   */
  lemma RiskParityWeightsNormalised(s: Screener)
    requires |s.df.rows| > 0 && "ATR" in s.df.columns
    requires forall i | 0 <= i < |s.df.rows| :: Gt(Cell(s.df.rows[i], "ATR"), 0.0)
    ensures SumPresent(WeightColumn(CalculateWeights(s, RiskParity))) == 1.0
    ensures SumPresent(InverseVolatility(s.df.rows)) > 0.0
    ensures InverseToAtr(WeightColumn(CalculateWeights(s, RiskParity)), s.df.rows, 1.0 / SumPresent(InverseVolatility(s.df.rows)))
  {
    WeightColumnWritten(s, RiskParity);
    RiskParityRowWeights(s.df.rows);
    RiskParitySumsToOne(s.df.rows);
  }

  /** Every weight is present, positive, and times its row's ATR gives `c`. */
  predicate InverseToAtr(w: seq<Option<real>>, rows: seq<Row>, c: real)
    requires |w| == |rows|
  {
    forall i | 0 <= i < |w| :: w[i].Some? && w[i].value > 0.0 && Cell(rows[i], "ATR").Some? && w[i].value * Cell(rows[i], "ATR").value == c
  }

  // ---------------------------------------------------------------------------
  // The funnel
  // ---------------------------------------------------------------------------

  /** The log's remaining counts never increase and the last one is the current row count. */
  ghost predicate FunnelOrdered(s: Screener) {
    && (forall i, j | 0 <= i < j < |s.logs| :: s.logs[i].remaining >= s.logs[j].remaining)
    && (|s.logs| > 0 ==> s.logs[|s.logs| - 1].remaining >= |s.df.rows|)
  }

  /** A step that does not add rows and logs the new count keeps the funnel ordered. */
  lemma LoggedShrinkKeepsFunnel(s: Screener, r: Screener, step: Step)
    requires FunnelOrdered(s)
    requires |r.df.rows| <= |s.df.rows| && r.logs == s.logs + [LogEntry(step, |r.df.rows|)]
    ensures FunnelOrdered(r)
  {
    forall i, j | 0 <= i < j < |r.logs| ensures r.logs[i].remaining >= r.logs[j].remaining {
      if j == |r.logs| - 1 && i < |s.logs| {
        assert s.logs[i].remaining >= s.logs[|s.logs| - 1].remaining;
      }
    }
  }

  /** A filter step keeps the funnel ordered: it never adds rows and logs the new, smaller count. */
  lemma NarrowKeepsFunnel(s: Screener, keep: Row -> bool, step: Step)
    requires FunnelOrdered(s)
    ensures FunnelOrdered(Narrow(s, keep, step))
  {
    LoggedShrinkKeepsFunnel(s, Narrow(s, keep, step), step);
  }

  /** `rank_and_cut` keeps the funnel ordered as well. */
  lemma RankAndCutKeepsFunnel(s: Screener, sortBy: string, ascending: bool, topN: int)
    requires sortBy == "RelativeStrength" ==>
               "Close" in s.df.columns && "PrevClose" in s.df.columns && "ATR" in s.df.columns
    requires FunnelOrdered(s)
    ensures FunnelOrdered(RankAndCut(s, sortBy, ascending, topN))
  {
    var r := RankAndCut(s, sortBy, ascending, topN);
    if sortBy == "RelativeStrength" || sortBy in s.df.columns {
      var rows := if sortBy == "RelativeStrength" then SetColumn(s.df, "Score", Scores(s.df.rows)).rows else s.df.rows;
      var c := if sortBy == "RelativeStrength" then "Score" else sortBy;
      assert r.df.rows == SortAndCut(rows, c, ascending, topN);
      assert |multiset(r.df.rows)| <= |multiset(rows)|;
      LoggedShrinkKeepsFunnel(s, r, RankCut(topN));
    }
  }
}

=== FILE: search.dfy ===
/**
 * The search drivers of engine/optimizer.py with the backtest abstracted
 * away: `grid_search` (evaluate every grid combination, order the results),
 * the rolling train/test windows of `walk_forward_analysis` and
 * `validate_parameter_selection`, and their metric aggregation. Dates are
 * integer day offsets; a run of the simulator is an `Outcome` supplied by
 * the caller.
 */
module Search {
  import opened Wrappers
  import opened PyOps
  import opened Params
  import opened Seqs
  import Sorting
  import GridSpace

  /**
   * What asking for one backtest produced: the factory returned no cerebro
   * (`Skipped`), the run raised (`Failed`), or it ran and the metric was
   * extracted, possibly as None.
   */
  datatype Outcome = Skipped | Failed | Ran(metric: Option<real>)

  /** The metric recorded for a run that was not skipped: None when it raised. */
  function RecordedMetric(o: Outcome): Option<real>
    requires !o.Skipped?
  {
    if o.Failed? then None else o.metric
  }

  // ---------------------------------------------------------------------------
  // grid_search
  // ---------------------------------------------------------------------------

  /** The combinations the factory did not skip, in grid order. */
  ghost function Evaluated(combos: seq<ParamSet>, eval: ParamSet -> Outcome): seq<ParamSet> {
    Filter(combos, c => !eval(c).Skipped?)
  }

  /**
   * The loop over the combinations: one record per combination that was not
   * skipped, appended in grid order, with the metric it produced (None when
   * it raised).
   */
  function Collect(combos: seq<ParamSet>, eval: ParamSet -> Outcome): (r: seq<Run>)
    ensures |r| <= |combos|
    ensures forall x | x in r :: x.0 in combos && !eval(x.0).Skipped? && x.1 == RecordedMetric(eval(x.0))
    ensures forall c | c in combos && !eval(c).Skipped? :: (c, RecordedMetric(eval(c))) in r
    ensures var ev := Evaluated(combos, eval);
            && |r| == |ev|
            && forall k | 0 <= k < |ev| :: !eval(ev[k]).Skipped? && r[k] == (ev[k], RecordedMetric(eval(ev[k])))
  {
    if |combos| == 0 then []
    else
      var rest := Collect(combos[1..], eval);
      var r := if eval(combos[0]).Skipped? then rest else [(combos[0], RecordedMetric(eval(combos[0])))] + rest;
      CollectStep(combos, eval, rest, r);
      r
  }

  /** One step of the loop: appending the head's record, unless it was skipped, keeps every property of the tail's records. */
  lemma CollectStep(combos: seq<ParamSet>, eval: ParamSet -> Outcome, rest: seq<Run>, r: seq<Run>)
    requires |combos| > 0
    requires |rest| <= |combos[1..]|
    requires forall x | x in rest :: x.0 in combos[1..] && !eval(x.0).Skipped? && x.1 == RecordedMetric(eval(x.0))
    requires forall c | c in combos[1..] && !eval(c).Skipped? :: (c, RecordedMetric(eval(c))) in rest
    requires var ev := Evaluated(combos[1..], eval);
             && |rest| == |ev|
             && forall k | 0 <= k < |ev| :: !eval(ev[k]).Skipped? && rest[k] == (ev[k], RecordedMetric(eval(ev[k])))
    requires r == if eval(combos[0]).Skipped? then rest else [(combos[0], RecordedMetric(eval(combos[0])))] + rest
    ensures |r| <= |combos|
    ensures forall x | x in r :: x.0 in combos && !eval(x.0).Skipped? && x.1 == RecordedMetric(eval(x.0))
    ensures forall c | c in combos && !eval(c).Skipped? :: (c, RecordedMetric(eval(c))) in r
    ensures var ev := Evaluated(combos, eval);
            && |r| == |ev|
            && forall k | 0 <= k < |ev| :: !eval(ev[k]).Skipped? && r[k] == (ev[k], RecordedMetric(eval(ev[k])))
  {
    assert forall c | c in combos :: c == combos[0] || c in combos[1..];
    var evTail := Evaluated(combos[1..], eval);
    var ev := Evaluated(combos, eval);
    if eval(combos[0]).Skipped? {
      assert ev == evTail;
    } else {
      assert ev == [combos[0]] + evTail;
      forall k | 0 <= k < |ev|
        ensures !eval(ev[k]).Skipped? && r[k] == (ev[k], RecordedMetric(eval(ev[k])))
      {
        if k > 0 { assert ev[k] == evTail[k - 1] && r[k] == rest[k - 1]; }
      }
    }
  }

  /** `key_fn` of `grid_search`: None is minus infinity when maximising, plus infinity otherwise; a value is negated when minimising. */
  function SearchKey(r: Run, maximize: bool): Sorting.XReal {
    match r.1
    case None => if maximize then Sorting.NegInf else Sorting.PosInf
    case Some(v) => Sorting.Fin(if maximize then v else -v)
  }

  function SearchKeyFor(maximize: bool): Run -> Sorting.XReal {
    r => SearchKey(r, maximize)
  }

  /**
   * `results.sort(key=key_fn, reverse=maximize)` as written. In both
   * directions the records with a metric come first, largest metric first.
   */
  function SortRunsAsWritten(runs: seq<Run>, maximize: bool): (r: seq<Run>)
    ensures |r| == |runs| && multiset(r) == multiset(runs)
    ensures forall a, b | 0 <= a < b < |r| && r[a].1.None? :: r[b].1.None?
    ensures forall a, b | 0 <= a < b < |r| && r[a].1.Some? && r[b].1.Some? :: r[a].1.value >= r[b].1.value
  {
    var r := Sorting.SortBy(runs, SearchKeyFor(maximize), maximize);
    forall a, b | 0 <= a < b < |r|
      ensures r[a].1.None? ==> r[b].1.None?
      ensures r[a].1.Some? && r[b].1.Some? ==> r[a].1.value >= r[b].1.value
    {
      assert Sorting.InOrder(SearchKey(r[a], maximize), SearchKey(r[b], maximize), maximize);
    }
    r
  }

  /** The best parameters, the best value and every record, best first. */
  datatype SearchResult = SearchResult(best: ParamSet, value: Option<real>, runs: seq<Run>)

  /** `grid_search` as written, with the simulator given as `eval`. */
  function GridSearch(pg: Grid, eval: ParamSet -> Outcome, maximize: bool): (r: SearchResult)
    ensures multiset(r.runs) == multiset(Collect(GridSpace.ExpandParamGrid(pg), eval))
    ensures |r.runs| == 0 ==> r.best == [] && r.value == None
    ensures |r.runs| > 0 ==> r.best == r.runs[0].0 && r.value == r.runs[0].1
    ensures forall a, b | 0 <= a < b < |r.runs| && r.runs[a].1.None? :: r.runs[b].1.None?
    ensures forall a, b | 0 <= a < b < |r.runs| && r.runs[a].1.Some? && r.runs[b].1.Some? :: r.runs[a].1.value >= r.runs[b].1.value
  {
    var runs := SortRunsAsWritten(Collect(GridSpace.ExpandParamGrid(pg), eval), maximize);
    if |runs| == 0 then SearchResult([], None, runs) else SearchResult(runs[0].0, runs[0].1, runs)
  }

  /**
   * The reported value is the largest metric of all records, whichever
   * direction was asked for; it is None only when no record has a metric.
   */
  lemma GridSearchReportsLargest(pg: Grid, eval: ParamSet -> Outcome, maximize: bool)
    ensures var r := GridSearch(pg, eval, maximize);
      (r.value.None? ==> forall x | x in r.runs :: x.1.None?) &&
      (r.value.Some? ==> forall x | x in r.runs && x.1.Some? :: x.1.value <= r.value.value)
  {
    var r := GridSearch(pg, eval, maximize);
    forall x | x in r.runs
      ensures r.value.None? ==> x.1.None?
      ensures r.value.Some? && x.1.Some? ==> x.1.value <= r.value.value
    {
      var b :| 0 <= b < |r.runs| && r.runs[b] == x;
      if b > 0 {
        assert r.runs[0].1 == r.value;
      }
    }
  }

  /** Two records with metrics 1.0 and 2.0, minimising: the sort as written puts 2.0 first. */
  lemma MinimizeAsWrittenPicksLargest(p: ParamSet, q: ParamSet)
    ensures SortRunsAsWritten([(p, Some(1.0)), (q, Some(2.0))], false)[0] == (q, Some(2.0))
  {
    var s := [(p, Some(1.0)), (q, Some(2.0))];
    var r := SortRunsAsWritten(s, false);
    assert r == [r[0], r[1]];
    assert multiset{r[0], r[1]} == multiset{(p, Some(1.0)), (q, Some(2.0))};
  }

  /** The order `key_fn` evidently intends: None last, otherwise best first in the requested direction. */
  function IntendedKey(r: Run, maximize: bool): Sorting.XReal {
    match r.1
    case None => if maximize then Sorting.NegInf else Sorting.PosInf
    case Some(v) => Sorting.Fin(v)
  }

  function IntendedKeyFor(maximize: bool): Run -> Sorting.XReal {
    r => IntendedKey(r, maximize)
  }

  /** The corrected sort: records with a metric first, largest first when maximising, smallest first otherwise. */
  function SortRuns(runs: seq<Run>, maximize: bool): (r: seq<Run>)
    ensures |r| == |runs| && multiset(r) == multiset(runs)
    ensures forall a, b | 0 <= a < b < |r| && r[a].1.None? :: r[b].1.None?
    ensures forall a, b | 0 <= a < b < |r| && r[a].1.Some? && r[b].1.Some? ::
              if maximize then r[a].1.value >= r[b].1.value else r[a].1.value <= r[b].1.value
  {
    var r := Sorting.SortBy(runs, IntendedKeyFor(maximize), maximize);
    forall a, b | 0 <= a < b < |r|
      ensures r[a].1.None? ==> r[b].1.None?
      ensures r[a].1.Some? && r[b].1.Some? ==>
                if maximize then r[a].1.value >= r[b].1.value else r[a].1.value <= r[b].1.value
    {
      assert Sorting.InOrder(IntendedKey(r[a], maximize), IntendedKey(r[b], maximize), maximize);
    }
    r
  }

  /** `grid_search` with the corrected order. */
  function GridSearchCorrected(pg: Grid, eval: ParamSet -> Outcome, maximize: bool): (r: SearchResult)
    ensures multiset(r.runs) == multiset(Collect(GridSpace.ExpandParamGrid(pg), eval))
    ensures |r.runs| == 0 ==> r.best == [] && r.value == None
    ensures |r.runs| > 0 ==> r.best == r.runs[0].0 && r.value == r.runs[0].1
    ensures forall a, b | 0 <= a < b < |r.runs| && r.runs[a].1.None? :: r.runs[b].1.None?
    ensures forall a, b | 0 <= a < b < |r.runs| && r.runs[a].1.Some? && r.runs[b].1.Some? ::
              if maximize then r.runs[a].1.value >= r.runs[b].1.value else r.runs[a].1.value <= r.runs[b].1.value
  {
    var runs := SortRuns(Collect(GridSpace.ExpandParamGrid(pg), eval), maximize);
    if |runs| == 0 then SearchResult([], None, runs) else SearchResult(runs[0].0, runs[0].1, runs)
  }

  /** The corrected search reports the best metric in the requested direction, and None only when no record has one. */
  lemma GridSearchCorrectedReportsBest(pg: Grid, eval: ParamSet -> Outcome, maximize: bool)
    ensures var r := GridSearchCorrected(pg, eval, maximize);
      (r.value.None? ==> forall x | x in r.runs :: x.1.None?) &&
      (r.value.Some? ==> forall x | x in r.runs && x.1.Some? ::
         if maximize then x.1.value <= r.value.value else r.value.value <= x.1.value)
  {
    var r := GridSearchCorrected(pg, eval, maximize);
    forall x | x in r.runs
      ensures r.value.None? ==> x.1.None?
      ensures r.value.Some? && x.1.Some? ==>
                if maximize then x.1.value <= r.value.value else r.value.value <= x.1.value
    {
      var b :| 0 <= b < |r.runs| && r.runs[b] == x;
      if b > 0 {
        assert r.runs[0].1 == r.value;
      }
    }
  }

  /** The two orders agree on every problem that maximises. */
  lemma GridSearchAgreesWhenMaximizing(pg: Grid, eval: ParamSet -> Outcome)
    ensures GridSearchCorrected(pg, eval, true) == GridSearch(pg, eval, true)
  {
    var runs := Collect(GridSpace.ExpandParamGrid(pg), eval);
    Sorting.SortByKeyAgree(runs, SearchKeyFor(true), IntendedKeyFor(true), true);
  }

  // ---------------------------------------------------------------------------
  // Rolling windows of walk_forward_analysis / validate_parameter_selection
  // ---------------------------------------------------------------------------

  /** One window: training over `[start, trainEnd]`, testing over `[trainEnd, testEnd]`. */
  datatype Window = Window(start: int, trainEnd: int, testEnd: int)

  /** The loop `while current + train + test <= to`, advancing `current` by `test`; it ends only for a positive `test`. */
  predicate Terminates(from: int, to: int, train: int, test: int) {
    test > 0 || from + train + test > to
  }

  /**
   * With a non-positive `test` and a first window that fits, the loop guard
   * holds again after every number of steps: the loop never ends.
   */
  lemma {:induction false} GuardHoldsForever(from: int, to: int, train: int, test: int, k: nat)
    requires test <= 0 && from + train + test <= to
    ensures from + k * test + train + test <= to
  {
    if k > 0 {
      GuardHoldsForever(from, to, train, test, k - 1);
      assert k * test == (k - 1) * test + test;
    }
  }

  function Windows(from: int, to: int, train: int, test: int): (r: seq<Window>)
    requires Terminates(from, to, train, test)
    ensures forall k | 0 <= k < |r| ::
      r[k] == Window(from + k * test, from + k * test + train, from + k * test + train + test)
    ensures forall k | 0 <= k < |r| :: r[k].testEnd <= to
    ensures |r| > 0 <==> from + train + test <= to
    decreases if from + train + test <= to then to - from - train - test + 1 else 0
  {
    if from + train + test <= to then
      var rest := Windows(from + test, to, train, test);
      var r := [Window(from, from + train, from + train + test)] + rest;
      forall k | 1 <= k < |r|
        ensures r[k] == Window(from + k * test, from + k * test + train, from + k * test + train + test)
      {
        assert r[k] == rest[k - 1];
        assert from + test + (k - 1) * test == from + k * test;
      }
      r
    else []
  }

  /** Each test period starts where the previous one ended, so the test periods tile `[from + train, ...]`. */
  lemma WindowsContiguous(from: int, to: int, train: int, test: int)
    requires Terminates(from, to, train, test)
    ensures var r := Windows(from, to, train, test);
      forall k | 0 <= k < |r| - 1 :: r[k + 1].trainEnd == r[k].testEnd
  {
    var r := Windows(from, to, train, test);
    forall k | 0 <= k < |r| - 1 ensures r[k + 1].trainEnd == r[k].testEnd {
      assert from + (k + 1) * test == from + k * test + test;
    }
  }

  /** With a positive `test`, the loop runs `(to - from - train - test) / test + 1` times, or never. */
  lemma {:induction false} WindowCount(from: int, to: int, train: int, test: int)
    requires test > 0
    ensures |Windows(from, to, train, test)| ==
              if from + train + test <= to then (to - from - train - test) / test + 1 else 0
    decreases if from + train + test <= to then to - from - train - test + 1 else 0
  {
    if from + train + test <= to {
      WindowCount(from + test, to, train, test);
      var slack := to - from - train - test;
      if slack >= test {
        DivModShift(slack, test);
      } else {
        DivModUnique(slack, test, 0, slack);
      }
    }
  }

  /** Every window lies within `[from, to]` once `train` is non-negative. */
  lemma WindowsInRange(from: int, to: int, train: int, test: int)
    requires Terminates(from, to, train, test) && train >= 0
    ensures var r := Windows(from, to, train, test);
      forall k | 0 <= k < |r| :: from <= r[k].start <= r[k].trainEnd <= r[k].testEnd <= to
  {
    var r := Windows(from, to, train, test);
    forall k | 0 <= k < |r| ensures from <= r[k].start {
      if test > 0 { MulLeInt(0, k, test); }
    }
  }

  // ---------------------------------------------------------------------------
  // validate_parameter_selection
  // ---------------------------------------------------------------------------

  /** The test run of window `w` produced a metric. */
  predicate Measured(w: Window, eval: (int, int) -> Outcome) {
    eval(w.trainEnd, w.testEnd).Ran? && eval(w.trainEnd, w.testEnd).metric.Some?
  }

  /** The `per_window` entry of a measured window. */
  function Entry(w: Window, eval: (int, int) -> Outcome): (int, int, real)
    requires Measured(w, eval)
  {
    (w.trainEnd, w.testEnd, eval(w.trainEnd, w.testEnd).metric.value)
  }

  /** The windows whose test run produced a metric, in window order. */
  ghost function MeasuredWindows(ws: seq<Window>, eval: (int, int) -> Outcome): seq<Window> {
    Filter(ws, w => Measured(w, eval))
  }

  /** `per_window`: `(test_start, test_end, value)` for each window whose test run produced a metric. */
  function PerWindow(ws: seq<Window>, eval: (int, int) -> Outcome): (r: seq<(int, int, real)>)
    ensures |r| <= |ws|
    ensures forall x | x in r :: exists w :: w in ws && Measured(w, eval) && x == Entry(w, eval)
    ensures forall w | w in ws && Measured(w, eval) :: Entry(w, eval) in r
    ensures var m := MeasuredWindows(ws, eval);
            && |r| == |m|
            && forall k | 0 <= k < |m| :: Measured(m[k], eval) && r[k] == Entry(m[k], eval)
  {
    if |ws| == 0 then []
    else
      var rest := PerWindow(ws[1..], eval);
      var r := if Measured(ws[0], eval) then [Entry(ws[0], eval)] + rest else rest;
      PerWindowStep(ws, eval, rest, r);
      AlignedEntries(ws, eval, r);
      r
  }

  /** One step of the loop: appending the head's entry, if it was measured, keeps the entries aligned with the measured windows. */
  lemma PerWindowStep(ws: seq<Window>, eval: (int, int) -> Outcome, rest: seq<(int, int, real)>, r: seq<(int, int, real)>)
    requires |ws| > 0
    requires var m := MeasuredWindows(ws[1..], eval);
             && |rest| == |m|
             && forall k | 0 <= k < |m| :: Measured(m[k], eval) && rest[k] == Entry(m[k], eval)
    requires r == if Measured(ws[0], eval) then [Entry(ws[0], eval)] + rest else rest
    ensures var m := MeasuredWindows(ws, eval);
            && |r| == |m|
            && forall k | 0 <= k < |m| :: Measured(m[k], eval) && r[k] == Entry(m[k], eval)
  {
    var mTail := MeasuredWindows(ws[1..], eval);
    var m := MeasuredWindows(ws, eval);
    if !Measured(ws[0], eval) {
      assert m == mTail;
    } else {
      assert m == [ws[0]] + mTail;
      forall k | 0 <= k < |m|
        ensures Measured(m[k], eval) && r[k] == Entry(m[k], eval)
      {
        if k > 0 { assert m[k] == mTail[k - 1] && r[k] == rest[k - 1]; }
      }
    }
  }

  /** Entries aligned with the measured windows hold exactly the entries of the measured windows. */
  lemma AlignedEntries(ws: seq<Window>, eval: (int, int) -> Outcome, r: seq<(int, int, real)>)
    requires var m := MeasuredWindows(ws, eval);
             && |r| == |m|
             && forall k | 0 <= k < |m| :: Measured(m[k], eval) && r[k] == Entry(m[k], eval)
    ensures |r| <= |ws|
    ensures forall x | x in r :: exists w :: w in ws && Measured(w, eval) && x == Entry(w, eval)
    ensures forall w | w in ws && Measured(w, eval) :: Entry(w, eval) in r
  {
    var m := MeasuredWindows(ws, eval);
    forall x | x in r ensures exists w :: w in ws && Measured(w, eval) && x == Entry(w, eval) {
      var k :| 0 <= k < |r| && r[k] == x;
      assert multiset(m)[m[k]] > 0;
    }
    forall w | w in ws && Measured(w, eval) ensures Entry(w, eval) in r {
      assert multiset(ws)[w] > 0;
      assert w in multiset(m);
      var k :| 0 <= k < |m| && m[k] == w;
      assert r[k] == Entry(w, eval);
    }
  }

  function ValuesOf(pw: seq<(int, int, real)>): (r: seq<real>)
    ensures |r| == |pw|
    ensures forall i | 0 <= i < |pw| :: r[i] == pw[i].2
  {
    seq(|pw|, i requires 0 <= i < |pw| => pw[i].2)
  }

  /** `{'mean': ..., 'std': ..., 'per_window': ...}` */
  datatype Validation = Validation(mean: Option<real>, std: Option<real>, perWindow: seq<(int, int, real)>)

  /** `validate_parameter_selection` with the backtest of a test window given as `eval`. */
  function Validate(from: int, to: int, train: int, test: int, eval: (int, int) -> Outcome, sqrt: real -> real): (r: Validation)
    requires Terminates(from, to, train, test)
    requires IsSqrt(sqrt)
    ensures r.perWindow == PerWindow(Windows(from, to, train, test), eval)
    ensures r.mean.None? <==> |r.perWindow| == 0
    ensures r.std.None? <==> |r.perWindow| == 0
    ensures r.mean.Some? ==> r.mean.value == Mean(ValuesOf(r.perWindow))
    ensures r.std.Some? ==> r.std.value == StdDev(ValuesOf(r.perWindow), sqrt)
  {
    var pw := PerWindow(Windows(from, to, train, test), eval);
    if |pw| == 0 then Validation(None, None, [])
    else
      var values := ValuesOf(pw);
      Validation(Some(Mean(values)), Some(StdDev(values, sqrt)), pw)
  }

  /** The reported mean lies between the smallest and the largest per-window value. */
  lemma ValidateMeanBetween(from: int, to: int, train: int, test: int, eval: (int, int) -> Outcome, sqrt: real -> real, lo: real, hi: real)
    requires Terminates(from, to, train, test) && IsSqrt(sqrt)
    requires forall x | x in Validate(from, to, train, test, eval, sqrt).perWindow :: lo <= x.2 <= hi
    ensures var r := Validate(from, to, train, test, eval, sqrt);
      r.mean.Some? ==> lo <= r.mean.value <= hi
  {
    var r := Validate(from, to, train, test, eval, sqrt);
    if r.mean.Some? {
      var values := ValuesOf(r.perWindow);
      forall i | 0 <= i < |values| ensures lo <= values[i] <= hi {
        assert r.perWindow[i] in r.perWindow;
      }
      MeanBetween(values, lo, hi);
    }
  }

  // ---------------------------------------------------------------------------
  // walk_forward_analysis
  // ---------------------------------------------------------------------------

  /**
   * The test metrics of one parameter set: a window counts only when the
   * training run was set up and did not raise, and the test run produced a
   * metric.
   */
  function TestMetrics(p: ParamSet, ws: seq<Window>, trainRun: (ParamSet, int, int) -> Outcome,
                       testRun: (ParamSet, int, int) -> Outcome): (r: seq<real>)
    ensures |r| <= |ws|
  {
    if |ws| == 0 then []
    else
      var rest := TestMetrics(p, ws[1..], trainRun, testRun);
      var w := ws[0];
      var t := testRun(p, w.trainEnd, w.testEnd);
      if trainRun(p, w.start, w.trainEnd).Ran? && t.Ran? && t.metric.Some? then [t.metric.value] + rest
      else rest
  }

  /** `results_per_params`: the averages recorded per parameter set, in first-insertion order. */
  type Groups = seq<(ParamSet, seq<real>)>

  predicate DistinctGroups(g: Groups) {
    forall i, j | 0 <= i < j < |g| :: g[i].0 != g[j].0
  }

  /** `results_per_params[p].append(avg)` on a `defaultdict(list)`. */
  function AddAverage(g: Groups, p: ParamSet, avg: real): (r: Groups)
    requires DistinctGroups(g)
    ensures DistinctGroups(r)
    ensures forall i | 0 <= i < |r| :: (r[i].0 == p && avg in r[i].1) || r[i] in g
    ensures exists i :: 0 <= i < |r| && r[i].0 == p && avg in r[i].1
  {
    if |g| == 0 then
      var r := [(p, [avg])];
      assert r[0].0 == p && avg in r[0].1;
      r
    else if g[0].0 == p then
      var r := [(p, g[0].1 + [avg])] + g[1..];
      assert r[0].0 == p && avg in r[0].1;
      forall i | 1 <= i < |r| ensures r[i] in g {
        assert r[i] == g[i];
      }
      r
    else
      var rest := AddAverage(g[1..], p, avg);
      var r := [g[0]] + rest;
      forall i | 1 <= i < |r| ensures r[i].0 != g[0].0 {
        var x := rest[i - 1];
        if x.0 != p {
          assert x in g[1..];
          var j :| 0 <= j < |g[1..]| && g[1..][j] == x;
          assert g[j + 1] == x;
        }
      }
      forall i | 0 <= i < |r| ensures (r[i].0 == p && avg in r[i].1) || r[i] in g {
        if i > 0 {
          assert r[i] == rest[i - 1];
          assert rest[i - 1] in g[1..] ==> rest[i - 1] in g;
        }
      }
      var i :| 0 <= i < |rest| && rest[i].0 == p && avg in rest[i].1;
      assert r[i + 1] == rest[i];
      r
  }

  /** The outer loop over the expanded grid: a parameter set with no test metric records nothing. */
  function GroupAverages(combos: seq<ParamSet>, ws: seq<Window>, trainRun: (ParamSet, int, int) -> Outcome,
                         testRun: (ParamSet, int, int) -> Outcome, acc: Groups): (r: Groups)
    requires DistinctGroups(acc)
    requires forall i | 0 <= i < |acc| :: |acc[i].1| > 0
    ensures DistinctGroups(r)
    ensures forall i | 0 <= i < |r| :: |r[i].1| > 0
    decreases |combos|
  {
    if |combos| == 0 then acc
    else
      var tm := TestMetrics(combos[0], ws, trainRun, testRun);
      var acc' := if |tm| > 0 then AddAverage(acc, combos[0], Mean(tm)) else acc;
      assert forall x | x in acc :: |x.1| > 0;
      GroupAverages(combos[1..], ws, trainRun, testRun, acc')
  }

  type WfaRow = (ParamSet, real, seq<real>)

  function AvgKey(x: WfaRow): Sorting.XReal {
    Sorting.Fin(x.1)
  }

  /** `results`: `(params, mean of the recorded averages, averages)` per group, in group order. */
  function Rows(g: Groups): (r: seq<WfaRow>)
    requires forall i | 0 <= i < |g| :: |g[i].1| > 0
    ensures |r| == |g|
    ensures forall i | 0 <= i < |g| :: r[i] == (g[i].0, Mean(g[i].1), g[i].1)
  {
    seq(|g|, i requires 0 <= i < |g| => (g[i].0, Mean(g[i].1), g[i].1))
  }

  /** `results.sort(key=lambda x: x[1], reverse=maximize)` */
  function SortRows(rows: seq<WfaRow>, maximize: bool): (r: seq<WfaRow>)
    ensures |r| == |rows| && multiset(r) == multiset(rows)
    ensures forall a, b | 0 <= a < b < |r| :: if maximize then r[a].1 >= r[b].1 else r[a].1 <= r[b].1
  {
    var r := Sorting.SortBy(rows, AvgKey, maximize);
    assert forall a, b | 0 <= a < b < |r| :: Sorting.InOrder(AvgKey(r[a]), AvgKey(r[b]), maximize);
    r
  }

  /** The `best_avg` loop: a strictly better average replaces the best, starting from the worst infinity. */
  function BestAverage(rows: seq<WfaRow>, maximize: bool): (r: Sorting.XReal)
    ensures |rows| == 0 ==> r == if maximize then Sorting.NegInf else Sorting.PosInf
    ensures |rows| > 0 ==> r.Fin? && exists i :: 0 <= i < |rows| && rows[i].1 == r.v
    ensures |rows| > 0 ==> forall i | 0 <= i < |rows| :: if maximize then rows[i].1 <= r.v else r.v <= rows[i].1
  {
    if |rows| == 0 then (if maximize then Sorting.NegInf else Sorting.PosInf)
    else
      var front := rows[..|rows| - 1];
      var best := BestAverage(front, maximize);
      var avg := rows[|rows| - 1].1;
      assert forall i | 0 <= i < |front| :: front[i] == rows[i];
      if (maximize && Sorting.XLe(best, Sorting.Fin(avg)) && best != Sorting.Fin(avg)) ||
         (!maximize && Sorting.XLe(Sorting.Fin(avg), best) && best != Sorting.Fin(avg))
      then Sorting.Fin(avg)
      else best
  }

  /** The best parameters, the best average, and every row best first. */
  datatype WfaResult = WfaResult(best: ParamSet, bestAvg: Sorting.XReal, rows: seq<WfaRow>)

  /** `walk_forward_analysis` with the training and test backtests given as `trainRun` and `testRun`. */
  function WalkForward(pg: Grid, from: int, to: int, train: int, test: int,
                       trainRun: (ParamSet, int, int) -> Outcome, testRun: (ParamSet, int, int) -> Outcome,
                       maximize: bool): (r: WfaResult)
    requires Terminates(from, to, train, test)
    ensures var g := GroupAverages(GridSpace.ExpandParamGrid(pg), Windows(from, to, train, test), trainRun, testRun, []);
      multiset(r.rows) == multiset(Rows(g))
    ensures forall a, b | 0 <= a < b < |r.rows| :: if maximize then r.rows[a].1 >= r.rows[b].1 else r.rows[a].1 <= r.rows[b].1
    ensures |r.rows| == 0 ==> r.best == []
    ensures |r.rows| > 0 ==> r.best == r.rows[0].0
  {
    var g := GroupAverages(GridSpace.ExpandParamGrid(pg), Windows(from, to, train, test), trainRun, testRun, []);
    var rows := Rows(g);
    var sorted := SortRows(rows, maximize);
    WfaResult(if |sorted| == 0 then [] else sorted[0].0, BestAverage(rows, maximize), sorted)
  }

  /** The loop-tracked best average is the average of the first row after sorting, or the starting infinity when nothing ran. */
  lemma WalkForwardBestAgrees(pg: Grid, from: int, to: int, train: int, test: int,
                              trainRun: (ParamSet, int, int) -> Outcome, testRun: (ParamSet, int, int) -> Outcome,
                              maximize: bool)
    requires Terminates(from, to, train, test)
    ensures var r := WalkForward(pg, from, to, train, test, trainRun, testRun, maximize);
      if |r.rows| == 0 then r.bestAvg == (if maximize then Sorting.NegInf else Sorting.PosInf)
      else r.bestAvg == Sorting.Fin(r.rows[0].1)
  {
    var g := GroupAverages(GridSpace.ExpandParamGrid(pg), Windows(from, to, train, test), trainRun, testRun, []);
    var r := WalkForward(pg, from, to, train, test, trainRun, testRun, maximize);
    assert |r.rows| == |multiset(r.rows)| == |Rows(g)|;
    if |r.rows| > 0 {
      SortedHeadIsBest(Rows(g), r.rows, maximize);
    }
  }

  /** The first row of any best-first ordering of `rows` carries the loop-tracked best average. */
  lemma SortedHeadIsBest(rows: seq<WfaRow>, sorted: seq<WfaRow>, maximize: bool)
    requires |rows| > 0 && multiset(sorted) == multiset(rows)
    requires forall a, b | 0 <= a < b < |sorted| :: if maximize then sorted[a].1 >= sorted[b].1 else sorted[a].1 <= sorted[b].1
    ensures |sorted| > 0 && BestAverage(rows, maximize) == Sorting.Fin(sorted[0].1)
  {
    assert |sorted| == |multiset(sorted)| == |rows|;
    var best := BestAverage(rows, maximize);
    assert sorted[0] in multiset(rows);
    var i :| 0 <= i < |rows| && rows[i] == sorted[0];
    var j :| 0 <= j < |rows| && rows[j].1 == best.v;
    assert rows[j] in multiset(sorted);
    var b :| 0 <= b < |sorted| && sorted[b] == rows[j];
    if b > 0 {
      assert if maximize then sorted[0].1 >= sorted[b].1 else sorted[0].1 <= sorted[b].1;
    }
  }

  /** Each row's average is the mean of its recorded per-run averages, which are never empty. */
  lemma WalkForwardRowsAreMeans(pg: Grid, from: int, to: int, train: int, test: int,
                                trainRun: (ParamSet, int, int) -> Outcome, testRun: (ParamSet, int, int) -> Outcome,
                                maximize: bool, t: nat)
    requires Terminates(from, to, train, test)
    requires t < |WalkForward(pg, from, to, train, test, trainRun, testRun, maximize).rows|
    ensures var x := WalkForward(pg, from, to, train, test, trainRun, testRun, maximize).rows[t];
      |x.2| > 0 && x.1 == Mean(x.2)
  {
    var g := GroupAverages(GridSpace.ExpandParamGrid(pg), Windows(from, to, train, test), trainRun, testRun, []);
    var rows := Rows(g);
    var r := WalkForward(pg, from, to, train, test, trainRun, testRun, maximize);
    assert r.rows[t] in multiset(rows);
    var i :| 0 <= i < |rows| && rows[i] == r.rows[t];
  }
}

=== FILE: selection.dfy ===
/**
 * Choosing the final parameters from grid-search results in
 * `engine/optimizer.py`: `_get_top_runs_by_pct_or_threshold`, `_rank_values`,
 * the `plateau`, `plateau_freq` and `robust` methods of
 * `select_final_params`, and the statistics they use (upper median, most
 * common value).
 */
module Selection {
  import opened Wrappers
  import opened PyOps
  import opened Params
  import opened Seqs
  import Sorting
  import GridSpace

  // ---------------------------------------------------------------------------
  // _get_top_runs_by_pct_or_threshold
  // ---------------------------------------------------------------------------

  /** `max(1, int(len(all_results) * top_pct))` */
  function TopCount(n: nat, topPct: real): int {
    Max(1, Trunc(n as real * topPct))
  }

  /** `r[1] is not None and r[1] >= threshold` (`<=` when minimising). */
  predicate Qualifies(metric: Option<real>, threshold: real, maximize: bool) {
    metric.Some? && (if maximize then metric.value >= threshold else metric.value <= threshold)
  }

  predicate SomeQualifies(results: seq<Run>, threshold: real, maximize: bool) {
    exists i :: 0 <= i < |results| && Qualifies(results[i].1, threshold, maximize)
  }

  /**
   * `_get_top_runs_by_pct_or_threshold`: the results meeting the threshold in
   * their order, or the leading `top_pct` share (at least one) when there is
   * no threshold or nothing meets it.
   */
  function TopRuns(results: seq<Run>, topPct: real, threshold: Option<real>, maximize: bool): (r: seq<Run>)
    ensures |results| > 0 ==> |r| > 0
    ensures SubseqOf(r, results)
    ensures threshold.Some? && SomeQualifies(results, threshold.value, maximize) ==>
              forall x :: multiset(r)[x] == if Qualifies(x.1, threshold.value, maximize) then multiset(results)[x] else 0
    ensures threshold.None? || !SomeQualifies(results, threshold.value, maximize) ==>
              r <= results && |r| == if |results| < TopCount(|results|, topPct) then |results| else TopCount(|results|, topPct)
  {
    var prefix := Prefix(results, TopCount(|results|, topPct));
    PrefixIsSubseq(prefix, results);
    if threshold.None? then prefix
    else
      var kept := Filter(results, QualifiesFor(threshold.value, maximize));
      ThresholdKept(results, threshold.value, maximize);
      if |kept| > 0 then kept else prefix
  }

  function QualifiesFor(t: real, maximize: bool): Run -> bool {
    (x: Run) => Qualifies(x.1, t, maximize)
  }

  /** The runs meeting the threshold form a subsequence, which is empty exactly when no run qualifies. */
  lemma ThresholdKept(results: seq<Run>, t: real, maximize: bool)
    ensures var kept := Filter(results, QualifiesFor(t, maximize));
      SubseqOf(kept, results) && (|kept| > 0 <==> SomeQualifies(results, t, maximize))
  {
    var f := QualifiesFor(t, maximize);
    var kept := Filter(results, f);
    FilterIsSubseq(results, f);
    if |kept| > 0 {
      assert kept[0] in multiset(kept);
      assert kept[0] in multiset(results);
      var i :| 0 <= i < |results| && results[i] == kept[0];
      assert Qualifies(results[i].1, t, maximize);
    } else {
      forall i | 0 <= i < |results| ensures !Qualifies(results[i].1, t, maximize) {
        assert results[i] in multiset(results);
        assert multiset(kept)[results[i]] == 0;
      }
    }
  }

  // ---------------------------------------------------------------------------
  // _rank_values
  // ---------------------------------------------------------------------------

  /** The sort key of `_rank_values`: None sorts as the worst value in either direction. */
  function RankKey(v: Option<real>, higherBetter: bool): Sorting.XReal {
    match v
    case None => if higherBetter then Sorting.NegInf else Sorting.PosInf
    case Some(x) => Sorting.Fin(x)
  }

  /** The key of position `i` of `values`. */
  function IndexKey(values: seq<Option<real>>, higherBetter: bool): nat -> Sorting.XReal {
    (i: nat) => if i < |values| then RankKey(values[i], higherBetter) else Sorting.NegInf
  }

  function Position(i: nat): int {
    i
  }

  /**
   * `_rank_values`: each value's place in the stable sort of the values, best
   * first (largest first when `higher_better`), None last. The best value
   * gets rank 0, and equal values keep their order.
   */
  function RankValues(values: seq<Option<real>>, higherBetter: bool): (r: seq<nat>)
    ensures |r| == |values|
    ensures forall i | 0 <= i < |r| :: r[i] < |r|
    ensures forall i, j | 0 <= i < j < |r| :: r[i] != r[j]
    ensures forall p | 0 <= p < |r| :: p in r
    ensures forall i, j | 0 <= i < |r| && 0 <= j < |r| && r[i] < r[j] ::
              Sorting.InOrder(RankKey(values[i], higherBetter), RankKey(values[j], higherBetter), higherBetter)
    ensures forall i, j | 0 <= i < j < |r| && RankKey(values[i], higherBetter) == RankKey(values[j], higherBetter) ::
              r[i] < r[j]
  {
    var n := |values|;
    var key := IndexKey(values, higherBetter);
    var order := Sorting.SortBy(Range(n), key, higherBetter);
    Sorting.SortStable(Range(n), key, higherBetter, Position);
    OrderIsPermutation(n, order);
    var r := PositionsIn(order, n);
    RankFacts(values, higherBetter, order, r);
    r
  }

  /** Where each of `0..n-1` sits in `order`. */
  function PositionsIn(order: seq<nat>, n: nat): (r: seq<nat>)
    requires forall i | 0 <= i < n :: i in order
    ensures |r| == n
    ensures forall i | 0 <= i < n :: r[i] < |order| && order[r[i]] == i
  {
    seq(n, i requires 0 <= i < n => IndexOf(order, i))
  }

  /** A rearrangement of `0..n-1` holds each index exactly once. */
  lemma OrderIsPermutation(n: nat, order: seq<nat>)
    requires multiset(order) == multiset(Range(n))
    ensures |order| == n
    ensures forall p | 0 <= p < |order| :: order[p] < n
    ensures forall p, q | 0 <= p < q < |order| :: order[p] != order[q]
    ensures forall i | 0 <= i < n :: i in order
  {
    var all := Range(n);
    assert |order| == |multiset(order)| == |multiset(all)| == n;
    forall p | 0 <= p < |order| ensures order[p] < n {
      assert order[p] in multiset(all);
    }
    forall p, q | 0 <= p < q < |order| ensures order[p] != order[q] {
      if order[p] == order[q] {
        TwoPositions(order, p, q);
        DistinctCountsOne(all, order[p]);
        assert false;
      }
    }
    forall i | 0 <= i < n ensures i in order {
      assert all[i] == i;
      assert i in multiset(all);
    }
  }

  lemma RankFacts(values: seq<Option<real>>, higherBetter: bool, order: seq<nat>, r: seq<nat>)
    requires |order| == |values| == |r|
    requires forall p, q | 0 <= p < q < |order| :: order[p] != order[q]
    requires forall p | 0 <= p < |order| :: order[p] < |values|
    requires forall i | 0 <= i < |r| :: r[i] < |order| && order[r[i]] == i
    requires Sorting.SortedBy(order, IndexKey(values, higherBetter), higherBetter)
    requires Sorting.StableBy(order, IndexKey(values, higherBetter), Position)
    ensures forall i | 0 <= i < |r| :: r[i] < |r|
    ensures forall i, j | 0 <= i < j < |r| :: r[i] != r[j]
    ensures forall p | 0 <= p < |r| :: p in r
    ensures forall i, j | 0 <= i < |r| && 0 <= j < |r| && r[i] < r[j] ::
              Sorting.InOrder(RankKey(values[i], higherBetter), RankKey(values[j], higherBetter), higherBetter)
    ensures forall i, j | 0 <= i < j < |r| && RankKey(values[i], higherBetter) == RankKey(values[j], higherBetter) ::
              r[i] < r[j]
  {
    var key := IndexKey(values, higherBetter);
    forall p | 0 <= p < |r| ensures p in r {
      var q := order[p];
      assert order[r[q]] == q;
      assert r[q] == p;
    }
    forall i, j | 0 <= i < |r| && 0 <= j < |r| && r[i] < r[j]
      ensures Sorting.InOrder(RankKey(values[i], higherBetter), RankKey(values[j], higherBetter), higherBetter)
    {
      assert Sorting.InOrder(key(order[r[i]]), key(order[r[j]]), higherBetter);
    }
    forall i, j | 0 <= i < j < |r| && RankKey(values[i], higherBetter) == RankKey(values[j], higherBetter)
      ensures r[i] < r[j]
    {
      assert key(order[r[j]]) == key(order[r[i]]);
    }
  }

  // ---------------------------------------------------------------------------
  // Upper median: `sorted(numeric)[len(numeric) // 2]`
  // ---------------------------------------------------------------------------

  function RealKey(x: real): Sorting.XReal {
    Sorting.Fin(x)
  }

  function Below(m: real): real -> bool {
    x => x < m
  }

  function Above(m: real): real -> bool {
    x => x > m
  }

  /** How many of `xs` are strictly below `m`. */
  function CountBelow(xs: seq<real>, m: real): nat {
    |Filter(xs, Below(m))|
  }

  /** How many of `xs` are strictly above `m`. */
  function CountAbove(xs: seq<real>, m: real): nat {
    |Filter(xs, Above(m))|
  }

  /**
   * `sorted(xs)[len(xs) // 2]`: one of the values, with at most `len // 2`
   * values below it and fewer than `len - len // 2` above it.
   */
  function UpperMedian(xs: seq<real>): (m: real)
    requires |xs| > 0
    ensures m in xs
    ensures CountBelow(xs, m) <= |xs| / 2
    ensures CountAbove(xs, m) < |xs| - |xs| / 2
  {
    var sorted := Sorting.SortBy(xs, RealKey, false);
    MedianCounts(xs, sorted, |xs| / 2);
    sorted[|xs| / 2]
  }

  lemma MedianCounts(xs: seq<real>, sorted: seq<real>, k: nat)
    requires multiset(sorted) == multiset(xs) && Sorting.SortedBy(sorted, RealKey, false)
    requires k < |sorted|
    ensures sorted[k] in xs
    ensures CountBelow(xs, sorted[k]) <= k
    ensures CountAbove(xs, sorted[k]) <= |sorted| - 1 - k
  {
    assert sorted[k] in multiset(xs);
    FilterPermutation(xs, sorted, Below(sorted[k]));
    FilterPermutation(xs, sorted, Above(sorted[k]));
    SortedBelow(sorted, k);
    SortedAbove(sorted, k);
  }

  lemma SortedPair(sorted: seq<real>, i: nat, j: nat)
    requires Sorting.SortedBy(sorted, RealKey, false) && i < j < |sorted|
    ensures sorted[i] <= sorted[j]
  {
    assert Sorting.InOrder(RealKey(sorted[i]), RealKey(sorted[j]), false);
  }

  /** In an ascending list, only the first `k` entries can lie below entry `k`. */
  lemma SortedBelow(sorted: seq<real>, k: nat)
    requires Sorting.SortedBy(sorted, RealKey, false) && k < |sorted|
    ensures |Filter(sorted, Below(sorted[k]))| <= k
  {
    forall i | k < i < |sorted| ensures sorted[k] <= sorted[i] {
      SortedPair(sorted, k, i);
    }
    FewBelow(sorted, k);
  }

  /** When nothing after position `k` lies below entry `k`, at most `k` entries do. */
  lemma FewBelow(s: seq<real>, k: nat)
    requires k < |s| && forall i | k < i < |s| :: s[k] <= s[i]
    ensures |Filter(s, Below(s[k]))| <= k
  {
    FilterNoneFrom(s, Below(s[k]), k);
  }

  /** In an ascending list, only the entries after `k` can lie above entry `k`. */
  lemma SortedAbove(sorted: seq<real>, k: nat)
    requires Sorting.SortedBy(sorted, RealKey, false) && k < |sorted|
    ensures |Filter(sorted, Above(sorted[k]))| <= |sorted| - 1 - k
  {
    forall i | 0 <= i < k ensures sorted[i] <= sorted[k] {
      SortedPair(sorted, i, k);
    }
    FewAbove(sorted, k);
  }

  /** When nothing up to position `k` lies above entry `k`, at most the entries after `k` do. */
  lemma FewAbove(s: seq<real>, k: nat)
    requires k < |s| && forall i | 0 <= i < k :: s[i] <= s[k]
    ensures |Filter(s, Above(s[k]))| <= |s| - 1 - k
  {
    FilterNoneBefore(s, Above(s[k]), k + 1);
  }

  // ---------------------------------------------------------------------------
  // Most common value: `Counter(values).most_common(1)[0][0]`
  // ---------------------------------------------------------------------------

  function Same(v: ParamValue): ParamValue -> bool {
    x => PyEq(x, v)
  }

  /** How many of `s` are Python-equal to `v` (what a `Counter` counts under `v`'s key). */
  function CountEq(s: seq<ParamValue>, v: ParamValue): nat {
    |Filter(s, Same(v))|
  }

  /**
   * The position of `Counter(s).most_common(1)[0][0]`: a value of highest
   * count, and among those the one seen first.
   */
  function ModeIndex(s: seq<ParamValue>): (r: nat)
    requires |s| > 0
    ensures r < |s|
    ensures forall j | 0 <= j < |s| :: CountEq(s, s[j]) <= CountEq(s, s[r])
    ensures forall j | 0 <= j < r :: CountEq(s, s[j]) < CountEq(s, s[r])
  {
    var counts := seq(|s|, i requires 0 <= i < |s| => CountEq(s, s[i]) as real);
    assert forall j | 0 <= j < |s| :: counts[j] == CountEq(s, s[j]) as real;
    FirstArgMax(counts)
  }

  /** `Counter(s).most_common(1)[0][0]` */
  function Mode(s: seq<ParamValue>): ParamValue
    requires |s| > 0
  {
    s[ModeIndex(s)]
  }

  /** A value held by more than half of the list is its most common value. */
  lemma MajorityIsMode(s: seq<ParamValue>, v: ParamValue)
    requires CountEq(s, v) * 2 > |s|
    ensures |s| > 0 && PyEq(Mode(s), v)
  {
    var kept := Filter(s, Same(v));
    assert kept[0] in multiset(kept);
    assert kept[0] in multiset(s);
    var j :| 0 <= j < |s| && s[j] == kept[0];
    assert PyEq(s[j], v);
    forall i | 0 <= i < |s| ensures Same(s[j])(s[i]) == Same(v)(s[i]) {
      PyEqIsEquivalence(s[i], s[j], v);
      PyEqIsEquivalence(s[i], v, s[j]);
      PyEqIsEquivalence(s[j], v, v);
    }
    FilterAgree(s, Same(s[j]), Same(v));
    var m := Mode(s);
    if !PyEq(m, v) {
      forall i | 0 <= i < |s| ensures !(Same(m)(s[i]) && Same(v)(s[i])) {
        PyEqIsEquivalence(m, s[i], v);
        PyEqIsEquivalence(s[i], m, m);
      }
      DisjointFilters(s, Same(m), Same(v));
      assert false;
    }
  }

  // ---------------------------------------------------------------------------
  // plateau
  // ---------------------------------------------------------------------------

  /** `[p[k] for p, _ in runs if k in p]` */
  function RawValues(k: string, runs: seq<Run>): (r: seq<ParamValue>)
    ensures |r| <= |runs|
  {
    if |runs| == 0 then []
    else
      var rest := RawValues(k, runs[1..]);
      match Get(runs[0].0, k)
      case Some(v) => [v] + rest
      case None => rest
  }

  /** Some value of `k` is collected exactly when some run has the key. */
  lemma {:induction false} RawValuesEmpty(k: string, runs: seq<Run>)
    ensures |RawValues(k, runs)| == 0 <==> forall j | 0 <= j < |runs| :: !HasKey(runs[j].0, k)
  {
    if |runs| > 0 {
      RawValuesEmpty(k, runs[1..]);
      assert forall j | 0 <= j < |runs[1..]| :: runs[1..][j] == runs[j + 1];
    }
  }

  /** When every run holding `k` holds `v`, every collected value is `v`. */
  lemma {:induction false} RawValuesConstant(k: string, runs: seq<Run>, v: ParamValue)
    requires forall j | 0 <= j < |runs| && HasKey(runs[j].0, k) :: Get(runs[j].0, k) == Some(v)
    ensures forall i | 0 <= i < |RawValues(k, runs)| :: RawValues(k, runs)[i] == v
  {
    if |runs| > 0 {
      assert forall j | 0 <= j < |runs[1..]| :: runs[1..][j] == runs[j + 1];
      RawValuesConstant(k, runs[1..], v);
    }
  }

  predicate AllBool(s: seq<ParamValue>) {
    forall i | 0 <= i < |s| :: s[i].PBool?
  }

  /** `[float(x) for x in values if isinstance(x, (int, float))]` */
  function Numerics(s: seq<ParamValue>): (r: seq<real>)
    ensures |r| <= |s|
    ensures |r| == 0 <==> forall i | 0 <= i < |s| :: !IsNumeric(s[i])
  {
    if |s| == 0 then []
    else
      var rest := Numerics(s[1..]);
      assert forall i | 0 <= i < |s[1..]| :: s[1..][i] == s[i + 1];
      if IsNumeric(s[0]) then [ToReal(s[0])] + rest else rest
  }

  lemma {:induction false} NumericsConstant(s: seq<ParamValue>, n: int)
    requires forall i | 0 <= i < |s| :: s[i] == PInt(n)
    ensures forall i | 0 <= i < |Numerics(s)| :: Numerics(s)[i] == n as real
  {
    if |s| > 0 {
      NumericsConstant(s[1..], n);
    }
  }

  /**
   * `select_final_params(method='plateau')` for key `k`: a most common value
   * for all-`bool` values; the upper median of the numbers, moved to the
   * closest candidate (as an `int` on an integer grid) or, without
   * candidates, truncated when every value is an `int`; otherwise the most
   * common value. A key no top run holds gets `top_runs[0][0].get(k)`.
   */
  function PlateauValue(k: string, top: seq<Run>, g: Grid): (r: ParamValue)
    requires |top| > 0
    ensures var values := RawValues(k, top);
            |values| > 0 && !AllBool(values) && |Numerics(values)| > 0 && |Candidates(g, k)| > 0
            ==> GridSpace.PyIn(r, Candidates(g, k))
  {
    var values := RawValues(k, top);
    if |values| == 0 then Get(top[0].0, k).GetOr(PNone)
    else if AllBool(values) then Mode(values)
    else
      var numeric := Numerics(values);
      if |numeric| > 0 then
        var med := UpperMedian(numeric);
        var c := Candidates(g, k);
        if |c| > 0 then
          var v := ClosestInList(PReal(med), c);
          OnGrid(v, c);
          if AllIntLike(c) then ToInt(v) else v
        else if AllIntLike(values) then PInt(Trunc(med)) else PReal(med)
      else Mode(values)
  }

  /** A candidate, and its `int()` on an integer grid, are on the grid. */
  lemma OnGrid(v: ParamValue, c: seq<ParamValue>)
    requires v in c
    ensures GridSpace.PyIn(v, c)
    ensures AllIntLike(c) ==> GridSpace.PyIn(ToInt(v), c)
  {
    var i :| 0 <= i < |c| && c[i] == v;
    assert PyEq(c[i], v);
  }

  /**
   * When every top run sets `k` to the same integer and `k` has no grid
   * candidates, the plateau keeps that integer.
   */
  lemma PlateauOfAgreeingRuns(k: string, top: seq<Run>, g: Grid, n: int)
    requires |top| > 0 && HasKey(top[0].0, k)
    requires forall j | 0 <= j < |top| && HasKey(top[j].0, k) :: Get(top[j].0, k) == Some(PInt(n))
    requires |Candidates(g, k)| == 0
    ensures PlateauValue(k, top, g) == PInt(n)
  {
    RawValuesEmpty(k, top);
    RawValuesConstant(k, top, PInt(n));
    ConstantIntValues(RawValues(k, top), n);
    PlateauValueUngridded(k, top, g);
  }

  /** Values that are all the same `int` are numeric, not `bool`, and have that number as upper median. */
  lemma ConstantIntValues(values: seq<ParamValue>, n: int)
    requires |values| > 0 && forall i | 0 <= i < |values| :: values[i] == PInt(n)
    ensures AllIntLike(values) && !AllBool(values)
    ensures |Numerics(values)| > 0 && UpperMedian(Numerics(values)) == n as real
    ensures Trunc(UpperMedian(Numerics(values))) == n
  {
    assert values[0] == PInt(n);
    NumericsConstant(values, n);
    var numeric := Numerics(values);
    assert numeric[0] == n as real;
  }

  /** Without candidates, a key with some number among its values gets the upper median, truncated for all-`int` values. */
  lemma PlateauValueUngridded(k: string, top: seq<Run>, g: Grid)
    requires |top| > 0 && |Candidates(g, k)| == 0
    requires |RawValues(k, top)| > 0 && !AllBool(RawValues(k, top)) && |Numerics(RawValues(k, top))| > 0
    ensures var values := RawValues(k, top);
            var med := UpperMedian(Numerics(values));
            PlateauValue(k, top, g) == if AllIntLike(values) then PInt(Trunc(med)) else PReal(med)
  {
  }

  /** `final`: every key of the first result, in its order, with its plateau value. */
  function PlateauParams(results: seq<Run>, top: seq<Run>, g: Grid): (final: ParamSet)
    requires |results| > 0 && |top| > 0
    ensures KeyList(final) == KeyList(results[0].0)
  {
    var keys := KeyList(results[0].0);
    seq(|keys|, i requires 0 <= i < |keys| => (keys[i], PlateauValue(keys[i], top, g)))
  }

  // ---------------------------------------------------------------------------
  // plateau_freq
  // ---------------------------------------------------------------------------

  /**
   * `select_final_params(method='plateau_freq')` before snapping, for key `k`:
   * the most common value, moved to the closest candidate (an `int` on an
   * integer grid) when it is not among `k`'s candidates.
   */
  function FreqValue(k: string, top: seq<Run>, g: Grid): (r: ParamValue)
    requires |top| > 0
    ensures |RawValues(k, top)| > 0 && |Candidates(g, k)| > 0 ==> GridSpace.PyIn(r, Candidates(g, k))
    ensures |RawValues(k, top)| > 0 && |Candidates(g, k)| == 0 ==> r == Mode(RawValues(k, top))
    ensures |RawValues(k, top)| > 0 && GridSpace.PyIn(Mode(RawValues(k, top)), Candidates(g, k)) ==> r == Mode(RawValues(k, top))
    ensures |RawValues(k, top)| > 0 && |Candidates(g, k)| > 0 && !GridSpace.PyIn(Mode(RawValues(k, top)), Candidates(g, k)) ==>
              r == SnapValue(Mode(RawValues(k, top)), Candidates(g, k))
  {
    var values := RawValues(k, top);
    if |values| == 0 then Get(top[0].0, k).GetOr(PNone) else ModeOnGrid(values, Candidates(g, k))
  }

  /**
   * The frequency value of a key with some `values` and candidates `c`: the
   * most common value when there are no candidates or it is on the grid
   * (Python `in`), otherwise its closest candidate, an `int` on an integer grid.
   */
  function ModeOnGrid(values: seq<ParamValue>, c: seq<ParamValue>): (r: ParamValue)
    requires |values| > 0
    ensures |c| > 0 ==> GridSpace.PyIn(r, c)
    ensures |c| == 0 || GridSpace.PyIn(Mode(values), c) ==> r == Mode(values)
    ensures |c| > 0 && !GridSpace.PyIn(Mode(values), c) ==> r == SnapValue(Mode(values), c)
  {
    var mode := Mode(values);
    if |c| > 0 && !GridSpace.PyIn(mode, c) then
      var v := ClosestInList(if IsNumeric(mode) then PReal(ToReal(mode)) else mode, c);
      OnGrid(v, c);
      if AllIntLike(c) then ToInt(v) else v
    else mode
  }

  /** Every key of the first result with its frequency value, snapped to the grid. */
  function FreqSnapped(results: seq<Run>, top: seq<Run>, g: Grid): (p: ParamSet)
    requires |results| > 0 && |top| > 0
    ensures KeyList(p) == KeyList(results[0].0)
  {
    var keys := KeyList(results[0].0);
    var modes := seq(|keys|, i requires 0 <= i < |keys| => (keys[i], FreqValue(keys[i], top, g)));
    SnapParamsToGrid(modes, g)
  }

  /**
   * `plateau_freq`'s `final`: the snapped frequency values when a result
   * matches them, otherwise the parameters of the first result nearest to
   * them in grid steps (a missing key reads as None).
   */
  function PlateauFreqParams(results: seq<Run>, top: seq<Run>, g: Grid): (final: ParamSet)
    requires |results| > 0 && |top| > 0
    ensures ParamsInResults(FreqSnapped(results, top, g), results) ==> final == FreqSnapped(results, top, g)
    ensures !ParamsInResults(FreqSnapped(results, top, g), results) ==>
              final == results[NearestIndex(results, FreqSnapped(results, top, g), GridSpace.GriddedKeys(results[0].0, g), g)].0
  {
    var snapped := FreqSnapped(results, top, g);
    var keys := GridSpace.GriddedKeys(results[0].0, g);
    var final := MatchOrNearest(results, snapped, keys, g);
    if !ParamsInResults(snapped, results) then
      NearestIsMatchOrNearest(results, snapped, keys, g, final);
      final
    else final
  }

  /** The first nearest result is unique, so the fallback is the one `NearestIndex` finds. */
  lemma NearestIsMatchOrNearest(results: seq<Run>, target: ParamSet, keys: seq<string>, g: Grid, final: ParamSet)
    requires |results| > 0 && !ParamsInResults(target, results)
    requires final == MatchOrNearest(results, target, keys, g)
    ensures final == results[NearestIndex(results, target, keys, g)].0
  {
    var n := NearestIndex(results, target, keys, g);
    var b :| 0 <= b < |results| && final == results[b].0
      && (forall j | 0 <= j < |results| ::
            GridSpace.GridDistance(results[b].0, target, keys, g, PNone) <= GridSpace.GridDistance(results[j].0, target, keys, g, PNone))
      && (forall j | 0 <= j < b ::
            GridSpace.GridDistance(results[b].0, target, keys, g, PNone) < GridSpace.GridDistance(results[j].0, target, keys, g, PNone));
    assert !(n < b) && !(b < n);
  }

  /**
   * The fallback of `plateau_freq`: `target` itself when
   * some result matches it, otherwise the parameters of the first result at
   * minimal grid distance from it over `keys` (the strict `d < best_dist`
   * keeps the earliest).
   */
  function MatchOrNearest(results: seq<Run>, target: ParamSet, keys: seq<string>, g: Grid): (final: ParamSet)
    requires |results| > 0
    ensures ParamsInResults(target, results) ==> final == target
    ensures !ParamsInResults(target, results) ==>
              exists b :: 0 <= b < |results| && final == results[b].0
                && (forall j | 0 <= j < |results| ::
                      GridSpace.GridDistance(results[b].0, target, keys, g, PNone) <= GridSpace.GridDistance(results[j].0, target, keys, g, PNone))
                && (forall j | 0 <= j < b ::
                      GridSpace.GridDistance(results[b].0, target, keys, g, PNone) < GridSpace.GridDistance(results[j].0, target, keys, g, PNone))
  {
    if ParamsInResults(target, results) then target
    else results[NearestIndex(results, target, keys, g)].0
  }

  /** The first result nearest to `target` in grid steps over `keys`, a missing key reading as None. */
  function NearestIndex(results: seq<Run>, target: ParamSet, keys: seq<string>, g: Grid): (b: nat)
    requires |results| > 0
    ensures b < |results|
    ensures forall j | 0 <= j < |results| ::
              GridSpace.GridDistance(results[b].0, target, keys, g, PNone) <= GridSpace.GridDistance(results[j].0, target, keys, g, PNone)
    ensures forall j | 0 <= j < b ::
              GridSpace.GridDistance(results[b].0, target, keys, g, PNone) < GridSpace.GridDistance(results[j].0, target, keys, g, PNone)
  {
    FirstArgMinInt(Distances(results, target, keys, g))
  }

  function Distances(results: seq<Run>, target: ParamSet, keys: seq<string>, g: Grid): (d: seq<int>)
    ensures |d| == |results|
    ensures forall j | 0 <= j < |results| :: d[j] == GridSpace.GridDistance(results[j].0, target, keys, g, PNone)
  {
    seq(|results|, i requires 0 <= i < |results| => GridSpace.GridDistance(results[i].0, target, keys, g, PNone))
  }

  /** Every result is a dict: no key appears twice. */
  predicate AllDicts(results: seq<Run>) {
    forall i | 0 <= i < |results| :: DistinctKeys(results[i].0)
  }

  /** The parameters `plateau_freq` returns always match an evaluated result. */
  lemma PlateauFreqIsEvaluated(results: seq<Run>, top: seq<Run>, g: Grid)
    requires |results| > 0 && |top| > 0 && AllDicts(results)
    ensures ParamsInResults(PlateauFreqParams(results, top, g), results)
  {
    var snapped := FreqSnapped(results, top, g);
    if !ParamsInResults(snapped, results) {
      var final := PlateauFreqParams(results, top, g);
      var b :| 0 <= b < |results| && final == results[b].0;
      ParamsMatchReflexive(results[b].0);
    }
  }

  // ---------------------------------------------------------------------------
  // robust
  // ---------------------------------------------------------------------------

  function Metrics(results: seq<Run>): (r: seq<Option<real>>)
    ensures |r| == |results|
    ensures forall i | 0 <= i < |results| :: r[i] == results[i].1
  {
    seq(|results|, i requires 0 <= i < |results| => results[i].1)
  }

  /** `compute_robustness_score` of every result. */
  function RobustnessScores(results: seq<Run>, g: Grid, radius: int, sqrt: real -> real): (r: seq<Option<real>>)
    requires IsSqrt(sqrt)
    ensures |r| == |results|
  {
    seq(|results|, i requires 0 <= i < |results| => Some(GridSpace.ComputeRobustnessScore(i, results, g, radius, sqrt)))
  }

  /** `alpha * ranks_metric[i] + (1 - alpha) * ranks_robust[i]` */
  function Composite(rm: seq<nat>, rr: seq<nat>, alpha: real): (c: seq<real>)
    requires |rm| == |rr|
    ensures |c| == |rm|
    ensures alpha == 1.0 ==> forall i | 0 <= i < |c| :: c[i] == rm[i] as real
  {
    seq(|rm|, i requires 0 <= i < |rm| => alpha * rm[i] as real + (1.0 - alpha) * rr[i] as real)
  }

  /**
   * `robust` as written: the first index of highest composite, from ranks in
   * which 0 is the best.
   */
  function RobustIndexAsWritten(results: seq<Run>, g: Grid, maximize: bool, alpha: real, radius: int,
                                sqrt: real -> real): (b: nat)
    requires |results| > 0 && IsSqrt(sqrt)
    ensures b < |results|
    ensures var c := Composite(RankValues(Metrics(results), maximize), RankValues(RobustnessScores(results, g, radius, sqrt), true), alpha);
            (forall j | 0 <= j < |c| :: c[j] <= c[b]) && (forall j | 0 <= j < b :: c[j] < c[b])
  {
    var rm := RankValues(Metrics(results), maximize);
    var rr := RankValues(RobustnessScores(results, g, radius, sqrt), true);
    FirstArgMax(Composite(rm, rr, alpha))
  }

  /**
   * With all weight on performance, `robust` as written returns a result
   * whose metric is no better than any other: the highest composite is the
   * worst rank.
   */
  lemma RobustAsWrittenPicksWorst(results: seq<Run>, g: Grid, maximize: bool, radius: int, sqrt: real -> real)
    requires |results| > 0 && IsSqrt(sqrt)
    ensures var b := RobustIndexAsWritten(results, g, maximize, 1.0, radius, sqrt);
            forall j | 0 <= j < |results| ::
              Sorting.InOrder(RankKey(results[j].1, maximize), RankKey(results[b].1, maximize), maximize)
  {
    var metrics := Metrics(results);
    var rm := RankValues(metrics, maximize);
    var rr := RankValues(RobustnessScores(results, g, radius, sqrt), true);
    var c := Composite(rm, rr, 1.0);
    var b := FirstArgMax(c);
    var n := |results|;
    assert n - 1 in rm;
    var top :| 0 <= top < n && rm[top] == n - 1;
    assert c[b] >= c[top];
    assert rm[b] == n - 1;
    forall j | 0 <= j < n
      ensures Sorting.InOrder(RankKey(results[j].1, maximize), RankKey(results[b].1, maximize), maximize)
    {
      if j != b {
        assert rm[j] < rm[b];
      } else {
        Sorting.XLeTotal(RankKey(results[j].1, maximize), RankKey(results[j].1, maximize));
      }
    }
  }

  /**
   * For any weighting `0 <= alpha <= 1`, as written no other result has a
   * strictly larger rank on both performance and robustness than the one
   * `robust` returns; with rank 0 the best, that means no result is
   * strictly worse on both counts.
   */
  lemma RobustAsWrittenNotDominated(results: seq<Run>, g: Grid, maximize: bool, alpha: real, radius: int, sqrt: real -> real)
    requires |results| > 0 && IsSqrt(sqrt) && 0.0 <= alpha <= 1.0
    ensures var b := RobustIndexAsWritten(results, g, maximize, alpha, radius, sqrt);
            var rm := RankValues(Metrics(results), maximize);
            var rr := RankValues(RobustnessScores(results, g, radius, sqrt), true);
            forall j | 0 <= j < |results| :: !(rm[j] > rm[b] && rr[j] > rr[b])
  {
    var b := RobustIndexAsWritten(results, g, maximize, alpha, radius, sqrt);
    var rm := RankValues(Metrics(results), maximize);
    var rr := RankValues(RobustnessScores(results, g, radius, sqrt), true);
    ArgMaxNotDominated(rm, rr, alpha, b);
  }

  /** Two results with metrics 2.0 and 1.0, maximised: as written, `robust` with alpha 1 returns the second. */
  lemma RobustAsWrittenExample(sqrt: real -> real)
    requires IsSqrt(sqrt)
    ensures RobustIndexAsWritten([([("a", PInt(1))], Some(2.0)), ([("a", PInt(2))], Some(1.0))], [], true, 1.0, 1, sqrt) == 1
  {
    var results := [([("a", PInt(1))], Some(2.0)), ([("a", PInt(2))], Some(1.0))];
    RobustAsWrittenPicksWorst(results, [], true, 1, sqrt);
    var b := RobustIndexAsWritten(results, [], true, 1.0, 1, sqrt);
    assert Sorting.InOrder(RankKey(results[1].1, true), RankKey(results[b].1, true), true);
  }

  /**
   * Ranks in which the best value is highest (`n - 1`) and None lowest, as
   * the documentation of `_rank_values` describes.
   */
  function RankValuesBestHighest(values: seq<Option<real>>, higherBetter: bool): (r: seq<nat>)
    ensures |r| == |values|
    ensures forall i | 0 <= i < |r| :: r[i] < |r|
    ensures forall i, j | 0 <= i < j < |r| :: r[i] != r[j]
    ensures forall p | 0 <= p < |r| :: p in r
    ensures forall i, j | 0 <= i < |r| && 0 <= j < |r| && r[i] > r[j] ::
              Sorting.InOrder(RankKey(values[i], higherBetter), RankKey(values[j], higherBetter), higherBetter)
  {
    var asc := RankValues(values, higherBetter);
    var r := Flipped(asc);
    FlipRanks(values, higherBetter, asc, r);
    r
  }

  /** Each rank counted from the other end. */
  function Flipped(asc: seq<nat>): (r: seq<nat>)
    requires forall i | 0 <= i < |asc| :: asc[i] < |asc|
    ensures |r| == |asc| && forall i | 0 <= i < |r| :: r[i] == |asc| - 1 - asc[i]
  {
    seq(|asc|, i requires 0 <= i < |asc| => |asc| - 1 - asc[i])
  }

  /** Counting ranks from the other end still gives each rank `0..n-1` exactly once, in the reverse order. */
  lemma FlipRanks(values: seq<Option<real>>, higherBetter: bool, asc: seq<nat>, r: seq<nat>)
    requires |asc| == |values|
    requires forall i | 0 <= i < |asc| :: asc[i] < |asc|
    requires forall i, j | 0 <= i < j < |asc| :: asc[i] != asc[j]
    requires forall p | 0 <= p < |asc| :: p in asc
    requires forall i, j | 0 <= i < |asc| && 0 <= j < |asc| && asc[i] < asc[j] ::
               Sorting.InOrder(RankKey(values[i], higherBetter), RankKey(values[j], higherBetter), higherBetter)
    requires |r| == |asc| && forall i | 0 <= i < |r| :: r[i] == |asc| - 1 - asc[i]
    ensures forall i, j | 0 <= i < j < |r| :: r[i] != r[j]
    ensures forall p | 0 <= p < |r| :: p in r
    ensures forall i, j | 0 <= i < |r| && 0 <= j < |r| && r[i] > r[j] ::
              Sorting.InOrder(RankKey(values[i], higherBetter), RankKey(values[j], higherBetter), higherBetter)
  {
    var n := |asc|;
    forall p | 0 <= p < n ensures p in r {
      assert n - 1 - p in asc;
      var i :| 0 <= i < n && asc[i] == n - 1 - p;
      assert r[i] == p;
    }
    forall i, j | 0 <= i < |r| && 0 <= j < |r| && r[i] > r[j]
      ensures Sorting.InOrder(RankKey(values[i], higherBetter), RankKey(values[j], higherBetter), higherBetter)
    {
      assert asc[i] < asc[j];
    }
  }

  /** `robust` with ranks in which higher is better: the first index of highest composite. */
  function RobustIndex(results: seq<Run>, g: Grid, maximize: bool, alpha: real, radius: int,
                       sqrt: real -> real): (b: nat)
    requires |results| > 0 && IsSqrt(sqrt)
    ensures b < |results|
    ensures var c := Composite(RankValuesBestHighest(Metrics(results), maximize),
                               RankValuesBestHighest(RobustnessScores(results, g, radius, sqrt), true), alpha);
            (forall j | 0 <= j < |c| :: c[j] <= c[b]) && (forall j | 0 <= j < b :: c[j] < c[b])
  {
    var rm := RankValuesBestHighest(Metrics(results), maximize);
    var rr := RankValuesBestHighest(RobustnessScores(results, g, radius, sqrt), true);
    FirstArgMax(Composite(rm, rr, alpha))
  }

  /**
   * For any weighting `0 <= alpha <= 1`, no other result ranks strictly
   * higher on both performance and robustness than the one `robust` returns.
   */
  lemma RobustIndexNotDominated(results: seq<Run>, g: Grid, maximize: bool, alpha: real, radius: int, sqrt: real -> real)
    requires |results| > 0 && IsSqrt(sqrt) && 0.0 <= alpha <= 1.0
    ensures var b := RobustIndex(results, g, maximize, alpha, radius, sqrt);
            var rm := RankValuesBestHighest(Metrics(results), maximize);
            var rr := RankValuesBestHighest(RobustnessScores(results, g, radius, sqrt), true);
            forall j | 0 <= j < |results| :: !(rm[j] > rm[b] && rr[j] > rr[b])
  {
    var b := RobustIndex(results, g, maximize, alpha, radius, sqrt);
    var rm := RankValuesBestHighest(Metrics(results), maximize);
    var rr := RankValuesBestHighest(RobustnessScores(results, g, radius, sqrt), true);
    ArgMaxNotDominated(rm, rr, alpha, b);
  }

  /** An argmax of the weighted ranks is not beaten on both ranks by any other index. */
  lemma ArgMaxNotDominated(rm: seq<nat>, rr: seq<nat>, alpha: real, b: nat)
    requires |rm| == |rr| && b < |rm| && 0.0 <= alpha <= 1.0
    requires var c := Composite(rm, rr, alpha); forall j | 0 <= j < |c| :: c[j] <= c[b]
    ensures forall j | 0 <= j < |rm| :: !(rm[j] > rm[b] && rr[j] > rr[b])
  {
    forall j | 0 <= j < |rm| && rm[j] > rm[b] && rr[j] > rr[b]
      ensures Composite(rm, rr, alpha)[b] < Composite(rm, rr, alpha)[j]
    {
      CompositeGrows(rm, rr, alpha, b, j);
    }
  }

  /** An index ranked higher on both counts has the higher weighted rank. */
  lemma CompositeGrows(rm: seq<nat>, rr: seq<nat>, alpha: real, i: nat, j: nat)
    requires |rm| == |rr| && i < |rm| && j < |rm| && 0.0 <= alpha <= 1.0
    requires rm[i] < rm[j] && rr[i] < rr[j]
    ensures Composite(rm, rr, alpha)[i] < Composite(rm, rr, alpha)[j]
  {
    WeightedMeanGrows(rm[i] as real, rr[i] as real, rm[j] as real, rr[j] as real, alpha);
  }

  /** A weighted mean of two values grows when both values grow. */
  lemma WeightedMeanGrows(x: real, y: real, x2: real, y2: real, alpha: real)
    requires x < x2 && y < y2 && 0.0 <= alpha <= 1.0
    ensures alpha * x + (1.0 - alpha) * y < alpha * x2 + (1.0 - alpha) * y2
  {
    var beta := 1.0 - alpha;
    var dx, dy := alpha * (x2 - x), beta * (y2 - y);
    assert alpha * x2 == alpha * x + dx;
    assert beta * y2 == beta * y + dy;
    if alpha > 0.0 {
      MulLt(0.0, x2 - x, alpha);
      MulLe(0.0, y2 - y, beta);
      assert dx > 0.0 && dy >= 0.0;
    } else {
      assert alpha == 0.0 && beta == 1.0;
      assert dx == 0.0 && dy == y2 - y;
    }
  }

  /** With all weight on performance, `robust` returns a result whose metric is at least as good as any other. */
  lemma RobustPicksBest(results: seq<Run>, g: Grid, maximize: bool, radius: int, sqrt: real -> real)
    requires |results| > 0 && IsSqrt(sqrt)
    ensures var b := RobustIndex(results, g, maximize, 1.0, radius, sqrt);
            forall j | 0 <= j < |results| ::
              Sorting.InOrder(RankKey(results[b].1, maximize), RankKey(results[j].1, maximize), maximize)
  {
    var metrics := Metrics(results);
    var rm := RankValuesBestHighest(metrics, maximize);
    var rr := RankValuesBestHighest(RobustnessScores(results, g, radius, sqrt), true);
    var c := Composite(rm, rr, 1.0);
    var b := FirstArgMax(c);
    var n := |results|;
    assert n - 1 in rm;
    var top :| 0 <= top < n && rm[top] == n - 1;
    assert c[b] >= c[top];
    assert rm[b] == n - 1;
    forall j | 0 <= j < n
      ensures Sorting.InOrder(RankKey(results[b].1, maximize), RankKey(results[j].1, maximize), maximize)
    {
      if j != b {
        assert rm[j] < rm[b];
      } else {
        Sorting.XLeTotal(RankKey(results[j].1, maximize), RankKey(results[j].1, maximize));
      }
    }
  }

  // ---------------------------------------------------------------------------
  // select_final_params
  // ---------------------------------------------------------------------------

  /** The selection methods modelled; `Other` stands for a name the function does not recognise (see `MethodOf`). */
  datatype Method = Best | Plateau | PlateauFreq | Robust | Other(name: string)

  /**
   * The string dispatch of `select_final_params`: each modelled name selects
   * its branch; `plateau_kde` and `cluster` are recognised but not modelled,
   * so they give None; any other name is `Other`.
   */
  function MethodOf(name: string): (m: Option<Method>)
    ensures name == "best" <==> m == Some(Best)
    ensures name == "plateau" <==> m == Some(Plateau)
    ensures name == "plateau_freq" <==> m == Some(PlateauFreq)
    ensures name == "robust" <==> m == Some(Robust)
    ensures m.None? <==> name == "plateau_kde" || name == "cluster"
    ensures m.Some? && m.value.Other? ==> m.value.name == name
  {
    if name == "best" then Some(Best)
    else if name == "plateau" then Some(Plateau)
    else if name == "plateau_freq" then Some(PlateauFreq)
    else if name == "robust" then Some(Robust)
    else if name == "plateau_kde" || name == "cluster" then None
    else Some(Other(name))
  }

  /** The keyword arguments of `select_final_params`. */
  datatype Options = Options(topPct: real, maximize: bool, gridCandidates: Grid, robustAlpha: real,
                             robustRadius: int, plateauThreshold: Option<real>)

  /** `top_pct=0.2, maximize=True, grid_candidates=None, robust_alpha=0.7, robust_radius=1, plateau_threshold=None` */
  const DefaultOptions := Options(0.2, true, [], 0.7, 1, None)

  /** The grid `select_final_params` works with: the given candidates, or those built from the results. */
  function SelectionGrid(results: seq<Run>, opts: Options): Grid
    requires |results| > 0
  {
    GridSpace.BuildGridCandidates(KeyList(results[0].0), results, opts.gridCandidates)
  }

  /**
   * `select_final_params`: `({}, None)` without results; the first result
   * for `best` and unknown methods; for `plateau` and `plateau_freq` the
   * method's parameters with the metric of the first result matching them
   * (the first result's metric when none does); for `robust` the result at
   * the highest composite of the ranks as `_rank_values` computes them, in
   * which 0 is the best.
   */
  function SelectFinalParams(results: seq<Run>, how: Method, opts: Options, sqrt: real -> real): (r: Run)
    requires IsSqrt(sqrt)
    ensures |results| == 0 ==> r == ([], None)
    ensures |results| > 0 && (how.Best? || how.Other?) ==> r == results[0]
    ensures |results| > 0 && how.Robust? ==> r in results
    ensures |results| > 0 && how.Robust? ==>
              r == results[RobustIndexAsWritten(results, SelectionGrid(results, opts), opts.maximize,
                                                opts.robustAlpha, opts.robustRadius, sqrt)]
    ensures |results| > 0 && how.Plateau? ==> KeyList(r.0) == KeyList(results[0].0)
    ensures |results| > 0 && (how.Plateau? || how.PlateauFreq?) ==> r.1 == ChosenValue(r.0, results)
    ensures |results| > 0 ==> exists i :: 0 <= i < |results| && r.1 == results[i].1
  {
    if |results| == 0 then ([], None)
    else if how.Best? then results[0]
    else
      var g := SelectionGrid(results, opts);
      var top := TopRuns(results, opts.topPct, opts.plateauThreshold, opts.maximize);
      if how.Plateau? then
        var final := PlateauParams(results, top, g);
        (final, ChosenValue(final, results))
      else if how.PlateauFreq? then
        var final := PlateauFreqParams(results, top, g);
        (final, ChosenValue(final, results))
      else if how.Robust? then
        var b := RobustIndexAsWritten(results, g, opts.maximize, opts.robustAlpha, opts.robustRadius, sqrt);
        results[b]
      else results[0]
  }

  /**
   * With all weight on performance, `select_final_params(method='robust')`
   * returns a result whose metric is no better than any other's.
   */
  lemma SelectRobustPicksWorst(results: seq<Run>, opts: Options, sqrt: real -> real)
    requires IsSqrt(sqrt) && |results| > 0 && opts.robustAlpha == 1.0
    ensures var r := SelectFinalParams(results, Robust, opts, sqrt);
            forall j | 0 <= j < |results| ::
              Sorting.InOrder(RankKey(results[j].1, opts.maximize), RankKey(r.1, opts.maximize), opts.maximize)
  {
    RobustAsWrittenPicksWorst(results, SelectionGrid(results, opts), opts.maximize, opts.robustRadius, sqrt);
  }

  /** Two maximised results with metrics 2.0 and 1.0: `robust` with alpha 1 returns the 1.0 result. */
  lemma SelectRobustExample(sqrt: real -> real)
    requires IsSqrt(sqrt)
    ensures var results := [([("a", PInt(1))], Some(2.0)), ([("a", PInt(2))], Some(1.0))];
            SelectFinalParams(results, Robust, DefaultOptions.(robustAlpha := 1.0), sqrt) == results[1]
  {
    var results := [([("a", PInt(1))], Some(2.0)), ([("a", PInt(2))], Some(1.0))];
    var opts := DefaultOptions.(robustAlpha := 1.0);
    SelectRobustPicksWorst(results, opts, sqrt);
    var r := SelectFinalParams(results, Robust, opts, sqrt);
    assert Sorting.InOrder(RankKey(results[0].1, true), RankKey(r.1, true), true);
  }

  /**
   * With `plateau_freq` on dicts, the reported metric is that of a result
   * whose parameters match the returned ones.
   */
  lemma PlateauFreqReportsItsOwnMetric(results: seq<Run>, opts: Options, sqrt: real -> real)
    requires IsSqrt(sqrt) && |results| > 0 && AllDicts(results)
    ensures var r := SelectFinalParams(results, PlateauFreq, opts, sqrt);
            exists i :: 0 <= i < |results| && ParamsMatch(r.0, results[i].0) && r.1 == results[i].1
  {
    var g := SelectionGrid(results, opts);
    var top := TopRuns(results, opts.topPct, opts.plateauThreshold, opts.maximize);
    var final := PlateauFreqParams(results, top, g);
    PlateauFreqIsEvaluated(results, top, g);
    var v := ChosenValue(final, results);
    var i :| 0 <= i < |results| && ParamsMatch(final, results[i].0) && v == results[i].1;
    assert SelectFinalParams(results, PlateauFreq, opts, sqrt) == (final, v);
  }
}

=== FILE: seqs.dfy ===
/**
 * Sequence helpers shared by the optimizer and the screener: list
 * comprehensions with a condition, first arg-max / arg-min as Python's
 * `max(range(n), key=...)` and a strict `<` scan pick them, and counting.
 */
module Seqs {

  /** `r` is `s` with some elements dropped and the rest kept in order. */
  predicate SubseqOf<T(==)>(r: seq<T>, s: seq<T>)
    decreases |s|
  {
    if |r| == 0 then true
    else if |s| == 0 then false
    else (r[0] == s[0] && SubseqOf(r[1..], s[1..])) || SubseqOf(r, s[1..])
  }

  lemma SubseqRefl<T>(s: seq<T>)
    ensures SubseqOf(s, s)
  {
    if |s| > 0 { SubseqRefl(s[1..]); }
  }

  lemma {:induction false} SubseqTrans<T>(a: seq<T>, b: seq<T>, c: seq<T>)
    requires SubseqOf(a, b) && SubseqOf(b, c)
    ensures SubseqOf(a, c)
    decreases |c|
  {
    if |a| > 0 {
      assert |b| > 0 && |c| > 0;
      if b[0] == c[0] && SubseqOf(b[1..], c[1..]) {
        if a[0] == b[0] && SubseqOf(a[1..], b[1..]) {
          SubseqTrans(a[1..], b[1..], c[1..]);
        } else {
          SubseqTrans(a, b[1..], c[1..]);
        }
      } else {
        SubseqTrans(a, b, c[1..]);
      }
    }
  }

  lemma {:induction false} SubseqMembers<T>(r: seq<T>, s: seq<T>)
    requires SubseqOf(r, s)
    ensures forall x | x in r :: x in s
    decreases |s|
  {
    if |r| > 0 {
      if r[0] == s[0] && SubseqOf(r[1..], s[1..]) {
        SubseqMembers(r[1..], s[1..]);
        forall x | x in r ensures x in s {
          if x != r[0] { assert x in r[1..]; }
        }
      } else {
        SubseqMembers(r, s[1..]);
      }
    }
  }

  /** A prefix keeps its elements in order. */
  lemma {:induction false} PrefixIsSubseq<T>(r: seq<T>, s: seq<T>)
    requires r <= s
    ensures SubseqOf(r, s)
  {
    if |r| > 0 {
      assert r[1..] <= s[1..];
      PrefixIsSubseq(r[1..], s[1..]);
    }
  }

  /** `[x for x in s if f(x)]` */
  function Filter<T(!new)>(s: seq<T>, f: T -> bool): (r: seq<T>)
    ensures |r| <= |s|
    ensures forall x | x in r :: f(x)
    ensures forall x :: multiset(r)[x] == if f(x) then multiset(s)[x] else 0
  {
    if |s| == 0 then []
    else
      var rest := Filter(s[1..], f);
      assert s == [s[0]] + s[1..];
      if f(s[0]) then [s[0]] + rest else rest
  }

  /** The comprehension keeps the order of `s`. */
  lemma {:induction false} FilterIsSubseq<T(!new)>(s: seq<T>, f: T -> bool)
    ensures SubseqOf(Filter(s, f), s)
  {
    if |s| > 0 {
      FilterIsSubseq(s[1..], f);
      var rest := Filter(s[1..], f);
      if f(s[0]) {
        assert ([s[0]] + rest)[1..] == rest;
      } else if |rest| > 0 {
        assert SubseqOf(rest, s[1..]);
      }
    }
  }

  /** Filtering twice keeps what both conditions keep. */
  lemma {:induction false} FilterFilter<T(!new)>(s: seq<T>, f: T -> bool, g: T -> bool, both: T -> bool)
    requires forall i | 0 <= i < |s| :: both(s[i]) == (f(s[i]) && g(s[i]))
    ensures Filter(Filter(s, f), g) == Filter(s, both)
  {
    if |s| > 0 {
      FilterFilter(s[1..], f, g, both);
      var rest := Filter(s[1..], f);
      if f(s[0]) {
        assert ([s[0]] + rest)[1..] == rest;
      }
    }
  }

  /** Two filters keep the same elements whichever runs first. */
  lemma {:induction false} FilterCommute<T(!new)>(s: seq<T>, f: T -> bool, g: T -> bool)
    ensures Filter(Filter(s, f), g) == Filter(Filter(s, g), f)
  {
    if |s| > 0 {
      FilterCommute(s[1..], f, g);
      var fr, gr := Filter(s[1..], f), Filter(s[1..], g);
      if f(s[0]) {
        assert ([s[0]] + fr)[1..] == fr;
      }
      if g(s[0]) {
        assert ([s[0]] + gr)[1..] == gr;
      }
    }
  }

  /** A filter whose condition holds everywhere keeps everything. */
  lemma {:induction false} FilterAll<T(!new)>(s: seq<T>, f: T -> bool)
    requires forall i | 0 <= i < |s| :: f(s[i])
    ensures Filter(s, f) == s
  {
    if |s| > 0 {
      FilterAll(s[1..], f);
      assert s == [s[0]] + s[1..];
    }
  }

  /** Filtering a concatenation filters each part. */
  lemma {:induction false} FilterAppend<T(!new)>(a: seq<T>, b: seq<T>, f: T -> bool)
    ensures Filter(a + b, f) == Filter(a, f) + Filter(b, f)
  {
    if |a| == 0 {
      assert a + b == b;
    } else {
      assert (a + b)[0] == a[0] && (a + b)[1..] == a[1..] + b;
      FilterAppend(a[1..], b, f);
    }
  }

  /** A condition that holds nowhere keeps nothing. */
  lemma {:induction false} FilterNone<T(!new)>(s: seq<T>, f: T -> bool)
    requires forall i | 0 <= i < |s| :: !f(s[i])
    ensures Filter(s, f) == []
  {
    if |s| > 0 {
      FilterNone(s[1..], f);
    }
  }

  /** A condition that fails on the first `k` elements keeps at most the other `|s| - k`. */
  lemma {:induction false} FilterNoneBefore<T(!new)>(s: seq<T>, f: T -> bool, k: nat)
    requires k <= |s| && forall i | 0 <= i < k :: !f(s[i])
    ensures |Filter(s, f)| <= |s| - k
  {
    if k > 0 {
      var t := s[1..];
      forall i | 0 <= i < k - 1 ensures !f(t[i]) {
        assert t[i] == s[i + 1];
      }
      FilterNoneBefore(t, f, k - 1);
      assert Filter(s, f) == Filter(t, f);
    }
  }

  /** A condition that fails from position `k` on keeps at most `k` elements. */
  lemma {:induction false} FilterNoneFrom<T(!new)>(s: seq<T>, f: T -> bool, k: nat)
    requires forall i | k <= i < |s| :: !f(s[i])
    ensures |Filter(s, f)| <= k
  {
    if |s| > 0 {
      var t := s[1..];
      var k' := if k > 0 then k - 1 else 0;
      forall i | k' <= i < |t| ensures !f(t[i]) {
        assert t[i] == s[i + 1];
      }
      FilterNoneFrom(t, f, k');
    }
  }

  /** Rearranging a sequence does not change how many elements a condition keeps. */
  lemma FilterPermutation<T(!new)>(a: seq<T>, b: seq<T>, f: T -> bool)
    requires multiset(a) == multiset(b)
    ensures |Filter(a, f)| == |Filter(b, f)|
  {
    var fa, fb := Filter(a, f), Filter(b, f);
    assert multiset(fa) == multiset(fb);
    assert |fa| == |multiset(fa)| && |fb| == |multiset(fb)|;
  }

  /** Two conditions that never hold together keep at most the whole sequence between them. */
  lemma {:induction false} DisjointFilters<T(!new)>(s: seq<T>, f: T -> bool, g: T -> bool)
    requires forall i | 0 <= i < |s| :: !(f(s[i]) && g(s[i]))
    ensures |Filter(s, f)| + |Filter(s, g)| <= |s|
  {
    if |s| > 0 {
      DisjointFilters(s[1..], f, g);
    }
  }

  /** Conditions that agree on every element keep the same elements. */
  lemma {:induction false} FilterAgree<T(!new)>(s: seq<T>, f: T -> bool, g: T -> bool)
    requires forall i | 0 <= i < |s| :: f(s[i]) == g(s[i])
    ensures Filter(s, f) == Filter(s, g)
  {
    if |s| > 0 {
      FilterAgree(s[1..], f, g);
    }
  }

  /** `list(range(n))` */
  function Range(n: nat): (r: seq<nat>)
    ensures |r| == n
    ensures forall i | 0 <= i < n :: r[i] == i
  {
    seq(n, i requires 0 <= i < n => i)
  }

  /** The position of `x` in `s`, for an `x` that occurs in `s`. */
  function IndexOf<T(==)>(s: seq<T>, x: T): (r: nat)
    requires x in s
    ensures r < |s| && s[r] == x
    ensures forall j | 0 <= j < r :: s[j] != x
  {
    if s[0] == x then 0 else 1 + IndexOf(s[1..], x)
  }

  /** The first position holding `true`, or `|s|` when there is none. */
  function FirstTrue(s: seq<bool>): (r: nat)
    ensures r <= |s|
    ensures r < |s| ==> s[r]
    ensures forall j | 0 <= j < r :: !s[j]
  {
    if |s| == 0 || s[0] then 0 else 1 + FirstTrue(s[1..])
  }

  /** `[i for i in range(n) if f(i)]` */
  function IndicesWhere(n: nat, f: nat -> bool): (r: seq<nat>)
    ensures forall a | 0 <= a < |r| :: r[a] < n
    ensures forall a, b | 0 <= a < b < |r| :: r[a] < r[b]
    ensures forall i | 0 <= i < n :: i in r <==> f(i)
  {
    if n == 0 then []
    else
      var rest := IndicesWhere(n - 1, f);
      if f(n - 1) then rest + [n - 1] else rest
  }

  /** `max(range(|s|), key=lambda i: s[i])`: the first index holding the maximum. */
  function FirstArgMax(s: seq<real>): (r: nat)
    requires |s| > 0
    ensures r < |s|
    ensures forall j | 0 <= j < |s| :: s[j] <= s[r]
    ensures forall j | 0 <= j < r :: s[j] < s[r]
  {
    if |s| == 1 then 0
    else
      var last := |s| - 1;
      var j := FirstArgMax(s[..last]);
      assert forall i | 0 <= i < last :: s[..last][i] == s[i];
      if s[last] > s[j] then last else j
  }

  /** A scan that replaces its best only on a strictly smaller value: the first index holding the minimum. */
  function FirstArgMinInt(s: seq<int>): (r: nat)
    requires |s| > 0
    ensures r < |s|
    ensures forall j | 0 <= j < |s| :: s[r] <= s[j]
    ensures forall j | 0 <= j < r :: s[r] < s[j]
  {
    if |s| == 1 then 0
    else
      var last := |s| - 1;
      var j := FirstArgMinInt(s[..last]);
      assert forall i | 0 <= i < last :: s[..last][i] == s[i];
      if s[last] < s[j] then last else j
  }

  /** `sum(s)` over integers. */
  function SumInt(s: seq<int>): int {
    if |s| == 0 then 0 else s[0] + SumInt(s[1..])
  }

  lemma {:induction false} SumIntZero(s: seq<int>)
    requires forall i | 0 <= i < |s| :: s[i] == 0
    ensures SumInt(s) == 0
  {
    if |s| > 0 { SumIntZero(s[1..]); }
  }

  /** A sequence with no repeated element holds each element once. */
  lemma {:induction false} DistinctCountsOne<T>(s: seq<T>, x: T)
    requires forall i, j | 0 <= i < j < |s| :: s[i] != s[j]
    ensures multiset(s)[x] <= 1
  {
    if |s| > 0 {
      assert s == [s[0]] + s[1..];
      DistinctCountsOne(s[1..], x);
      if x == s[0] {
        assert x !in s[1..];
      }
    }
  }

  /** An element at two positions is counted at least twice. */
  lemma TwoPositions<T>(s: seq<T>, a: nat, b: nat)
    requires a < b < |s| && s[a] == s[b]
    ensures multiset(s)[s[a]] >= 2
  {
    assert s == s[..b] + [s[b]] + s[b + 1..];
    assert s[a] in s[..b];
  }
}

=== FILE: sorting.dfy ===
/**
 * Python's stable `sorted(..., key=..., reverse=...)` over keys that may be
 * +/-infinity (the source maps None to `float('-inf')` or `float('inf')`).
 */
module Sorting {

  /** A sort key: a real, or one of the two infinities used for missing values. */
  datatype XReal = NegInf | Fin(v: real) | PosInf

  predicate XLe(a: XReal, b: XReal) {
    match (a, b)
    case (NegInf, _) => true
    case (_, PosInf) => true
    case (Fin(x), Fin(y)) => x <= y
    case _ => false
  }

  /** In the sorted output `a` may precede `b`: ascending, or descending when `desc`. */
  predicate InOrder(a: XReal, b: XReal, desc: bool) {
    if desc then XLe(b, a) else XLe(a, b)
  }

  ghost predicate SortedBy<T>(s: seq<T>, key: T -> XReal, desc: bool) {
    forall i, j :: 0 <= i < j < |s| ==> InOrder(key(s[i]), key(s[j]), desc)
  }

  /** Equal keys keep the relative order given by `tie` (the original position). */
  ghost predicate StableBy<T>(s: seq<T>, key: T -> XReal, tie: T -> int) {
    forall i, j :: 0 <= i < j < |s| && key(s[i]) == key(s[j]) ==> tie(s[i]) < tie(s[j])
  }

  ghost predicate IncreasingBy<T>(s: seq<T>, tie: T -> int) {
    forall i, j :: 0 <= i < j < |s| ==> tie(s[i]) < tie(s[j])
  }

  lemma XLeTotal(a: XReal, b: XReal)
    ensures XLe(a, b) || XLe(b, a)
  {
  }

  lemma XLeTrans(a: XReal, b: XReal, c: XReal)
    requires XLe(a, b) && XLe(b, c)
    ensures XLe(a, c)
  {
  }

  lemma XLeAntisym(a: XReal, b: XReal)
    requires XLe(a, b) && XLe(b, a)
    ensures a == b
  {
  }

  /** Places `x` before the first element it may precede, so it stays ahead of equal keys. */
  function Insert<T>(x: T, t: seq<T>, key: T -> XReal, desc: bool): (r: seq<T>)
    requires SortedBy(t, key, desc)
    ensures SortedBy(r, key, desc)
    ensures multiset(r) == multiset(t) + multiset{x}
    ensures |r| == |t| + 1
  {
    if |t| == 0 then [x]
    else if InOrder(key(x), key(t[0]), desc) then
      InOrderTransFront(x, t, key, desc);
      [x] + t
    else
      XLeTotal(key(x), key(t[0]));
      var rest := Insert(x, t[1..], key, desc);
      assert t == [t[0]] + t[1..];
      InsertHeadBound(x, t, rest, key, desc);
      [t[0]] + rest
  }

  lemma InOrderTransFront<T>(x: T, t: seq<T>, key: T -> XReal, desc: bool)
    requires SortedBy(t, key, desc) && |t| > 0
    requires InOrder(key(x), key(t[0]), desc)
    ensures SortedBy([x] + t, key, desc)
  {
    var r := [x] + t;
    forall i, j | 0 <= i < j < |r|
      ensures InOrder(key(r[i]), key(r[j]), desc)
    {
      if i == 0 && j > 1 {
        if desc { XLeTrans(key(t[j - 1]), key(t[0]), key(x)); }
        else { XLeTrans(key(x), key(t[0]), key(t[j - 1])); }
      }
    }
  }

  lemma InsertHeadBound<T>(x: T, t: seq<T>, rest: seq<T>, key: T -> XReal, desc: bool)
    requires |t| > 0 && SortedBy(t, key, desc) && SortedBy(rest, key, desc)
    requires InOrder(key(t[0]), key(x), desc)
    requires multiset(rest) == multiset(t[1..]) + multiset{x}
    ensures SortedBy([t[0]] + rest, key, desc)
  {
    var r := [t[0]] + rest;
    forall j | 0 < j < |r|
      ensures InOrder(key(r[0]), key(r[j]), desc)
    {
      assert r[j] in multiset(rest);
      if r[j] != x {
        assert r[j] in multiset(t[1..]);
        var k :| 0 <= k < |t[1..]| && t[1..][k] == r[j];
        assert t[k + 1] == r[j];
      }
    }
  }

  /** Python's stable `sorted(s, key=key, reverse=desc)`. */
  function SortBy<T>(s: seq<T>, key: T -> XReal, desc: bool): (r: seq<T>)
    ensures SortedBy(r, key, desc)
    ensures multiset(r) == multiset(s)
    ensures |r| == |s|
  {
    if |s| == 0 then []
    else
      assert s == [s[0]] + s[1..];
      Insert(s[0], SortBy(s[1..], key, desc), key, desc)
  }

  lemma InsertStable<T>(x: T, t: seq<T>, key: T -> XReal, desc: bool, tie: T -> int)
    requires SortedBy(t, key, desc) && StableBy(t, key, tie)
    requires forall y | y in t :: tie(x) < tie(y)
    ensures StableBy(Insert(x, t, key, desc), key, tie)
  {
    if |t| > 0 && !InOrder(key(x), key(t[0]), desc) {
      InsertStable(x, t[1..], key, desc, tie);
      var rest := Insert(x, t[1..], key, desc);
      forall j | 0 <= j < |rest| && key(t[0]) == key(rest[j])
        ensures tie(t[0]) < tie(rest[j])
      {
        HeadTieBelow(x, t, rest, j, key, desc, tie);
      }
      assert Insert(x, t, key, desc) == [t[0]] + rest;
    }
  }

  lemma HeadTieBelow<T>(x: T, t: seq<T>, rest: seq<T>, j: int, key: T -> XReal, desc: bool, tie: T -> int)
    requires |t| > 0 && StableBy(t, key, tie)
    requires !InOrder(key(x), key(t[0]), desc)
    requires multiset(rest) == multiset(t[1..]) + multiset{x}
    requires 0 <= j < |rest| && key(t[0]) == key(rest[j])
    ensures tie(t[0]) < tie(rest[j])
  {
    assert rest[j] in multiset(rest);
    if rest[j] == x {
      assert InOrder(key(x), key(t[0]), desc);
    } else {
      assert rest[j] in multiset(t[1..]);
      var k :| 0 <= k < |t[1..]| && t[1..][k] == rest[j];
      assert t[k + 1] == rest[j];
    }
  }

  /** Sorting a sequence given in `tie` order keeps equal keys in that order. */
  lemma {:induction false} SortStable<T>(s: seq<T>, key: T -> XReal, desc: bool, tie: T -> int)
    requires IncreasingBy(s, tie)
    ensures StableBy(SortBy(s, key, desc), key, tie)
  {
    if |s| > 0 {
      assert IncreasingBy(s[1..], tie);
      SortStable(s[1..], key, desc, tie);
      var t := SortBy(s[1..], key, desc);
      forall y | y in t
        ensures tie(s[0]) < tie(y)
      {
        assert y in multiset(s[1..]);
        var k :| 0 <= k < |s[1..]| && s[1..][k] == y;
        assert s[k + 1] == y;
      }
      InsertStable(s[0], t, key, desc, tie);
    }
  }

  /** Sorting depends only on the values of the key. */
  lemma {:induction false} InsertKeyAgree<T>(x: T, t: seq<T>, k1: T -> XReal, k2: T -> XReal, desc: bool)
    requires SortedBy(t, k1, desc) && SortedBy(t, k2, desc)
    requires forall y :: k1(y) == k2(y)
    ensures Insert(x, t, k1, desc) == Insert(x, t, k2, desc)
  {
    if |t| > 0 && !InOrder(k1(x), k1(t[0]), desc) {
      InsertKeyAgree(x, t[1..], k1, k2, desc);
    }
  }

  lemma {:induction false} SortByKeyAgree<T>(s: seq<T>, k1: T -> XReal, k2: T -> XReal, desc: bool)
    requires forall y :: k1(y) == k2(y)
    ensures SortBy(s, k1, desc) == SortBy(s, k2, desc)
  {
    if |s| > 0 {
      SortByKeyAgree(s[1..], k1, k2, desc);
      var t := SortBy(s[1..], k1, desc);
      assert SortedBy(t, k2, desc);
      InsertKeyAgree(s[0], t, k1, k2, desc);
    }
  }
}

=== FILE: wrappers.dfy ===
/** Python's `None`-or-value, used for metrics, optional arguments and NaN cells. */
module Wrappers {

  datatype Option<+T> = None | Some(value: T) {

    /** The value, or `default` when None (Python's `x if x is not None else default`). */
    function GetOr(default: T): T {
      match this
      case Some(v) => v
      case None => default
    }
  }
}
